=== FILE: README.md ===
# ForeFlight logbook importer, modelled in Dafny

This project models the core of a small TypeScript library that reads a pilot's
ForeFlight logbook export and derives statistics from it. The model covers:

- the CSV line tokenizer (`parseCSVLine`);
- the table locator and record extractor of `parseForeflight`. It turns the lines
  of an export into aircraft records and flight records. The file read is not
  part of the model;
- the airport display and route sentences (`formatAirportDisplay`,
  `formatRouteDescription`);
- the summary statistics (`calculateLogbookSummary`);
- the certification list (`detectCertifications`);
- the milestone list (`detectMilestones`);
- the most-recent-flights view (`getRecentFlights`);
- the currency report (`getCurrencyInfo`);
- the CSV text written by `exportLogbook`. The model proves what happens when that
  text is read back by the importer.

Everything is pure functions over immutable datatypes. The program's
environment-dependent pieces are parameters:

- `NumberParsers` stands for JavaScript's `parseFloat` and `parseInt`. Each
  returns `None` for NaN.
- `Calendar` stands for `new Date(d).getTime()`, an integer key, and for
  `getFullYear().toString()`.
- `fmt` stands for JavaScript's number-to-text conversion.
- The airport table is a `map` from identifier to `AirportInfo`.
- `Cutoffs` holds the 90-day and 6-month cutoffs that `getCurrencyInfo` computes
  from the current clock.

Numbers are modelled as `real`. JavaScript's stable `Array.prototype.sort` with a
date comparator is modelled by a stable insertion sort on the date key (`Seqs.SortBy`).

Modules, one file each:

- `Types`: the records of src/types.ts.
- `Strings`, `Seqs`: generic helpers.
- `Tokenizer`: `parseCSVLine`.
- `Parser`: `parseForeflight` without I/O.
- `Airports`: display and route text.
- `Dates`: the chronological orders.
- `Summary`, `Certifications`, `Milestones`, `Recent`, `Currency`: src/analysis.ts.
- `Export`: the CSV branch of src/export.ts.
- `RoundTrip`: exporting, then importing.

## Model

| member | source | states |
|---|---|---|
| Tokenizer.ParseCsvLine | src/parser.ts:157-174 | The character loop returns exactly the tokenization of the line. It yields one field more than the line has commas outside quotes. Joining the fields with commas gives the line with its double quotes removed. |
| Tokenizer.TokenizeFieldCount | src/parser.ts:161-172 | The field count equals the number of commas preceded by an even number of quotes, plus one. It is never zero. |
| Tokenizer.TokenizeFieldBound | src/parser.ts:165-167 | A line never has more fields than commas plus one. |
| Tokenizer.TokenizeEmptyLine | src/parser.ts:172 | The empty line gives one empty field. |
| Tokenizer.TokenizeQuotedComma | src/parser.ts:163-167 | A comma inside double quotes stays inside its field, and the quotes are dropped. |
| Tokenizer.TokenizeJoin | src/parser.ts:161-172 | Re-joining the fields with commas gives back the line with every double quote removed. Nothing else is lost. |
| Tokenizer.TokenizeNoQuotes | src/parser.ts:163-164 | No field ever contains a double quote. |
| Tokenizer.RunInQuotes | src/parser.ts:163-165 | After any prefix, the in-quotes flag is set exactly when the prefix holds an odd number of quotes. |
| Tokenizer.TokenizeJoinPlain | src/parser.ts:157-174 | Fields without commas or quotes, joined with commas, tokenize back to themselves. |
| Tokenizer.RunExtends | src/parser.ts:161-171 | Reading more characters never changes the fields already emitted. |
| Parser.FindHeader | src/parser.ts:19-24 | Gives the first line at or after the start whose text begins with the prefix, or nothing when no such line exists. |
| Parser.LocateTables | src/parser.ts:18-38 | The Aircraft header is the first line with its prefix. The Flights header is the first line with its prefix strictly after that. Each of the two errors occurs exactly when its header cannot be found that way. |
| Parser.ParseForeflight | src/parser.ts:16-38 | A file without an Aircraft header, or without a later Flights header, gives two empty tables. The tables never have more records than the file has lines. |
| Parser.ParseAtOffsets | src/parser.ts:40-147 | Once both headers are found, the result is the extraction from those two offsets. |
| Parser.ExtractedAircraftRows | src/parser.ts:42-61 | The k-th aircraft is built field by field from the k-th line strictly between the headers that is not blank, has no import banner and has at least 13 fields. Such lines are kept in file order. Every such line yields a record. |
| Parser.AircraftFromTokens | src/parser.ts:44-60 | One aircraft per surviving row, each built from that row's first 13 fields. |
| Parser.DataRowsWide | src/parser.ts:45 | Every extracted row has at least the table's minimum number of fields. |
| Parser.ExtractedFlightRows | src/parser.ts:64-145 | The k-th flight comes from the k-th line after the Flights header that is not blank, has no import banner and has at least 30 fields. Its columns are looked up by name in that header. Its date, aircraft, departure and arrival are the row's first four fields. Every such line yields a flight, in file order. |
| Parser.FlightsHeaderColumns | src/parser.ts:69-75 | A line starting with the Flights header prefix puts Date, AircraftID, From and To at columns 0-3. |
| Parser.FlightKeyColumns | src/parser.ts:115-118 | Under a Flights header, a flight's date, aircraft and airports are the row's cells 0-3. |
| Parser.ColumnIndex | src/parser.ts:70 | The index lies in the header, or is -1 exactly when the name is absent. A non-negative index holds the name. |
| Parser.ColumnIndexFirst | src/parser.ts:70 | No earlier column holds the name: `indexOf` finds the first occurrence. |
| Parser.AbsentNumbers | src/parser.ts:124-138 | A numeric column missing from the header reads as 0 on every row. |
| Parser.AbsentTexts | src/parser.ts:119-143 | A missing route or clock-time column reads as undefined. A missing comment or event column reads as the empty string. |
| Parser.NumericColumnValue | src/parser.ts:124 | A present numeric cell gives its parsed value, or 0 when it does not parse. |
| Parser.ApproachesShape | src/parser.ts:107-113 | A flight has at most six approaches and none is empty. Each approach is the cell of an approach column present in the header. With no approach columns, the list is empty. |
| Parser.PresentCellsAll | src/parser.ts:107-113 | When all six approach cells are filled, all six are kept, in column order. |
| Airports.Find | src/parser.ts:228 | Looking up an identifier gives its record exactly when the table has the key. |
| Airports.Subdivision | src/parser.ts:210 | The piece after the first hyphen has no hyphen. A region code without a hyphen gives the text "undefined". |
| Airports.SubdivisionOfCode | src/parser.ts:209-210 | A code such as country-subdivision, with or without a further piece, gives the subdivision. |
| Airports.AirportDisplay | src/parser.ts:205-206 | An unknown airport, or one without a name, shows as the bare identifier. Otherwise the text is strictly longer than the identifier. |
| Airports.AirportDisplayShape | src/parser.ts:208-216 | A named airport's text starts with the name, then the town when known, then the region's subdivision when known. It ends with the identifier in parentheses. |
| Airports.RouteDescription | src/parser.ts:222-231 | The sentence reads as a local flight exactly when departure and arrival coincide, and then ends with that airport's text. Otherwise it names the departure airport, then " to ", then the arrival airport. |
| Airports.RouteWithoutAirports | src/parser.ts:222-231 | With an empty airport table, both sentences use the bare identifiers. |
| Dates.Chronological | src/analysis.ts:22-24 | The sorted copy is a permutation of the flights, oldest first, and flights on the same day keep their logbook order. |
| Dates.MostRecentFirst | src/analysis.ts:243-245 | The sorted copy is a permutation of the flights, newest first, and flights on the same day keep their logbook order. |
| Dates.ChronologicalUnique | src/analysis.ts:22-24 | Any oldest-first arrangement that keeps each day's flights in logbook order is the sorted copy, so the stable sort has exactly one result. |
| Dates.MostRecentFirstUnique | src/analysis.ts:221-223 | Any newest-first arrangement that keeps each day's flights in logbook order is the sorted copy. |
| Seqs.StableSortUnique | src/analysis.ts:22-24 | Two sequences sorted by the same key, whose elements with each key come in the same order, are equal. |
| Dates.ChronologicalFirstIsEarliest | src/analysis.ts:25-26 | The first sorted flight is no later than any flight. The last is no earlier than any flight. |
| Dates.ChronologicalEndsLogged | src/analysis.ts:25-26 | The first and last sorted flights are flights of the logbook, so the summary's dates are real flight dates. |
| Seqs.SortByStable | src/analysis.ts:22-24 | The sort is stable: flights with equal dates keep their relative order. |
| Summary.AircraftById | src/analysis.ts:17-20 | The lookup finds an aircraft with that id, or none exactly when no aircraft has the id. |
| Summary.AircraftByIdIsLast | src/analysis.ts:18-19 | When ids repeat, the last aircraft with that id wins, because each entry overwrites the map. |
| Summary.LabelFor | src/analysis.ts:64-71 | An aircraft not in the table is labelled Unknown / its id / Unknown. The make and type labels are never empty. A known non-empty make is kept. |
| Summary.CalculateSummary | src/analysis.ts:14-106 | Every hour and landing total is the sum of that field over all flights, and instrument hours are actual plus simulated. The airport list is distinct, is exactly the non-empty departure and arrival airports, and lists them in the order they first appear in the logbook, each flight's departure before its arrival. The per-aircraft and per-type tables have one entry per id or type flown. Each entry holds the hours and the count of exactly the flights with its key. Each table counts every flight once and adds up to the total hours. The unique aircraft count is the number of ids flown. The first and last dates are dates of logged flights and bound every flight's date. The years flying are computed from those two dates. |
| Summary.TallyHours | src/analysis.ts:47-51 | The running total, PIC, SIC and cross-country hours equal the sums over the flights. |
| Summary.TallyConditions | src/analysis.ts:52-54 | The running night, actual-instrument and simulated-instrument hours equal the sums over the flights. |
| Summary.TallyLandings | src/analysis.ts:55-57 | The running landing counts equal the sums over the flights. |
| Summary.TallyAirports | src/analysis.ts:59-60 | The airport list holds each non-empty departure or arrival once. An airport comes before another exactly when it is first mentioned earlier, scanning each flight's departure, then its arrival, in logbook order, as a Set's insertion order gives. |
| Summary.AircraftRollups | src/analysis.ts:62-74 | One entry per aircraft id flown, with distinct keys. The flight counts add up to the number of flights, and the hours add up to the total time. |
| Summary.AircraftRollupEntries | src/analysis.ts:62-74 | Each aircraft entry holds the total time and the count of exactly the flights logged with its aircraft id. |
| Summary.TypeRollups | src/analysis.ts:76-84 | One entry per type flown, with 'Unknown' for aircraft not in the table, and distinct keys. The flight counts and hours add up as for aircraft. |
| Summary.TypeRollupEntries | src/analysis.ts:76-84 | Each type entry holds the total time and the count of exactly the flights whose aircraft has that type key. |
| Summary.TallyLabels | src/analysis.ts:64-72 | Each aircraft entry's make, model and type labels are derived from the aircraft table's record for that entry's id, with the defaults for an id not in the table. |
| Summary.BumpFacts | src/analysis.ts:64-74 | Adding a flight to a rollup keeps keys distinct, adds its key, and adds its hours and one flight. Existing entries keep their key and label. |
| Summary.BumpMatches | src/analysis.ts:64-84 | If every entry holds the sum and count of the flights with its key, filing one more flight under its key keeps that true for the longer list. |
| Summary.YearsFlying | src/analysis.ts:28-30 | The value is 0 exactly when a date is missing, and at least 1 otherwise. A span of at most 365 days gives 1. Beyond one year it is the span in days rounded up to whole 365-day years. |
| Summary.SummaryOrderIndependent | src/analysis.ts:47-57 | Reordering the flights leaves every hour and landing total unchanged. |
| Summary.RollupCount | src/analysis.ts:98 | A rollup table with distinct keys has as many keys as entries, so the aircraft count is the table size. |
| Certifications.TitleIsFirstMatch | src/analysis.ts:124-131 | The conditional chain is the first matching rule of the seven keyword/title rules, falling back to the comments themselves. |
| Certifications.FirstRuleTitle | src/analysis.ts:124-131 | With no keyword present the title is the comments. Otherwise it is the title of the first rule whose keyword occurs. |
| Certifications.CfiInstrumentNeverTitled | src/analysis.ts:127-128 | The title 'CFI Instrument' is never produced, because any text containing "CFII" also contains "CFI". |
| Certifications.TitleRange | src/analysis.ts:124-131 | A title is one of the rule titles or the comments themselves. |
| Certifications.DetectCertifications | src/analysis.ts:111-142 | The records are one per checkride flight, as a multiset, oldest first. Each is built from a checkride flight of the logbook. |
| Certifications.DescriptionsQuoteComments | src/analysis.ts:133-137 | Every record carries the date of a checkride flight, its comments behind "Checkride: ", and the title derived from those comments. |
| Milestones.DetectMilestones | src/analysis.ts:147-212 | No flights give no milestones. Otherwise the first is the first-flight milestone of the earliest flight, followed by the first-solo milestone of the earliest solo flight when any flight has solo time. The rest is one hour milestone per threshold crossing, in order. The length is exactly one, plus one with a solo, plus the number of crossings. |
| Milestones.FirstFlightEarliest | src/analysis.ts:155-172 | The first milestone describes a logged flight that is no later than any other flight. |
| Milestones.FirstSoloEarliest | src/analysis.ts:175-187 | When some flight has solo time, the second milestone describes a flight with solo time that is no later than any other such flight. |
| Milestones.EarliestSolo | src/analysis.ts:155-175 | The first solo flight of the oldest-first order is a logged flight with solo time, no later than any other flight with solo time. |
| Milestones.AircraftSentenceText | src/analysis.ts:165-171 | The first-flight and first-solo descriptions read as the lead, then "during ". They use the local-flight wording exactly when the flight departs and arrives at one airport, and otherwise the from/to wording naming the departure airport. They end with " in a " and the aircraft text. |
| Milestones.HourText | src/analysis.ts:199-206 | An hour milestone carries the crossing flight's year and the threshold's decimal digits in its title. Its description reads "Reached N total flight hours during " and uses the local wording exactly when the flight departs and arrives at one airport. |
| Airports.RouteSentence | src/parser.ts:222-231 | A sentence built around a route description starts with its lead and then "during ". It takes the local wording exactly when departure and arrival coincide, names the departure airport otherwise, and ends with its tail. |
| Milestones.FirstSolo | src/analysis.ts:175 | The first solo is the earliest flight in sorted order with positive solo time, and there is none exactly when no flight has any. |
| Milestones.SoloFound | src/analysis.ts:175-176 | The sorted flights have a solo exactly when the logbook does. |
| Milestones.Crossed | src/analysis.ts:197-198 | A threshold is crossed by a flight exactly when the hours before it are below the threshold and the hours after are at or above it. |
| Milestones.CrossingsCharacterized | src/analysis.ts:193-209 | Flight n crosses threshold t exactly when the cumulative hours before that flight are below t and the hours including it reach t. |
| Milestones.CrossingsSnoc | src/analysis.ts:193-198 | One more flight appends exactly the thresholds it crosses, and advances the cumulative hours by its time. |
| Milestones.CrossingsOnce | src/analysis.ts:193-209 | With non-negative times, the crossed thresholds come out in ascending order, each at most once. They are exactly the thresholds no greater than the total hours. |
| Milestones.HourMilestonesOnce | src/analysis.ts:190-209 | With non-negative flight times, for the real threshold list, each hour milestone fires at most once, in ascending order, exactly for the thresholds reached by the total time. |
| Milestones.HourMarksAscending | src/analysis.ts:190 | The thresholds are positive and strictly ascending. |
| Milestones.RollupFor | src/analysis.ts:163 | The lookup of an aircraft's rollup finds one exactly when the id is a key of the table, and what it finds is an entry of the table with that key. |
| Milestones.AircraftTextUnknown | src/analysis.ts:163 | An aircraft without a rollup entry is described by its id alone. |
| Milestones.AircraftTextKnown | src/analysis.ts:163 | An aircraft whose rollup gives both a make and a model, neither padded with spaces, is described as the make, a space, and the model. |
| Recent.SliceEnd | src/analysis.ts:226 | The slice end is the count clamped to the length. A negative count is taken back from the end, clamped at 0. |
| Recent.RecentFlights | src/analysis.ts:217-227 | The result has the sliced length, newest first, and is a sub-multiset of the flights. Every flight left out is no newer than every flight returned. It is the first `count` flights of the stable newest-first order. |
| Recent.RecentFlightsUnique | src/analysis.ts:221-226 | The result is the slice of any newest-first arrangement that keeps each day's flights in logbook order, so among flights on one day the earlier logbook entries are kept first. |
| Recent.NewestPrefix | src/analysis.ts:221-226 | A prefix of a newest-first order holds the newest flights. |
| Recent.AllFlights | src/analysis.ts:226 | A count at least the number of flights returns every flight. |
| Recent.DefaultCount | src/analysis.ts:217 | Without a count, the call returns five flights, or every flight when the logbook has fewer than five. |
| Recent.CountMonotone | src/analysis.ts:226 | A smaller count gives a prefix of a larger count's answer. |
| Currency.CurrencyOf | src/analysis.ts:232-320 | Instrument currency holds exactly when the flights of the last six months log at least 6 approaches and one of them mentions a hold. With non-negative landing counts, passenger currency holds exactly when the last 90 days log at least 3 landings; night currency is the same with night landings. |
| Currency.LastReviewIsNewest | src/analysis.ts:277-279 | The last flight review is empty exactly when no dated flight has one. Otherwise it is the date of a flight with a review, and no dated review flight is newer. |
| Currency.LastIpcIsNewest | src/analysis.ts:282-284 | The same for the last IPC. |
| Currency.FirstFlaggedDate | src/analysis.ts:277-284 | The latch takes the date of the first flight in scan order that is flagged and dated. It stays empty exactly when there is none. |
| Currency.ScanFullSums | src/analysis.ts:286-294 | Without the break, the counters are the sums over the flights inside each window. |
| Currency.ScanFullLatches | src/analysis.ts:277-299 | Without the break, the hold flag is set exactly when some flight in the six-month window mentions a hold, case-insensitively, in either comment. |
| Currency.EarlyExitAgrees | src/analysis.ts:302-306 | With non-negative landing counts, breaking out early gives the same verdict as scanning every flight. |
| Currency.EarlyExitKeepsLatches | src/analysis.ts:302-312 | For any landing counts, breaking early never changes instrument currency or either latch. |
| Currency.SatisfiedStays | src/analysis.ts:303-305 | Once the exit condition holds, more flights with non-negative landings cannot change the verdict. |
| Currency.CurrencyWindows | src/analysis.ts:243-312 | The verdict of the sorted, early-exiting scan depends only on the flights in each window, not on their order. |
| Currency.HoldAnywhere | src/analysis.ts:293-299 | A recent hold is found in the sorted order exactly when the logbook has one. |
| Export.ExportLines | src/export.ts:15-29 | The export has the aircraft header, one line per aircraft, an empty line, the flights header, then one line per flight. That is three lines more than there are aircraft and flights together. |
| Export.ExportSplits | src/export.ts:15-29 | With single-line fields, the text holds exactly one newline per aircraft and per flight, plus three, and splitting it at newlines recovers those lines plus a final empty piece. |
| Export.AircraftFields | src/export.ts:19 | An aircraft line has 13 fields in the header's column order. |
| Export.FlightFields | src/export.ts:28 | A flight line has 21 fields, starting with date, aircraft, from and to. The approaches are joined with a vertical bar. The route is written as its text, or `undefined` when missing. The comment has every comma replaced by ';' and every other character kept. |
| Export.AircraftHeaderFound | src/export.ts:16 | The exported aircraft header starts with the prefix the importer searches for, and not with the flights prefix. |
| Export.FlightsHeaderFound | src/export.ts:25 | The exported flights header starts with the prefix the importer searches for. |
| Export.FlightLineCommas | src/export.ts:28 | A flight line whose fields carry no commas has exactly 20 commas. |
| RoundTrip.AircraftLineRoundTrip | src/export.ts:19 | An aircraft line with plain fields tokenizes back to its 13 fields, and the importer rebuilds the same aircraft. |
| RoundTrip.AircraftLineIsRow | src/parser.ts:43-45 | An aircraft line with plain fields and no import banner passes the importer's skip rules. |
| RoundTrip.FlightLineIsNotRow | src/parser.ts:67 | When every field but the comments is free of commas, an exported flight line has 21 fields, fewer than the 30 the importer requires, so it is skipped. |
| RoundTrip.ExportThenImport | src/export.ts:15-29 | For an export whose aircraft fields are plain cells, whose aircraft lines hold no import banner and do not look like the flights header, and whose flight fields hold no line breaks and, apart from the comments, no commas, importing it gives back every aircraft and no flights. |

## Left out

- File and console I/O: reading the export, the log lines, writing the exported file, and the `true`/`false` result of `exportLogbook`. The models are pure functions.
- The JSON branch of `exportLogbook` is not part of this model. It is only `JSON.stringify`.
- `loadAirportData` and its CSV library are not part of this model. Its result is the `airports` parameter of `DetectMilestones` and `RouteDescription`.
- `async`/`await`: every operation is modelled as synchronous.
- Date parsing and the current clock: `new Date(...)`, `getTime()`, `getFullYear()`, and the `setDate`/`setMonth` arithmetic are parameters (`Calendar`, `Cutoffs`). An unparsable date (NaN) makes JavaScript's comparator inconsistent; the model's integer key cannot express that.
- The division by milliseconds per year is folded into `Calendar.dateKey` being in days.
- Floating-point arithmetic: hours and landings are `real`. `parseFloat`, `parseInt` and number-to-text are parameters.
- Summary.CalculateSummary: the rollups are sequences in first-insertion order. A JavaScript object lists integer-like keys first, and keys such as `__proto__` behave specially; neither is modelled.
- Airports.Find: a lookup on a plain JavaScript object also sees inherited members, so an identifier such as `constructor` finds a value even when the table has no such key (src/parser.ts:228). The map model does not. The same holds for the aircraft rollup lookup in Milestones.RollupFor (src/analysis.ts:163).
- Milestones.HourMilestonesOnce: stated only for non-negative flight times. `parseFloat` accepts a negative cell such as "-2", and after the cumulative time drops below a threshold the next flight can cross it again, so a negative flight time can repeat a milestone.
- Currency.MentionsHold: lower-casing covers ASCII letters only.
- Parser.FlightOf: when a key column is missing, JavaScript stores `undefined` for date, aircraft, from or to; the model stores "". Under a located Flights header those four columns always resolve, as `Parser.FlightKeyColumns` proves, so the difference never arises.
- Export.FlightFields: numbers, routes and missing fields are written through `fmt` and `RouteText`; `Export.FlightFields` states the field count, the key fields, the route, the approaches and the comment, but not the exact text of the numeric fields.
- Recent.RecentFlights: a fractional `count` is not modelled; the count is an integer.
- Currency.CurrencyOf: passenger and night currency are stated only for non-negative landing counts. With a negative count, the early `break` can stop before a later flight would lower the sum, so the early scan and the full window sum can disagree; `Currency.EarlyExitKeepsLatches` covers the parts that agree for every input.
- RoundTrip.ExportThenImport: the round trip holds for aircraft only, and only for exports that meet `Reimportable`: plain aircraft fields, no import banner or flights-header look-alike among the aircraft lines, and flight fields without line breaks and, apart from the comments, without commas. Under that premise exported flight lines are dropped on re-import (`RoundTrip.FlightLineIsNotRow`), so no round trip for flights is stated. The export writes the route, the airports and the approaches unquoted (src/export.ts:28); nine commas among them give a flight line 30 fields, and the importer then reads it back as a flight, which the model does not describe.
- RoundTrip.AircraftLineIsRow: stated only for lines without the import banner; an aircraft whose fields contain the banner text is skipped by the importer (src/parser.ts:43).
- RoundTrip.FlightLineIsNotRow: stated only for flight fields other than the comments that hold no comma; see the `RoundTrip.ExportThenImport` line.
- The `catch` of `parseForeflight` also swallows runtime failures of the file read. Only the two header errors are modelled.

=== FILE: airports.dfy ===
/** Airport display text and route descriptions (src/parser.ts:203-231). The
    airport table is a parameter; loading it from disk is not modelled. */
module Airports {
  import opened Types
  import opened Strings

  const LocalFlightLead: string := "during a local flight at "
  const CrossCountryLead: string := "during flight from "

  /** `airports[ident]`: `undefined` when the table has no such key. */
  function Find(airports: map<string, AirportInfo>, ident: string): (r: Option<AirportInfo>)
    ensures r.Some? <==> ident in airports
    ensures r.Some? ==> r.value == airports[ident]
  {
    if ident in airports then Some(airports[ident]) else None
  }

  /** `iso_region.split('-')[1]`: the text between the first and second hyphen,
      or the word `undefined` that the template literal prints for a missing piece. */
  function Subdivision(isoRegion: string): (r: string)
    ensures '-' in isoRegion ==> '-' !in r
    ensures '-' !in isoRegion ==> r == "undefined"
  {
    var pieces := SplitOn(isoRegion, '-');
    if |pieces| >= 2 then
      assert '-' in isoRegion by {
        if '-' !in isoRegion {
          CountCharAbsent(isoRegion, '-');
        }
      }
      pieces[1]
    else
      assert '-' !in isoRegion by {
        if '-' in isoRegion {
          var i :| 0 <= i < |isoRegion| && isoRegion[i] == '-';
          CountCharAt(isoRegion, '-', i);
        }
      }
      "undefined"
  }

  lemma {:induction false} CountCharAt(s: string, c: char, i: nat)
    requires i < |s| && s[i] == c
    ensures CountChar(s, c) >= 1
    decreases i
  {
    if i > 0 {
      CountCharAt(s[1..], c, i - 1);
    }
  }

  /** `"US-VA"` gives `"VA"`: a country code and a subdivision code come apart at the hyphen. */
  lemma SubdivisionOfCode(country: string, sub: string, rest: string)
    requires '-' !in country && '-' !in sub
    ensures Subdivision(country + "-" + sub) == sub
    ensures Subdivision(country + "-" + sub + "-" + rest) == sub
  {
    SplitOnCons(country, '-', sub);
    SplitOnPlain(sub, '-');
    assert country + "-" + sub == country + ['-'] + sub;
    SplitOnCons(country, '-', sub + "-" + rest);
    SplitOnCons(sub, '-', rest);
    assert country + "-" + sub + "-" + rest == country + ['-'] + (sub + ['-'] + rest);
  }

  /** `formatAirportDisplay`: the bare identifier unless the airport is known by name. */
  function AirportDisplay(identifier: string, info: Option<AirportInfo>): (r: string)
    ensures (info.None? || info.value.name == "") ==> r == identifier
    ensures info.Some? && info.value.name != "" ==> |r| > |identifier| + 3
  {
    if info.None? || info.value.name == "" then identifier
    else
      var a := info.value;
      var tail := " (" + identifier + ")";
      if a.municipality != "" && a.isoRegion != "" then
        a.name + (" in " + a.municipality) + (", " + Subdivision(a.isoRegion)) + tail
      else if a.municipality != "" then
        a.name + (" in " + a.municipality) + tail
      else
        a.name + tail
  }

  /** A named airport reads as its name, then the town (and state) when known,
      then the identifier in parentheses. */
  lemma AirportDisplayShape(identifier: string, a: AirportInfo)
    requires a.name != ""
    ensures var r := AirportDisplay(identifier, Some(a));
      && IsPrefix(a.name, r)
      && IsSuffix(" (" + identifier + ")", r)
      && (a.municipality != "" ==> IsPrefix(a.name + (" in " + a.municipality), r))
      && (a.municipality != "" && a.isoRegion != "" ==>
            IsSuffix(", " + Subdivision(a.isoRegion) + " (" + identifier + ")", r))
      && (a.municipality == "" ==> r == a.name + " (" + identifier + ")")
  {
    var r := AirportDisplay(identifier, Some(a));
    var tail := " (" + identifier + ")";
    var town := " in " + a.municipality;
    if a.municipality != "" && a.isoRegion != "" {
      var state := ", " + Subdivision(a.isoRegion);
      assert r == a.name + town + state + tail;
      Pieces4(a.name, town, state, tail);
      assert ", " + Subdivision(a.isoRegion) + " (" + identifier + ")" == state + tail;
    } else if a.municipality != "" {
      assert r == a.name + town + tail;
      Pieces3(a.name, town, tail);
    } else {
      assert r == a.name + tail;
      AppendPrefix(a.name, tail);
      AppendSuffix(a.name, tail);
      assert a.name + " (" + identifier + ")" == a.name + tail;
    }
  }

  /** Prefixes and suffixes of a three-piece concatenation. */
  lemma Pieces3(w: string, x: string, z: string)
    ensures IsPrefix(w, w + x + z) && IsPrefix(w + x, w + x + z)
    ensures IsSuffix(z, w + x + z)
  {
    AppendPrefix(w, x + z);
    AppendPrefix(w + x, z);
    AppendSuffix(w + x, z);
    assert w + x + z == w + (x + z);
  }

  /** Prefixes and suffixes of a four-piece concatenation. */
  lemma Pieces4(w: string, x: string, y: string, z: string)
    ensures IsPrefix(w, w + x + y + z) && IsPrefix(w + x, w + x + y + z)
    ensures IsSuffix(z, w + x + y + z) && IsSuffix(y + z, w + x + y + z)
  {
    AppendPrefix(w, x + y + z);
    AppendPrefix(w + x, y + z);
    assert w + x + y + z == w + (x + y + z);
    assert w + x + y + z == (w + x) + (y + z);
    AppendSuffix(w + x + y, z);
    AppendSuffix(w + x, y + z);
  }

  lemma AppendPrefix(a: string, b: string)
    ensures IsPrefix(a, a + b)
  {
    assert (a + b)[..|a|] == a;
  }

  lemma AppendSuffix(a: string, b: string)
    ensures IsSuffix(b, a + b)
  {
    assert (a + b)[|a + b| - |b|..] == b;
  }

  /** `formatRouteDescription`: a local flight when departure and arrival coincide,
      otherwise a from/to sentence naming both airports. */
  function RouteDescription(from: string, to: string, airports: map<string, AirportInfo>): (r: string)
    ensures IsPrefix(LocalFlightLead, r) <==> from == to
    ensures from == to ==> IsSuffix(AirportDisplay(from, Find(airports, from)), r)
    ensures from != to ==>
      && IsPrefix(CrossCountryLead + AirportDisplay(from, Find(airports, from)) + " to ", r)
      && IsSuffix(AirportDisplay(to, Find(airports, to)), r)
  {
    if from == to then
      var d := AirportDisplay(from, Find(airports, from));
      AppendPrefix(LocalFlightLead, d);
      AppendSuffix(LocalFlightLead, d);
      LocalFlightLead + d
    else
      var head := CrossCountryLead + AirportDisplay(from, Find(airports, from)) + " to ";
      var d := AirportDisplay(to, Find(airports, to));
      var r := head + d;
      AppendPrefix(head, d);
      AppendSuffix(head, d);
      assert r == CrossCountryLead + (AirportDisplay(from, Find(airports, from)) + " to " + d);
      assert r[7] == CrossCountryLead[7] == 'f' != LocalFlightLead[7];
      r
  }

  /** A prefix of the middle part of a three-part string, behind the first part,
      is a prefix of the whole. */
  lemma PrefixInside(lead: string, p: string, x: string, tail: string)
    requires IsPrefix(p, x)
    ensures IsPrefix(lead + p, lead + x + tail)
  {
    var s := lead + x + tail;
    assert forall i :: 0 <= i < |p| ==> s[|lead| + i] == x[i];
    assert s[..|lead| + |p|] == lead + p;
  }

  /** A string whose character at some position differs from a candidate
      prefix's does not start with it, behind any common lead. */
  lemma MismatchInside(lead: string, p: string, x: string, tail: string, i: nat)
    requires i < |p| && i < |x| && p[i] != x[i]
    ensures !IsPrefix(lead + p, lead + x + tail)
  {
    var s := lead + x + tail;
    assert s[|lead| + i] == x[i];
    assert (lead + p)[|lead| + i] == p[i];
  }

  lemma PrefixTrans(a: string, b: string, c: string)
    requires IsPrefix(a, b) && IsPrefix(b, c)
    ensures IsPrefix(a, c)
  {
    assert c[..|a|] == c[..|b|][..|a|];
  }

  lemma Regroup(a: string, b: string, c: string, d: string)
    ensures a + (b + c + d) == a + b + c + d
  {
  }

  /** The layout of a sentence built around a route description, as every
      milestone text is: the lead, then "during", then either the local-flight
      wording (exactly when departure and arrival coincide) or the from/to
      wording naming the departure airport, and the tail at the end. */
  lemma RouteSentence(lead: string, from: string, to: string, airports: map<string, AirportInfo>, tail: string, s: string)
    requires s == lead + RouteDescription(from, to, airports) + tail
    ensures IsPrefix(lead + "during ", s)
    ensures IsPrefix(lead + LocalFlightLead, s) <==> from == to
    ensures from != to ==> IsPrefix(lead + CrossCountryLead + AirportDisplay(from, Find(airports, from)) + " to ", s)
    ensures IsSuffix(tail, s)
  {
    var r := RouteDescription(from, to, airports);
    AppendSuffix(lead + r, tail);
    if from == to {
      PrefixInside(lead, LocalFlightLead, r, tail);
      PrefixTrans("during ", LocalFlightLead, r);
    } else {
      var head := CrossCountryLead + AirportDisplay(from, Find(airports, from)) + " to ";
      PrefixInside(lead, head, r, tail);
      Regroup(lead, CrossCountryLead, AirportDisplay(from, Find(airports, from)), " to ");
      PrefixTrans("during ", head, r);
      assert r[7] == head[7] == 'f';
      MismatchInside(lead, LocalFlightLead, r, tail, 7);
    }
    PrefixInside(lead, "during ", r, tail);
  }

  /** Without airport data, routes read with bare identifiers. */
  lemma RouteWithoutAirports(from: string, to: string)
    ensures from == to ==> RouteDescription(from, to, map[]) == LocalFlightLead + from
    ensures from != to ==> RouteDescription(from, to, map[]) == CrossCountryLead + from + " to " + to
  {
  }
}

=== FILE: certifications.dfy ===
/** `detectCertifications` (src/analysis.ts:111-142): one record per checkride
    flight, oldest first, titled by the first keyword found in the pilot comments. */
module Certifications {
  import opened Types
  import opened Strings
  import opened Seqs
  import opened Dates

  /** A keyword to look for in the pilot comments and the title it yields. */
  datatype TitleRule = TitleRule(keyword: string, title: string)

  /** The keyword chain, in the order the nested conditional tests it. */
  const TitleRules: seq<TitleRule> := [
    TitleRule("Private", "Private Pilot Certificate"),
    TitleRule("Instrument", "Instrument Rating"),
    TitleRule("Commercial", "Commercial Pilot Certificate"),
    TitleRule("CFI", "Certified Flight Instructor"),
    TitleRule("CFII", "CFI Instrument"),
    TitleRule("MEI", "Multi-Engine Instructor"),
    TitleRule("ATP", "Airline Transport Pilot")]

  /** The nested conditional of the source, keyword by keyword. */
  function CertificationTitle(comments: string): string {
    if Contains(comments, "Private") then "Private Pilot Certificate"
    else if Contains(comments, "Instrument") then "Instrument Rating"
    else if Contains(comments, "Commercial") then "Commercial Pilot Certificate"
    else if Contains(comments, "CFI") then "Certified Flight Instructor"
    else if Contains(comments, "CFII") then "CFI Instrument"
    else if Contains(comments, "MEI") then "Multi-Engine Instructor"
    else if Contains(comments, "ATP") then "Airline Transport Pilot"
    else comments
  }

  /** Reference reading of the chain: the title of the first rule, from position `i`
      on, whose keyword occurs in the comments. */
  function FirstRuleTitle(rules: seq<TitleRule>, comments: string, i: nat): (r: string)
    ensures (forall k :: i <= k < |rules| ==> !Contains(comments, rules[k].keyword)) ==> r == comments
    ensures forall k :: i <= k < |rules| && Contains(comments, rules[k].keyword) ==>
      (forall j :: i <= j < k ==> !Contains(comments, rules[j].keyword)) ==> r == rules[k].title
    decreases |rules| - i
  {
    if i >= |rules| then comments
    else if Contains(comments, rules[i].keyword) then rules[i].title
    else FirstRuleTitle(rules, comments, i + 1)
  }

  /** The conditional chain is exactly first-match over the rule table. */
  lemma TitleIsFirstMatch(comments: string)
    ensures CertificationTitle(comments) == FirstRuleTitle(TitleRules, comments, 0)
  {
    var r := TitleRules;
    assert r[0] == TitleRule("Private", "Private Pilot Certificate");
    assert r[1] == TitleRule("Instrument", "Instrument Rating");
    assert r[2] == TitleRule("Commercial", "Commercial Pilot Certificate");
    assert r[3] == TitleRule("CFI", "Certified Flight Instructor");
    assert r[4] == TitleRule("CFII", "CFI Instrument");
    assert r[5] == TitleRule("MEI", "Multi-Engine Instructor");
    assert r[6] == TitleRule("ATP", "Airline Transport Pilot");
    assert |r| == 7;
  }

  /** `CFII` contains `CFI`, so the CFII rule is shadowed by the CFI rule. */
  lemma CfiiImpliesCfi(comments: string)
    requires Contains(comments, "CFII")
    ensures Contains(comments, "CFI")
  {
    var i := ContainsWitness(comments, "CFII");
    assert comments[i..i + 3] == comments[i..i + 4][..3] == "CFI";
    ContainsAt(comments, "CFI", i);
  }

  /** The title 'CFI Instrument' is never produced: comments mentioning CFII are
      titled 'Certified Flight Instructor', and the fall-through returns comments
      that contain none of the keywords, which 'CFI Instrument' does. */
  lemma CfiInstrumentNeverTitled(comments: string)
    ensures CertificationTitle(comments) != "CFI Instrument"
  {
    if Contains(comments, "CFII") {
      CfiiImpliesCfi(comments);
    }
    if comments == "CFI Instrument" {
      assert comments[..3] == "CFI";
      ContainsAt(comments, "CFI", 0);
    }
  }

  /** A title is one of the rule titles, or the comments themselves. */
  lemma TitleRange(comments: string)
    ensures var t := CertificationTitle(comments);
      t == comments || exists k :: 0 <= k < |TitleRules| && TitleRules[k].title == t
  {
    var t := CertificationTitle(comments);
    if t != comments {
      var r := TitleRules;
      if t == r[0].title {} else if t == r[1].title {} else if t == r[2].title {}
      else if t == r[3].title {} else if t == r[4].title {} else if t == r[5].title {}
      else { assert t == r[6].title; }
    }
  }

  predicate HasCheckride(f: FlightEntry) {
    f.checkride != ""
  }

  /** The record pushed for one checkride flight. */
  function CertificationOf(f: FlightEntry): Certification {
    Certification(CertificationTitle(f.pilotComments), f.date, "Checkride: " + f.pilotComments)
  }

  /** The certifications found in a logbook: one record for every flight with a
      checkride entry, whatever its remarks say, oldest first. */
  function DetectCertifications(data: LogbookData, cal: Calendar): (r: seq<Certification>)
    ensures multiset(r) == multiset(Map(Filter(data.flights, HasCheckride), CertificationOf))
    ensures |r| == |Filter(data.flights, HasCheckride)|
    ensures forall i, j :: 0 <= i < j < |r| ==> cal.dateKey(r[i].date) <= cal.dateKey(r[j].date)
    ensures forall k :: 0 <= k < |r| ==>
      exists f :: f in data.flights && HasCheckride(f) && r[k] == CertificationOf(f)
  {
    var sorted := Chronological(data.flights, cal);
    CheckridesOfSorted(sorted, data.flights, cal);
    Map(Filter(sorted, HasCheckride), CertificationOf)
  }

  /** The checkride records of any date-ordered permutation of the flights. */
  lemma CheckridesOfSorted(sorted: seq<FlightEntry>, flights: seq<FlightEntry>, cal: Calendar)
    requires multiset(sorted) == multiset(flights)
    requires forall i, j :: 0 <= i < j < |sorted| ==> cal.dateKey(sorted[i].date) <= cal.dateKey(sorted[j].date)
    ensures var r := Map(Filter(sorted, HasCheckride), CertificationOf);
      && multiset(r) == multiset(Map(Filter(flights, HasCheckride), CertificationOf))
      && |r| == |Filter(flights, HasCheckride)|
      && (forall i, j :: 0 <= i < j < |r| ==> cal.dateKey(r[i].date) <= cal.dateKey(r[j].date))
      && (forall k :: 0 <= k < |r| ==> exists f :: f in flights && HasCheckride(f) && r[k] == CertificationOf(f))
  {
    CheckridesPermuted(sorted, flights);
    CheckridesOrdered(sorted, cal);
    CheckridesFrom(sorted, flights);
  }

  lemma CheckridesPermuted(sorted: seq<FlightEntry>, flights: seq<FlightEntry>)
    requires multiset(sorted) == multiset(flights)
    ensures var r := Map(Filter(sorted, HasCheckride), CertificationOf);
      && multiset(r) == multiset(Map(Filter(flights, HasCheckride), CertificationOf))
      && |r| == |Filter(flights, HasCheckride)|
  {
    var picked := Filter(sorted, HasCheckride);
    FilterPermutation(sorted, flights, HasCheckride);
    MapPermutation(picked, Filter(flights, HasCheckride), CertificationOf);
    assert |picked| == |multiset(picked)| == |multiset(Filter(flights, HasCheckride))|;
  }

  lemma CheckridesOrdered(sorted: seq<FlightEntry>, cal: Calendar)
    requires forall i, j :: 0 <= i < j < |sorted| ==> cal.dateKey(sorted[i].date) <= cal.dateKey(sorted[j].date)
    ensures var r := Map(Filter(sorted, HasCheckride), CertificationOf);
      forall i, j :: 0 <= i < j < |r| ==> cal.dateKey(r[i].date) <= cal.dateKey(r[j].date)
  {
    var picked := Filter(sorted, HasCheckride);
    var r := Map(picked, CertificationOf);
    assert SortedBy(sorted, Oldest(cal));
    FilterSorted(sorted, HasCheckride, Oldest(cal));
    forall i, j | 0 <= i < j < |r|
      ensures cal.dateKey(r[i].date) <= cal.dateKey(r[j].date)
    {
      assert Oldest(cal)(picked[i]) <= Oldest(cal)(picked[j]);
      assert r[i].date == picked[i].date && r[j].date == picked[j].date;
    }
  }

  lemma CheckridesFrom(sorted: seq<FlightEntry>, flights: seq<FlightEntry>)
    requires multiset(sorted) == multiset(flights)
    ensures var r := Map(Filter(sorted, HasCheckride), CertificationOf);
      forall k :: 0 <= k < |r| ==> exists f :: f in flights && HasCheckride(f) && r[k] == CertificationOf(f)
  {
    var picked := Filter(sorted, HasCheckride);
    var r := Map(picked, CertificationOf);
    FilterMembers(sorted, HasCheckride);
    forall k | 0 <= k < |r|
      ensures exists f :: f in flights && HasCheckride(f) && r[k] == CertificationOf(f)
    {
      assert picked[k] in multiset(sorted);
      assert HasCheckride(picked[k]) && r[k] == CertificationOf(picked[k]);
    }
  }

  /** Every certification is described by the comments it was titled from. */
  lemma DescriptionsQuoteComments(data: LogbookData, cal: Calendar)
    ensures forall c :: c in DetectCertifications(data, cal) ==>
      exists f :: (f in data.flights && f.checkride != "" && c.description == "Checkride: " + f.pilotComments
                   && c.title == CertificationTitle(f.pilotComments) && c.date == f.date)
  {
    var r := DetectCertifications(data, cal);
    forall c | c in r
      ensures exists f :: (f in data.flights && f.checkride != "" && c.description == "Checkride: " + f.pilotComments
                           && c.title == CertificationTitle(f.pilotComments) && c.date == f.date)
    {
      var k :| 0 <= k < |r| && r[k] == c;
      var f :| f in data.flights && HasCheckride(f) && r[k] == CertificationOf(f);
    }
  }
}

=== FILE: currency.dfy ===
/** `getCurrencyInfo` (src/analysis.ts:232-321): one newest-first pass over the
    flights that latches the most recent flight review and IPC dates and sums
    landings and approaches inside the 90-day and six-month windows, stopping
    early once every requirement is met. `new Date()` and the two look-back dates
    are parameters, as day numbers on the `Calendar.dateKey` scale. */
module Currency {
  import opened Types
  import opened Strings
  import opened Seqs
  import opened Dates

  /** The start of the 90-day window and of the six-month window. */
  datatype Cutoffs = Cutoffs(ninetyDays: int, sixMonths: int)

  /** The loop's running variables. */
  datatype Scan = Scan(
    landings: real,
    nightLandings: real,
    approaches: real,
    holding: bool,
    lastBiennial: string,
    lastIpc: string)

  const Initial: Scan := Scan(0.0, 0.0, 0.0, false, "", "")

  const LandingsNeeded: real := 3.0
  const ApproachesNeeded: real := 6.0
  const HoldKeyword: string := "hold"

  predicate InNinetyDays(cal: Calendar, cut: Cutoffs, f: FlightEntry) {
    cal.dateKey(f.date) >= cut.ninetyDays
  }

  predicate InSixMonths(cal: Calendar, cut: Cutoffs, f: FlightEntry) {
    cal.dateKey(f.date) >= cut.sixMonths
  }

  function Ninety(cal: Calendar, cut: Cutoffs): FlightEntry -> bool {
    (f: FlightEntry) => InNinetyDays(cal, cut, f)
  }

  function Six(cal: Calendar, cut: Cutoffs): FlightEntry -> bool {
    (f: FlightEntry) => InSixMonths(cal, cut, f)
  }

  /** Either comment, lower-cased, mentions a hold. */
  predicate MentionsHold(f: FlightEntry) {
    Contains(ToLowerAscii(f.pilotComments), HoldKeyword)
      || Contains(ToLowerAscii(f.instructorComments), HoldKeyword)
  }

  function AllLandingsOf(f: FlightEntry): real { f.allLandings }
  function NightLandingsOf(f: FlightEntry): real { f.nightLandings }
  function ApproachCountOf(f: FlightEntry): real { |f.approaches| as real }
  function ReviewOf(f: FlightEntry): string { f.flightReview }
  function IpcOf(f: FlightEntry): string { f.ipc }

  /** One iteration of the loop body, before the early-exit test. */
  function ScanStep(cal: Calendar, cut: Cutoffs, s: Scan, f: FlightEntry): Scan {
    var lastBiennial := if s.lastBiennial == "" && f.flightReview != "" then f.date else s.lastBiennial;
    var lastIpc := if s.lastIpc == "" && f.ipc != "" then f.date else s.lastIpc;
    var ninety := InNinetyDays(cal, cut, f);
    var six := InSixMonths(cal, cut, f);
    Scan(
      if ninety then s.landings + f.allLandings else s.landings,
      if ninety then s.nightLandings + f.nightLandings else s.nightLandings,
      if six then s.approaches + |f.approaches| as real else s.approaches,
      s.holding || (six && MentionsHold(f)),
      lastBiennial,
      lastIpc)
  }

  /** The early-exit condition. */
  predicate Satisfied(s: Scan) {
    s.lastBiennial != "" && s.lastIpc != "" && s.landings >= LandingsNeeded
      && s.nightLandings >= LandingsNeeded && s.approaches >= ApproachesNeeded && s.holding
  }

  /** The loop as written, with its `break`. */
  function ScanEarly(cal: Calendar, cut: Cutoffs, s: Scan, xs: seq<FlightEntry>): Scan
    decreases |xs|
  {
    if |xs| == 0 then s
    else
      var next := ScanStep(cal, cut, s, xs[0]);
      if Satisfied(next) then next else ScanEarly(cal, cut, next, xs[1..])
  }

  /** Reference loop without the `break`. */
  function ScanFull(cal: Calendar, cut: Cutoffs, s: Scan, xs: seq<FlightEntry>): Scan
    decreases |xs|
  {
    if |xs| == 0 then s else ScanFull(cal, cut, ScanStep(cal, cut, s, xs[0]), xs[1..])
  }

  /** The date of the first flight, in scan order, carrying the flag and a non-empty
      date; empty when there is none. */
  function FirstFlaggedDate(xs: seq<FlightEntry>, flag: FlightEntry -> string): (r: string)
    ensures r == "" <==> forall k :: 0 <= k < |xs| ==> flag(xs[k]) == "" || xs[k].date == ""
    ensures r != "" ==> exists k :: (0 <= k < |xs| && flag(xs[k]) != "" && xs[k].date == r
      && forall j :: 0 <= j < k ==> flag(xs[j]) == "" || xs[j].date == "")
  {
    if |xs| == 0 then ""
    else if flag(xs[0]) != "" && xs[0].date != "" then xs[0].date
    else
      var tail := xs[1..];
      var r := FirstFlaggedDate(tail, flag);
      assert r == "" ==> forall k :: 0 <= k < |xs| ==> flag(xs[k]) == "" || xs[k].date == "" by {
        if r == "" {
          forall k | 1 <= k < |xs| ensures flag(xs[k]) == "" || xs[k].date == "" {
            assert xs[k] == tail[k - 1];
          }
        }
      }
      assert r != "" ==> exists k :: (0 <= k < |xs| && flag(xs[k]) != "" && xs[k].date == r
        && forall j :: 0 <= j < k ==> flag(xs[j]) == "" || xs[j].date == "") by {
        if r != "" {
          var k :| 0 <= k < |tail| && flag(tail[k]) != "" && tail[k].date == r
            && forall j :: 0 <= j < k ==> flag(tail[j]) == "" || tail[j].date == "";
          assert xs[k + 1] == tail[k];
          forall j | 0 <= j < k + 1 ensures flag(xs[j]) == "" || xs[j].date == "" {
            if j > 0 {
              assert xs[j] == tail[j - 1];
            }
          }
        }
      }
      r
  }

  /** The window sums of the full scan. */
  lemma {:induction false} ScanFullSums(cal: Calendar, cut: Cutoffs, s: Scan, xs: seq<FlightEntry>)
    ensures var e := ScanFull(cal, cut, s, xs);
      && e.landings == s.landings + Sum(Filter(xs, Ninety(cal, cut)), AllLandingsOf)
      && e.nightLandings == s.nightLandings + Sum(Filter(xs, Ninety(cal, cut)), NightLandingsOf)
      && e.approaches == s.approaches + Sum(Filter(xs, Six(cal, cut)), ApproachCountOf)
    decreases |xs|
  {
    if |xs| > 0 {
      ScanFullSums(cal, cut, ScanStep(cal, cut, s, xs[0]), xs[1..]);
      var ninety, six := Ninety(cal, cut), Six(cal, cut);
      var n0 := if ninety(xs[0]) then [xs[0]] else [];
      var s0 := if six(xs[0]) then [xs[0]] else [];
      assert Filter(xs, ninety) == n0 + Filter(xs[1..], ninety);
      assert Filter(xs, six) == s0 + Filter(xs[1..], six);
      SumAppend(n0, Filter(xs[1..], ninety), AllLandingsOf);
      SumAppend(n0, Filter(xs[1..], ninety), NightLandingsOf);
      SumAppend(s0, Filter(xs[1..], six), ApproachCountOf);
    }
  }

  /** The latched values of the full scan. */
  lemma {:induction false} ScanFullLatches(cal: Calendar, cut: Cutoffs, s: Scan, xs: seq<FlightEntry>)
    ensures var e := ScanFull(cal, cut, s, xs);
      && (e.holding <==> s.holding || exists k :: 0 <= k < |xs| && InSixMonths(cal, cut, xs[k]) && MentionsHold(xs[k]))
      && e.lastBiennial == (if s.lastBiennial != "" then s.lastBiennial else FirstFlaggedDate(xs, ReviewOf))
      && e.lastIpc == (if s.lastIpc != "" then s.lastIpc else FirstFlaggedDate(xs, IpcOf))
    decreases |xs|
  {
    if |xs| > 0 {
      ScanFullLatches(cal, cut, ScanStep(cal, cut, s, xs[0]), xs[1..]);
      assert forall k :: 1 <= k < |xs| ==> xs[k] == xs[1..][k - 1];
      assert forall k :: 0 <= k < |xs[1..]| ==> xs[1..][k] == xs[k + 1];
    }
  }

  /** What the caller sees of the final state. */
  function Verdict(s: Scan): CurrencyInfo {
    CurrencyInfo(s.landings >= LandingsNeeded, s.nightLandings >= LandingsNeeded,
      s.approaches >= ApproachesNeeded && s.holding, s.lastBiennial, s.lastIpc)
  }

  predicate NonNegativeLandings(xs: seq<FlightEntry>) {
    forall k :: 0 <= k < |xs| ==> xs[k].allLandings >= 0.0 && xs[k].nightLandings >= 0.0
  }

  /** Once the exit condition holds, further flights with non-negative landing counts
      cannot change the verdict. */
  lemma {:induction false} SatisfiedStays(cal: Calendar, cut: Cutoffs, s: Scan, xs: seq<FlightEntry>)
    requires Satisfied(s)
    requires NonNegativeLandings(xs)
    ensures Verdict(ScanFull(cal, cut, s, xs)) == Verdict(s)
    ensures Satisfied(ScanFull(cal, cut, s, xs))
    decreases |xs|
  {
    if |xs| > 0 {
      SatisfiedStays(cal, cut, ScanStep(cal, cut, s, xs[0]), xs[1..]);
    }
  }

  /** The `break` is an optimisation: with non-negative landing counts the early
      exit reports what the whole scan would. */
  lemma {:induction false} EarlyExitAgrees(cal: Calendar, cut: Cutoffs, s: Scan, xs: seq<FlightEntry>)
    requires NonNegativeLandings(xs)
    ensures Verdict(ScanEarly(cal, cut, s, xs)) == Verdict(ScanFull(cal, cut, s, xs))
    decreases |xs|
  {
    if |xs| > 0 {
      var next := ScanStep(cal, cut, s, xs[0]);
      if Satisfied(next) {
        SatisfiedStays(cal, cut, next, xs[1..]);
      } else {
        EarlyExitAgrees(cal, cut, next, xs[1..]);
      }
    }
  }

  /** Even with negative landing counts, the early exit never changes the instrument
      verdict or the latched dates: approaches and the hold flag only grow. */
  lemma {:induction false} EarlyExitKeepsLatches(cal: Calendar, cut: Cutoffs, s: Scan, xs: seq<FlightEntry>)
    ensures var a, b := Verdict(ScanEarly(cal, cut, s, xs)), Verdict(ScanFull(cal, cut, s, xs));
      a.instrumentCurrency == b.instrumentCurrency && a.lastBiennial == b.lastBiennial && a.lastIpc == b.lastIpc
    decreases |xs|
  {
    if |xs| > 0 {
      var next := ScanStep(cal, cut, s, xs[0]);
      if Satisfied(next) {
        LatchesStay(cal, cut, next, xs[1..]);
      } else {
        EarlyExitKeepsLatches(cal, cut, next, xs[1..]);
      }
    }
  }

  lemma {:induction false} LatchesStay(cal: Calendar, cut: Cutoffs, s: Scan, xs: seq<FlightEntry>)
    requires s.lastBiennial != "" && s.lastIpc != "" && s.approaches >= ApproachesNeeded && s.holding
    ensures var e := ScanFull(cal, cut, s, xs);
      e.lastBiennial == s.lastBiennial && e.lastIpc == s.lastIpc && e.approaches >= ApproachesNeeded && e.holding
    decreases |xs|
  {
    if |xs| > 0 {
      LatchesStay(cal, cut, ScanStep(cal, cut, s, xs[0]), xs[1..]);
    }
  }

  /** Sums over a window of the newest-first copy equal sums over the logbook. */
  lemma WindowSum(sorted: seq<FlightEntry>, flights: seq<FlightEntry>, p: FlightEntry -> bool, f: FlightEntry -> real)
    requires multiset(sorted) == multiset(flights)
    ensures Sum(Filter(sorted, p), f) == Sum(Filter(flights, p), f)
  {
    FilterPermutation(sorted, flights, p);
    SumPermutation(Filter(sorted, p), Filter(flights, p), f);
  }

  /** Passenger and instrument currency as of today: the landings and approaches
      counted over the look-back windows, newest flight first. */
  function CurrencyOf(flights: seq<FlightEntry>, cal: Calendar, cut: Cutoffs): (r: CurrencyInfo)
    ensures NonNegativeLandings(flights) ==>
      (r.passengerCurrency <==>
        Sum(Filter(flights, Ninety(cal, cut)), AllLandingsOf) >= LandingsNeeded)
    ensures NonNegativeLandings(flights) ==>
      (r.nightCurrency <==>
        Sum(Filter(flights, Ninety(cal, cut)), NightLandingsOf) >= LandingsNeeded)
    ensures r.instrumentCurrency <==>
      Sum(Filter(flights, Six(cal, cut)), ApproachCountOf) >= ApproachesNeeded
      && exists k :: 0 <= k < |flights| && InSixMonths(cal, cut, flights[k]) && MentionsHold(flights[k])
  {
    var sorted := MostRecentFirst(flights, cal);
    var r := Verdict(ScanEarly(cal, cut, Initial, sorted));
    CurrencyWindows(flights, sorted, cal, cut);
    r
  }

  /** The window facts behind `CurrencyOf`, for any newest-first copy of the flights. */
  lemma CurrencyWindows(flights: seq<FlightEntry>, sorted: seq<FlightEntry>, cal: Calendar, cut: Cutoffs)
    requires multiset(sorted) == multiset(flights)
    ensures var r := Verdict(ScanEarly(cal, cut, Initial, sorted));
      && (NonNegativeLandings(flights) ==>
        && (r.passengerCurrency <==>
          Sum(Filter(flights, Ninety(cal, cut)), AllLandingsOf) >= LandingsNeeded)
        && (r.nightCurrency <==>
          Sum(Filter(flights, Ninety(cal, cut)), NightLandingsOf) >= LandingsNeeded))
      && (r.instrumentCurrency <==>
        Sum(Filter(flights, Six(cal, cut)), ApproachCountOf) >= ApproachesNeeded
        && exists k :: 0 <= k < |flights| && InSixMonths(cal, cut, flights[k]) && MentionsHold(flights[k]))
  {
    var ninety, six := Ninety(cal, cut), Six(cal, cut);
    ScanFullSums(cal, cut, Initial, sorted);
    ScanFullLatches(cal, cut, Initial, sorted);
    EarlyExitKeepsLatches(cal, cut, Initial, sorted);
    WindowSum(sorted, flights, ninety, AllLandingsOf);
    WindowSum(sorted, flights, ninety, NightLandingsOf);
    WindowSum(sorted, flights, six, ApproachCountOf);
    HoldAnywhere(sorted, flights, cal, cut);
    if NonNegativeLandings(flights) {
      forall k | 0 <= k < |sorted| ensures sorted[k].allLandings >= 0.0 && sorted[k].nightLandings >= 0.0 {
        assert sorted[k] in multiset(flights);
      }
      EarlyExitAgrees(cal, cut, Initial, sorted);
    }
  }

  /** Whether some windowed flight mentions a hold does not depend on the order. */
  lemma HoldAnywhere(sorted: seq<FlightEntry>, flights: seq<FlightEntry>, cal: Calendar, cut: Cutoffs)
    requires multiset(sorted) == multiset(flights)
    ensures (exists k :: 0 <= k < |sorted| && InSixMonths(cal, cut, sorted[k]) && MentionsHold(sorted[k]))
      <==> (exists k :: 0 <= k < |flights| && InSixMonths(cal, cut, flights[k]) && MentionsHold(flights[k]))
  {
    if exists k :: 0 <= k < |sorted| && InSixMonths(cal, cut, sorted[k]) && MentionsHold(sorted[k]) {
      var k :| 0 <= k < |sorted| && InSixMonths(cal, cut, sorted[k]) && MentionsHold(sorted[k]);
      assert sorted[k] in multiset(flights);
    }
    if exists k :: 0 <= k < |flights| && InSixMonths(cal, cut, flights[k]) && MentionsHold(flights[k]) {
      var k :| 0 <= k < |flights| && InSixMonths(cal, cut, flights[k]) && MentionsHold(flights[k]);
      assert flights[k] in multiset(sorted);
    }
  }

  /** The last flight review is the newest flagged flight's date: no flagged, dated
      flight is newer, and it is empty only when no flight is both flagged and dated. */
  lemma LastReviewIsNewest(flights: seq<FlightEntry>, cal: Calendar, cut: Cutoffs)
    ensures var r := CurrencyOf(flights, cal, cut);
      && (r.lastBiennial == "" <==> forall k :: 0 <= k < |flights| ==> flights[k].flightReview == "" || flights[k].date == "")
      && (r.lastBiennial != "" ==> exists f :: f in flights && f.flightReview != "" && f.date == r.lastBiennial)
      && (forall k :: 0 <= k < |flights| && flights[k].flightReview != "" && flights[k].date != "" ==>
            cal.dateKey(flights[k].date) <= cal.dateKey(r.lastBiennial))
  {
    var sorted := MostRecentFirst(flights, cal);
    ScanFullLatches(cal, cut, Initial, sorted);
    EarlyExitKeepsLatches(cal, cut, Initial, sorted);
    NewestFlagged(flights, sorted, cal, ReviewOf);
  }

  /** The same for the last instrument proficiency check. */
  lemma LastIpcIsNewest(flights: seq<FlightEntry>, cal: Calendar, cut: Cutoffs)
    ensures var r := CurrencyOf(flights, cal, cut);
      && (r.lastIpc == "" <==> forall k :: 0 <= k < |flights| ==> flights[k].ipc == "" || flights[k].date == "")
      && (r.lastIpc != "" ==> exists f :: f in flights && f.ipc != "" && f.date == r.lastIpc)
      && (forall k :: 0 <= k < |flights| && flights[k].ipc != "" && flights[k].date != "" ==>
            cal.dateKey(flights[k].date) <= cal.dateKey(r.lastIpc))
  {
    var sorted := MostRecentFirst(flights, cal);
    ScanFullLatches(cal, cut, Initial, sorted);
    EarlyExitKeepsLatches(cal, cut, Initial, sorted);
    NewestFlagged(flights, sorted, cal, IpcOf);
  }

  /** The first flagged, dated flight of a newest-first copy is the newest such flight. */
  lemma NewestFlagged(flights: seq<FlightEntry>, sorted: seq<FlightEntry>, cal: Calendar, flag: FlightEntry -> string)
    requires multiset(sorted) == multiset(flights)
    requires forall i, j :: 0 <= i < j < |sorted| ==> cal.dateKey(sorted[i].date) >= cal.dateKey(sorted[j].date)
    ensures var d := FirstFlaggedDate(sorted, flag);
      && (d == "" <==> forall k :: 0 <= k < |flights| ==> flag(flights[k]) == "" || flights[k].date == "")
      && (d != "" ==> exists f :: f in flights && flag(f) != "" && f.date == d)
      && (forall k :: 0 <= k < |flights| && flag(flights[k]) != "" && flights[k].date != "" ==>
            cal.dateKey(flights[k].date) <= cal.dateKey(d))
  {
    var d := FirstFlaggedDate(sorted, flag);
    forall k | 0 <= k < |flights| && flag(flights[k]) != "" && flights[k].date != ""
      ensures d != "" && cal.dateKey(flights[k].date) <= cal.dateKey(d)
    {
      var j := PositionIn(flights[k], flights, sorted);
      assert flag(sorted[j]) != "" && sorted[j].date != "";
      var i :| 0 <= i < |sorted| && flag(sorted[i]) != "" && sorted[i].date == d
        && forall m :: 0 <= m < i ==> flag(sorted[m]) == "" || sorted[m].date == "";
      FlaggedNoEarlier(sorted, i, j, cal, flag);
    }
    if d != "" {
      var i :| 0 <= i < |sorted| && flag(sorted[i]) != "" && sorted[i].date == d;
      assert sorted[i] in multiset(flights);
    }
  }

  /** In a newest-first list, a flagged and dated flight is no newer than the first one. */
  lemma FlaggedNoEarlier(sorted: seq<FlightEntry>, i: nat, j: nat, cal: Calendar, flag: FlightEntry -> string)
    requires forall a, b :: 0 <= a < b < |sorted| ==> cal.dateKey(sorted[a].date) >= cal.dateKey(sorted[b].date)
    requires i < |sorted| && j < |sorted|
    requires forall m :: 0 <= m < i ==> flag(sorted[m]) == "" || sorted[m].date == ""
    requires flag(sorted[j]) != "" && sorted[j].date != ""
    ensures cal.dateKey(sorted[j].date) <= cal.dateKey(sorted[i].date)
  {
    assert i <= j;
    if i < j {
      assert cal.dateKey(sorted[i].date) >= cal.dateKey(sorted[j].date);
    }
  }
}

=== FILE: dates.dfy ===
/** Chronological order of flights. Every analysis sorts a copy of the flights with
    `new Date(a.date).getTime() - new Date(b.date).getTime()` (or the reverse); the
    timestamp is abstracted to the integer `Calendar.dateKey`, and JavaScript's
    stable `sort` to `SortBy`. */
module Dates {
  import opened Types
  import opened Seqs

  /** Sort key for oldest-first order. */
  function Oldest(cal: Calendar): FlightEntry -> int {
    (f: FlightEntry) => cal.dateKey(f.date)
  }

  /** Sort key for newest-first order: ascending by the negated timestamp, which
      under a stable sort is the same as sorting with `b - a`. */
  function Newest(cal: Calendar): FlightEntry -> int {
    (f: FlightEntry) => -cal.dateKey(f.date)
  }

  /** The flights of each day come in the same order in `s` as in `flights`. */
  ghost predicate SameDayOrder(s: seq<FlightEntry>, flights: seq<FlightEntry>, cal: Calendar) {
    forall d :: WithKey(s, Oldest(cal), d) == WithKey(flights, Oldest(cal), d)
  }

  /** Grouping by the negated key picks out the same flights as grouping by the date. */
  lemma {:induction false} NewestGroups(xs: seq<FlightEntry>, cal: Calendar, d: int)
    ensures WithKey(xs, Newest(cal), -d) == WithKey(xs, Oldest(cal), d)
    decreases |xs|
  {
    if |xs| > 0 {
      NewestGroups(xs[1..], cal, d);
    }
  }

  /** Sorting newest first keeps each day's flights in logbook order. */
  lemma NewestFirstGroups(flights: seq<FlightEntry>, cal: Calendar, d: int)
    ensures WithKey(SortBy(flights, Newest(cal)), Oldest(cal), d) == WithKey(flights, Oldest(cal), d)
  {
    var r := SortBy(flights, Newest(cal));
    SortByStable(flights, Newest(cal), -d);
    NewestGroups(r, cal, d);
    NewestGroups(flights, cal, d);
  }

  /** A copy of the flights ordered by date, oldest first; flights on one day
      keep their logbook order. */
  function Chronological(flights: seq<FlightEntry>, cal: Calendar): (r: seq<FlightEntry>)
    ensures multiset(r) == multiset(flights) && |r| == |flights|
    ensures forall i, j :: 0 <= i < j < |r| ==> cal.dateKey(r[i].date) <= cal.dateKey(r[j].date)
    ensures SameDayOrder(r, flights, cal)
  {
    var r := SortBy(flights, Oldest(cal));
    assert forall i, j :: 0 <= i < j < |r| ==> Oldest(cal)(r[i]) <= Oldest(cal)(r[j]);
    forall d ensures WithKey(r, Oldest(cal), d) == WithKey(flights, Oldest(cal), d) {
      SortByStable(flights, Oldest(cal), d);
    }
    r
  }

  /** A copy of the flights ordered by date, newest first; flights on one day
      keep their logbook order. */
  function MostRecentFirst(flights: seq<FlightEntry>, cal: Calendar): (r: seq<FlightEntry>)
    ensures multiset(r) == multiset(flights) && |r| == |flights|
    ensures forall i, j :: 0 <= i < j < |r| ==> cal.dateKey(r[i].date) >= cal.dateKey(r[j].date)
    ensures SameDayOrder(r, flights, cal)
  {
    var r := SortBy(flights, Newest(cal));
    assert forall i, j :: 0 <= i < j < |r| ==> Newest(cal)(r[i]) <= Newest(cal)(r[j]);
    forall d ensures WithKey(r, Oldest(cal), d) == WithKey(flights, Oldest(cal), d) {
      NewestFirstGroups(flights, cal, d);
    }
    r
  }

  /** The oldest-first order is the only one: any oldest-first arrangement that keeps
      each day's flights in logbook order is `Chronological`. */
  lemma ChronologicalUnique(flights: seq<FlightEntry>, s: seq<FlightEntry>, cal: Calendar)
    requires forall i, j :: 0 <= i < j < |s| ==> cal.dateKey(s[i].date) <= cal.dateKey(s[j].date)
    requires SameDayOrder(s, flights, cal)
    ensures s == Chronological(flights, cal)
  {
    var r := Chronological(flights, cal);
    assert SortedBy(s, Oldest(cal)) && SortedBy(r, Oldest(cal));
    StableSortUnique(s, r, Oldest(cal));
  }

  /** Likewise for newest first: any newest-first arrangement that keeps each day's
      flights in logbook order is `MostRecentFirst`. */
  lemma MostRecentFirstUnique(flights: seq<FlightEntry>, s: seq<FlightEntry>, cal: Calendar)
    requires forall i, j :: 0 <= i < j < |s| ==> cal.dateKey(s[i].date) >= cal.dateKey(s[j].date)
    requires SameDayOrder(s, flights, cal)
    ensures s == MostRecentFirst(flights, cal)
  {
    var r := MostRecentFirst(flights, cal);
    assert SortedBy(s, Newest(cal)) && SortedBy(r, Newest(cal));
    forall k ensures WithKey(s, Newest(cal), k) == WithKey(r, Newest(cal), k) {
      var d := -k;
      NewestGroups(s, cal, d);
      NewestGroups(r, cal, d);
      assert WithKey(s, Oldest(cal), d) == WithKey(flights, Oldest(cal), d) == WithKey(r, Oldest(cal), d);
    }
    StableSortUnique(s, r, Newest(cal));
  }

  /** The first and last elements of the oldest-first order are flights of the logbook. */
  lemma ChronologicalEndsLogged(flights: seq<FlightEntry>, cal: Calendar)
    ensures |flights| > 0 ==> Chronological(flights, cal)[0] in flights
    ensures |flights| > 0 ==> Chronological(flights, cal)[|flights| - 1] in flights
  {
    var r := Chronological(flights, cal);
    if |flights| > 0 {
      assert r[0] in multiset(r) && r[|r| - 1] in multiset(r);
      assert r[0] in multiset(flights) && r[|r| - 1] in multiset(flights);
    }
  }

  /** The first element of the oldest-first order is dated no later than any flight. */
  lemma ChronologicalFirstIsEarliest(flights: seq<FlightEntry>, cal: Calendar)
    ensures |flights| > 0 ==> forall f :: f in flights ==>
      cal.dateKey(Chronological(flights, cal)[0].date) <= cal.dateKey(f.date)
    ensures |flights| > 0 ==> forall f :: f in flights ==>
      cal.dateKey(f.date) <= cal.dateKey(Chronological(flights, cal)[|flights| - 1].date)
  {
    var r := Chronological(flights, cal);
    forall f | f in flights && |flights| > 0
      ensures cal.dateKey(r[0].date) <= cal.dateKey(f.date) <= cal.dateKey(r[|r| - 1].date)
    {
      assert f in multiset(r);
      var i :| 0 <= i < |r| && r[i] == f;
    }
  }
}

=== FILE: export.dfy ===
/** The CSV branch of `exportLogbook` (src/export.ts:15-29): an Aircraft table and
    a reduced Flights table, each line ended by a newline. Writing the file is not
    modelled; `fmt` renders a JavaScript number as template literals do. */
module Export {
  import opened Types
  import opened Strings
  import opened Seqs
  import Parser

  /** The column names of the two exported header lines. */
  const AircraftHeaderColumns: seq<string> :=
    ["AircraftID", "TypeCode", "Year", "Make", "Model"] + ["GearType", "EngineType", "equipType",
     "aircraftClass", "complexAircraft", "taa", "highPerformance", "pressurized"]
  const FlightsHeaderColumns: seq<string> :=
    ["Date", "AircraftID", "From", "To", "Route"] + ["TotalTime", "PIC", "SIC", "Night", "Solo",
     "CrossCountry", "IFR", "ActualInstrument", "SimulatedInstrument", "Approaches", "DayLandings",
     "NightLandings", "AllLandings", "DualReceived", "DualGiven", "PilotComments"]

  const AircraftHeaderLine: string := Join(AircraftHeaderColumns, ",")
  const FlightsHeaderLine: string := Join(FlightsHeaderColumns, ",")

  /** A cell that survives a CSV line unchanged: no line break, comma or quote. */
  predicate PlainCell(s: string) {
    forall i :: 0 <= i < |s| ==> s[i] != '\n' && s[i] != ',' && s[i] != '"'
  }

  /** Fields per exported aircraft line and per exported flight line. */
  const AircraftFieldCount: nat := 13
  const FlightFieldCount: nat := 21

  /** The thirteen aircraft fields in column order. */
  function AircraftFields(a: Aircraft): (r: seq<string>)
    ensures |r| == AircraftFieldCount
    ensures r[0] == a.aircraftId && r[3] == a.make && r[4] == a.model && r[12] == a.pressurized
  {
    [a.aircraftId, a.typeCode, a.year, a.make, a.model, a.gearType, a.engineType,
     a.equipType, a.aircraftClass, a.complexAircraft, a.taa, a.highPerformance, a.pressurized]
  }

  /** `${flight.route}`: a missing route prints as `undefined`. */
  function RouteText(route: Option<string>): string {
    if route.Some? then route.value else "undefined"
  }

  /** The 21 flight fields in column order; approaches are joined with `|` and commas
      in the pilot comments become semicolons. */
  function FlightFields(f: FlightEntry, fmt: real -> string): (r: seq<string>)
    ensures |r| == FlightFieldCount
    ensures r[0] == f.date && r[1] == f.aircraftId && r[2] == f.from && r[3] == f.to
    ensures r[14] == Join(f.approaches, "|")
    ensures r[4] == RouteText(f.route)
    ensures r[20] == ReplaceChar(f.pilotComments, ',', ';')
    ensures ',' !in r[20] && |r[20]| == |f.pilotComments|
  {
    var comments := ReplaceChar(f.pilotComments, ',', ';');
    assert forall i :: 0 <= i < |comments| ==> comments[i] != ',';
    [f.date, f.aircraftId, f.from, f.to, RouteText(f.route), fmt(f.totalTime), fmt(f.pic), fmt(f.sic),
     fmt(f.night), fmt(f.solo), fmt(f.crossCountry), fmt(f.ifr), fmt(f.actualInstrument),
     fmt(f.simulatedInstrument), Join(f.approaches, "|"), fmt(f.dayLandings), fmt(f.nightLandings),
     fmt(f.allLandings), fmt(f.dualReceived), fmt(f.dualGiven), comments]
  }

  function AircraftLine(a: Aircraft): string {
    Join(AircraftFields(a), ",")
  }

  function FlightLine(fmt: real -> string): FlightEntry -> string {
    (f: FlightEntry) => Join(FlightFields(f, fmt), ",")
  }

  /** The lines of the export, without their terminators. */
  function ExportLines(d: LogbookData, fmt: real -> string): (r: seq<string>)
    ensures |r| == |d.aircraft| + |d.flights| + 3
    ensures r[0] == AircraftHeaderLine && r[|d.aircraft| + 1] == "" && r[|d.aircraft| + 2] == FlightsHeaderLine
    ensures forall k :: 0 <= k < |d.aircraft| ==> r[k + 1] == AircraftLine(d.aircraft[k])
    ensures forall k :: 0 <= k < |d.flights| ==> r[|d.aircraft| + 3 + k] == FlightLine(fmt)(d.flights[k])
  {
    [AircraftHeaderLine] + Map(d.aircraft, AircraftLine) + ["", FlightsHeaderLine] + Map(d.flights, FlightLine(fmt))
  }

  /** Each line followed by a newline. */
  function Unlines(ls: seq<string>): (r: string)
    ensures |r| >= |ls|
  {
    if |ls| == 0 then "" else ls[0] + "\n" + Unlines(ls[1..])
  }

  /** The exported CSV text: the aircraft header, one line per aircraft, a blank
      line, the flights header, then one line per flight, each line ended by a
      newline. */
  function ExportCsv(d: LogbookData, fmt: real -> string): string {
    Unlines(ExportLines(d, fmt))
  }

  /** Splitting newline-terminated lines at the newlines gives the lines back, and a
      final empty piece. */
  lemma {:induction false} SplitUnlines(ls: seq<string>)
    requires forall k :: 0 <= k < |ls| ==> '\n' !in ls[k]
    ensures SplitOn(Unlines(ls), '\n') == ls + [""]
    decreases |ls|
  {
    if |ls| > 0 {
      SplitUnlines(ls[1..]);
      assert Unlines(ls) == ls[0] + ['\n'] + Unlines(ls[1..]);
      SplitOnCons(ls[0], '\n', Unlines(ls[1..]));
      assert ls == [ls[0]] + ls[1..];
    }
  }

  /** No field of the export holds a line break. */
  predicate SingleLineFields(d: LogbookData, fmt: real -> string) {
    && (forall k :: 0 <= k < |d.aircraft| ==> forall j :: 0 <= j < AircraftFieldCount ==> '\n' !in AircraftFields(d.aircraft[k])[j])
    && (forall k :: 0 <= k < |d.flights| ==> forall j :: 0 <= j < FlightFieldCount ==> '\n' !in FlightFields(d.flights[k], fmt)[j])
  }

  /** With single-line fields, the export has one line per aircraft and per flight
      plus three, and splitting it at newlines recovers exactly those lines. */
  lemma ExportSplits(d: LogbookData, fmt: real -> string)
    requires SingleLineFields(d, fmt)
    ensures SplitOn(ExportCsv(d, fmt), '\n') == ExportLines(d, fmt) + [""]
    ensures CountChar(ExportCsv(d, fmt), '\n') == |d.aircraft| + |d.flights| + 3
  {
    var ls := ExportLines(d, fmt);
    AircraftHeaderFound();
    FlightsHeaderFound();
    forall k | 0 <= k < |ls| ensures '\n' !in ls[k] {
      if 1 <= k < |d.aircraft| + 1 {
        JoinAvoids(AircraftFields(d.aircraft[k - 1]), ",", '\n');
      } else if |d.aircraft| + 3 <= k {
        JoinAvoids(FlightFields(d.flights[k - |d.aircraft| - 3], fmt), ",", '\n');
      }
    }
    SplitUnlines(ls);
  }

  /** A comma-joined sequence of comma-free pieces has one comma fewer than pieces. */
  lemma {:induction false} JoinCommaCount(vs: seq<string>)
    requires |vs| >= 1
    requires forall k :: 0 <= k < |vs| ==> ',' !in vs[k]
    ensures CountChar(Join(vs, ","), ',') == |vs| - 1
    decreases |vs|
  {
    if |vs| == 1 {
      CountCharAbsent(vs[0], ',');
    } else {
      JoinCommaCount(vs[1..]);
      CountCharAbsent(vs[0], ',');
      CountCharAppend(vs[0], ",", ',');
      CountCharAppend(vs[0] + ",", Join(vs[1..], ","), ',');
    }
  }

  lemma AircraftColumnsPlain()
    ensures forall k :: 0 <= k < 7 ==> PlainCell(AircraftHeaderColumns[k])
    ensures forall k :: 7 <= k < |AircraftHeaderColumns| ==> PlainCell(AircraftHeaderColumns[k])
  {
  }

  lemma FlightsColumnsPlain()
    ensures forall k :: 0 <= k < |FlightsHeaderColumns| ==> PlainCell(FlightsHeaderColumns[k])
  {
    LeadingColumnsPlain();
    MiddleColumnsPlain();
    TrailingColumnsPlain();
  }

  lemma LeadingColumnsPlain()
    ensures forall k :: 0 <= k < 7 ==> PlainCell(FlightsHeaderColumns[k])
  {
  }

  lemma MiddleColumnsPlain()
    ensures forall k :: 7 <= k < 14 ==> PlainCell(FlightsHeaderColumns[k])
  {
  }

  lemma TrailingColumnsPlain()
    ensures forall k :: 14 <= k < |FlightsHeaderColumns| ==> PlainCell(FlightsHeaderColumns[k])
  {
  }

  /** Joining two non-empty runs of pieces joins their joins. */
  lemma {:induction false} JoinSplit(a: seq<string>, b: seq<string>, sep: string)
    requires |a| >= 1 && |b| >= 1
    ensures Join(a + b, sep) == Join(a, sep) + sep + Join(b, sep)
    decreases |a|
  {
    if |a| == 1 {
      assert (a + b)[1..] == b;
    } else {
      JoinSplit(a[1..], b, sep);
      assert (a + b)[1..] == a[1..] + b;
    }
  }

  /** The exported aircraft header starts with the prefix the importer looks for. */
  lemma AircraftHeaderFound()
    ensures IsPrefix(Parser.AircraftHeaderPrefix, AircraftHeaderLine)
    ensures !IsPrefix(Parser.FlightsHeaderPrefix, AircraftHeaderLine)
    ensures '\n' !in AircraftHeaderLine
  {
    var cols := AircraftHeaderColumns;
    assert cols == cols[..5] + cols[5..];
    JoinSplit(cols[..5], cols[5..], ",");
    Parser.Join5(cols[0], cols[1], cols[2], cols[3], cols[4], ",");
    assert cols[..5] == [cols[0], cols[1], cols[2], cols[3], cols[4]];
    AircraftPrefixConcat(cols[0], cols[1], cols[2], cols[3], cols[4]);
    var line := AircraftHeaderLine;
    var p := Parser.AircraftHeaderPrefix;
    assert line == p + "," + Join(cols[5..], ",");
    assert line[..|p|] == p;
    assert line[0] == p[0] == 'A';
    AircraftColumnsPlain();
    JoinAvoids(cols, ",", '\n');
  }

  lemma AircraftPrefixConcat(a: string, b: string, c: string, d: string, e: string)
    requires a == "AircraftID" && b == "TypeCode" && c == "Year" && d == "Make" && e == "Model"
    ensures a + "," + b + "," + c + "," + d + "," + e == Parser.AircraftHeaderPrefix
  {
  }

  /** The exported flights header starts with the prefix the importer looks for. */
  lemma FlightsHeaderFound()
    ensures IsPrefix(Parser.FlightsHeaderPrefix, FlightsHeaderLine)
    ensures '\n' !in FlightsHeaderLine
  {
    var cols := FlightsHeaderColumns;
    assert cols == cols[..5] + cols[5..];
    JoinSplit(cols[..5], cols[5..], ",");
    assert cols[..5] == Parser.FlightsHeaderNames;
    Parser.HeaderNamesJoin(cols[..5]);
    var line := FlightsHeaderLine;
    var p := Parser.FlightsHeaderPrefix;
    assert line == p + "," + Join(cols[5..], ",");
    assert line[..|p|] == p;
    FlightsColumnsPlain();
    JoinAvoids(cols, ",", '\n');
  }

  /** An exported flight line has as many comma-separated pieces as there are
      flight columns, when no field besides the comments holds a comma. */
  lemma FlightLineCommas(f: FlightEntry, fmt: real -> string)
    requires forall j :: 0 <= j < FlightFieldCount - 1 ==> ',' !in FlightFields(f, fmt)[j]
    ensures CountChar(FlightLine(fmt)(f), ',') == FlightFieldCount - 1
  {
    JoinCommaCount(FlightFields(f, fmt));
  }
}

=== FILE: milestones.dfy ===
/** `detectMilestones` (src/analysis.ts:147-212): the first flight, the first solo,
    and every flight-hour threshold crossed, in date order. The airport table and the
    summary's aircraft rollups are parameters. */
module Milestones {
  import opened Types
  import opened Strings
  import opened Seqs
  import opened Dates
  import opened Airports
  import opened Summary

  /** The hour thresholds, in the order each flight is checked against them. */
  const HourMarks: seq<int> := [10, 25, 50, 100, 200, 300, 400, 500, 1000, 1500, 2000]

  lemma HourMarksAscending()
    ensures Ascending(HourMarks)
    ensures forall i :: 0 <= i < |HourMarks| ==> HourMarks[i] > 0
  {
  }

  /** `summary.aircraftStats[id]`: the rollup with that key, if any. */
  function RollupFor(stats: seq<Rollup<AircraftLabel>>, id: string): (r: Option<Rollup<AircraftLabel>>)
    ensures r.Some? <==> id in KeySet(stats)
    ensures r.Some? ==> r.value in stats && r.value.key == id
  {
    var i := KeyIndex(stats, id);
    if i < 0 then None
    else
      assert id in KeySet(stats);
      Some(stats[i])
  }

  /** How a milestone names an aircraft: the make and model of its rollup (the id
      when the model is empty or there is no rollup), trimmed of surrounding spaces. */
  function AircraftText(stats: seq<Rollup<AircraftLabel>>, id: string): string {
    var entry := RollupFor(stats, id);
    var make := if entry.Some? then entry.value.info.make else "";
    var model := if entry.Some? then OrElse(entry.value.info.model, id) else id;
    Trim(make + " " + model)
  }

  /** Without a rollup for it, an aircraft is described by its id alone. */
  lemma AircraftTextUnknown(stats: seq<Rollup<AircraftLabel>>, id: string)
    requires id !in KeySet(stats)
    requires forall i :: 0 <= i < |id| ==> !IsJsSpace(id[i])
    ensures AircraftText(stats, id) == id
  {
    var s := " " + id;
    assert "" + " " + id == s;
    assert TrimStart(s) == TrimStart(s[1..]);
    assert s[1..] == id;
    NoSpaceTrim(id);
  }

  /** With a rollup whose make and model are both given (and not padded with
      spaces), an aircraft is described as the make, a space, and the model. */
  lemma AircraftTextKnown(stats: seq<Rollup<AircraftLabel>>, id: string)
    requires RollupFor(stats, id).Some?
    requires var l := RollupFor(stats, id).value.info;
      l.make != "" && !IsJsSpace(l.make[0]) && l.model != "" && !IsJsSpace(l.model[|l.model| - 1])
    ensures var l := RollupFor(stats, id).value.info;
      AircraftText(stats, id) == l.make + " " + l.model
  {
    var l := RollupFor(stats, id).value.info;
    var s := l.make + " " + l.model;
    assert OrElse(l.model, id) == l.model;
    assert s[0] == l.make[0] && s[|s| - 1] == l.model[|l.model| - 1];
    assert TrimStart(s) == s;
    assert TrimEnd(s) == s;
  }

  lemma NoSpaceTrim(s: string)
    requires forall i :: 0 <= i < |s| ==> !IsJsSpace(s[i])
    ensures TrimStart(s) == s && TrimEnd(s) == s
  {
  }

  const FirstFlightLead: string := "First logged flight "
  const FirstSoloLead: string := "First solo flight "

  /** The sentence of the first-flight and first-solo milestones: a lead, the
      flight's route, and the aircraft it was flown in. */
  function AircraftSentence(lead: string, f: FlightEntry, airports: map<string, AirportInfo>, aircraft: string): string {
    lead + RouteDescription(f.from, f.to, airports) + " in a " + aircraft
  }

  /** Such a sentence reads "<lead>during …", with the local-flight wording exactly
      when the flight departs and arrives at the same airport, the from/to wording
      naming the departure airport otherwise, and ends on the aircraft. */
  lemma AircraftSentenceText(lead: string, f: FlightEntry, airports: map<string, AirportInfo>, aircraft: string)
    ensures IsPrefix(lead + "during ", AircraftSentence(lead, f, airports, aircraft))
    ensures IsPrefix(lead + LocalFlightLead, AircraftSentence(lead, f, airports, aircraft)) <==> f.from == f.to
    ensures f.from != f.to ==>
      IsPrefix(lead + CrossCountryLead + AirportDisplay(f.from, Find(airports, f.from)) + " to ", AircraftSentence(lead, f, airports, aircraft))
    ensures IsSuffix(" in a " + aircraft, AircraftSentence(lead, f, airports, aircraft))
  {
    RouteSentence(lead, f.from, f.to, airports, " in a " + aircraft, AircraftSentence(lead, f, airports, aircraft));
  }

  function FirstFlightMilestone(f: FlightEntry, stats: seq<Rollup<AircraftLabel>>,
                                airports: map<string, AirportInfo>, cal: Calendar): Milestone {
    Milestone(cal.year(f.date), "First Flight", AircraftSentence(FirstFlightLead, f, airports, AircraftText(stats, f.aircraftId)))
  }

  function FirstSoloMilestone(f: FlightEntry, stats: seq<Rollup<AircraftLabel>>,
                              airports: map<string, AirportInfo>, cal: Calendar): Milestone {
    Milestone(cal.year(f.date), "First Solo Flight", AircraftSentence(FirstSoloLead, f, airports, AircraftText(stats, f.aircraftId)))
  }

  /** The first flight with solo time, if any. */
  function FirstSolo(flights: seq<FlightEntry>): (r: Option<FlightEntry>)
    ensures r.None? <==> forall k :: 0 <= k < |flights| ==> flights[k].solo <= 0.0
    ensures r.Some? ==> exists k :: (0 <= k < |flights| && flights[k] == r.value && r.value.solo > 0.0
      && forall j :: 0 <= j < k ==> flights[j].solo <= 0.0)
  {
    if |flights| == 0 then None
    else if flights[0].solo > 0.0 then Some(flights[0])
    else
      var r := FirstSolo(flights[1..]);
      assert r.Some? ==> exists k :: (0 <= k < |flights| && flights[k] == r.value && r.value.solo > 0.0
        && forall j :: 0 <= j < k ==> flights[j].solo <= 0.0) by {
        if r.Some? {
          var k :| 0 <= k < |flights[1..]| && flights[1..][k] == r.value && r.value.solo > 0.0
            && forall j :: 0 <= j < k ==> flights[1..][j].solo <= 0.0;
          assert flights[k + 1] == r.value;
          assert forall j :: 1 <= j < k + 1 ==> flights[j] == flights[1..][j - 1];
        }
      }
      r
  }

  /** The thresholds among `marks` that one flight takes the cumulative time across:
      at or below the new total and above the old one, in list order. */
  function Crossed(marks: seq<int>, before: real, after: real): (r: seq<int>)
    ensures forall t :: t in r <==> t in marks && before < t as real <= after
    ensures |r| <= |marks|
  {
    if |marks| == 0 then []
    else
      var t := marks[0];
      (if before < t as real && after >= t as real then [t] else []) + Crossed(marks[1..], before, after)
  }

  /** One hour milestone. */
  function HourMilestone(t: int, f: FlightEntry, airports: map<string, AirportInfo>, cal: Calendar): Milestone {
    Milestone(cal.year(f.date), NatToString(if t < 0 then 0 else t) + " Flight Hours",
      "Reached " + NatToString(if t < 0 then 0 else t) + " total flight hours " + RouteDescription(f.from, f.to, airports))
  }

  /** An hour milestone names its threshold in decimal digits in both the title
      and the description, is dated by the crossing flight's year, and describes
      that flight's route, locally exactly when it departs and arrives at one airport. */
  lemma HourText(t: nat, f: FlightEntry, airports: map<string, AirportInfo>, cal: Calendar)
    ensures HourMilestone(t, f, airports, cal).year == cal.year(f.date)
    ensures HourMilestone(t, f, airports, cal).title == NatToString(t) + " Flight Hours"
    ensures IsPrefix("Reached " + NatToString(t) + " total flight hours during ", HourMilestone(t, f, airports, cal).description)
    ensures var d := HourMilestone(t, f, airports, cal).description;
      IsPrefix("Reached " + NatToString(t) + " total flight hours " + LocalFlightLead, d) <==> f.from == f.to
  {
    var lead := "Reached " + NatToString(t) + " total flight hours ";
    assert lead + RouteDescription(f.from, f.to, airports) + "" == HourMilestone(t, f, airports, cal).description;
    RouteSentence(lead, f.from, f.to, airports, "", HourMilestone(t, f, airports, cal).description);
    assert lead + "during " == "Reached " + NatToString(t) + " total flight hours during ";
  }

  /** A crossing: which threshold, on which flight. */
  datatype Crossing = Crossing(mark: int, flight: FlightEntry)

  function CrossingsOfFlight(marks: seq<int>, before: real, f: FlightEntry): (r: seq<Crossing>)
    ensures forall k :: 0 <= k < |r| ==> r[k].flight == f
    ensures forall c :: c in r ==> c.mark in marks && before < c.mark as real <= before + f.totalTime
  {
    var ts := Crossed(marks, before, before + f.totalTime);
    seq(|ts|, k requires 0 <= k < |ts| => Crossing(ts[k], f))
  }

  /** Cumulative time over a sequence of flights. */
  function Cumulative(flights: seq<FlightEntry>): real {
    Sum(flights, TotalTimeOf)
  }

  /** The crossings of the whole loop, flights in order and thresholds in order within a flight. */
  function Crossings(marks: seq<int>, flights: seq<FlightEntry>): seq<Crossing>
    decreases |flights|
  {
    if |flights| == 0 then []
    else
      var init := flights[..|flights| - 1];
      Crossings(marks, init) + CrossingsOfFlight(marks, Cumulative(init), flights[|flights| - 1])
  }

  /** A threshold fires on the n-th flight exactly when the cumulative time before it
      is below the threshold and the cumulative time after it is at or above it. */
  lemma {:induction false} CrossingsCharacterized(marks: seq<int>, flights: seq<FlightEntry>, t: int, n: nat)
    requires n < |flights|
    ensures Crossing(t, flights[n]) in CrossingsAt(marks, flights, n)
      <==> t in marks && Cumulative(flights[..n]) < t as real <= Cumulative(flights[..n + 1])
  {
    var ts := Crossed(marks, Cumulative(flights[..n]), Cumulative(flights[..n]) + flights[n].totalTime);
    assert flights[..n + 1] == flights[..n] + [flights[n]];
    SumSnoc(flights[..n], flights[n], TotalTimeOf);
    if Crossing(t, flights[n]) in CrossingsAt(marks, flights, n) {
      var k :| 0 <= k < |ts| && CrossingsAt(marks, flights, n)[k] == Crossing(t, flights[n]);
      assert ts[k] == t;
    }
    if t in marks && Cumulative(flights[..n]) < t as real <= Cumulative(flights[..n + 1]) {
      assert t in ts;
      var k :| 0 <= k < |ts| && ts[k] == t;
      assert CrossingsAt(marks, flights, n)[k] == Crossing(t, flights[n]);
    }
  }

  /** The crossings contributed by the n-th flight. */
  function CrossingsAt(marks: seq<int>, flights: seq<FlightEntry>, n: nat): seq<Crossing>
    requires n < |flights|
  {
    CrossingsOfFlight(marks, Cumulative(flights[..n]), flights[n])
  }

  /** The thresholds reached by the whole loop. */
  function MarksOf(cs: seq<Crossing>): seq<int> {
    Map(cs, MarkOf)
  }

  function MarkOf(c: Crossing): int {
    c.mark
  }

  /** Strictly ascending: no threshold appears twice. */
  predicate Ascending(m: seq<int>) {
    forall i, j :: 0 <= i < j < |m| ==> m[i] < m[j]
  }

  lemma AscendingConcat(a: seq<int>, b: seq<int>, bound: real)
    requires Ascending(a) && Ascending(b)
    requires forall k :: 0 <= k < |a| ==> a[k] as real <= bound
    requires forall k :: 0 <= k < |b| ==> bound < b[k] as real
    ensures Ascending(a + b)
  {
  }

  /** One more flight: the thresholds reached so far, then those this flight crosses. */
  lemma CrossingsSnoc(marks: seq<int>, init: seq<FlightEntry>, f: FlightEntry)
    ensures MarksOf(Crossings(marks, init + [f]))
      == MarksOf(Crossings(marks, init)) + Crossed(marks, Cumulative(init), Cumulative(init) + f.totalTime)
    ensures Cumulative(init + [f]) == Cumulative(init) + f.totalTime
  {
    SumSnoc(init, f, TotalTimeOf);
    var before := Cumulative(init);
    var past := Crossings(marks, init);
    var cs := CrossingsOfFlight(marks, before, f);
    assert Crossings(marks, init + [f]) == past + cs by {
      CrossingsStep(marks, init, f);
    }
    assert MarksOf(past + cs) == MarksOf(past) + MarksOf(cs) by {
      MapAppend(past, cs, MarkOf);
    }
    assert MarksOf(cs) == Crossed(marks, before, before + f.totalTime) by {
      FlightMarks(marks, before, f);
    }
  }

  lemma CrossingsStep(marks: seq<int>, init: seq<FlightEntry>, f: FlightEntry)
    ensures Crossings(marks, init + [f]) == Crossings(marks, init) + CrossingsOfFlight(marks, Cumulative(init), f)
  {
    var flights := init + [f];
    assert flights[..|flights| - 1] == init;
    assert flights[|flights| - 1] == f;
  }

  /** The thresholds one flight crosses, read back from its crossings. */
  lemma FlightMarks(marks: seq<int>, before: real, f: FlightEntry)
    ensures MarksOf(CrossingsOfFlight(marks, before, f)) == Crossed(marks, before, before + f.totalTime)
  {
    var cs := CrossingsOfFlight(marks, before, f);
    var ts := Crossed(marks, before, before + f.totalTime);
    var m := MarksOf(cs);
    assert |m| == |ts|;
    forall k | 0 <= k < |ts| ensures m[k] == ts[k] {
      assert cs[k] == Crossing(ts[k], f);
      assert m[k] == MarkOf(cs[k]);
    }
  }

  /** With non-negative flight times, the thresholds fire in increasing order, so
      none fires twice, and a threshold fires iff the total time reaches it. */
  lemma {:induction false} CrossingsOnce(marks: seq<int>, flights: seq<FlightEntry>)
    requires Ascending(marks)
    requires forall i :: 0 <= i < |marks| ==> marks[i] > 0
    requires forall k :: 0 <= k < |flights| ==> flights[k].totalTime >= 0.0
    ensures Ascending(MarksOf(Crossings(marks, flights)))
    ensures forall t :: t in MarksOf(Crossings(marks, flights)) <==> t in marks && t as real <= Cumulative(flights)
    decreases |flights|
  {
    if |flights| > 0 {
      var init, f := flights[..|flights| - 1], flights[|flights| - 1];
      assert flights == init + [f];
      CrossingsOnce(marks, init);
      CrossingsSnoc(marks, init, f);
      var before := Cumulative(init);
      var past := MarksOf(Crossings(marks, init));
      var ts := Crossed(marks, before, before + f.totalTime);
      CrossedAscending(marks, before, before + f.totalTime);
      assert forall k :: 0 <= k < |past| ==> past[k] as real <= before by {
        forall k | 0 <= k < |past| ensures past[k] as real <= before {
          assert past[k] in past;
        }
      }
      assert forall k :: 0 <= k < |ts| ==> before < ts[k] as real by {
        forall k | 0 <= k < |ts| ensures before < ts[k] as real {
          assert ts[k] in ts;
        }
      }
      AscendingConcat(past, ts, before);
    } else {
      assert Cumulative(flights) == 0.0;
    }
  }

  lemma {:induction false} CrossedAscending(marks: seq<int>, before: real, after: real)
    requires Ascending(marks)
    ensures Ascending(Crossed(marks, before, after))
    decreases |marks|
  {
    if |marks| > 0 {
      CrossedAscending(marks[1..], before, after);
      var rest := Crossed(marks[1..], before, after);
      forall k | 0 <= k < |rest| ensures marks[0] < rest[k] {
        assert rest[k] in marks[1..];
        var j :| 0 <= j < |marks[1..]| && marks[1..][j] == rest[k];
        assert marks[j + 1] == rest[k];
      }
    }
  }

  /** The hour-threshold crossings of the oldest-first flights. */
  function HourCrossings(flights: seq<FlightEntry>, cal: Calendar): seq<Crossing> {
    Crossings(HourMarks, Chronological(flights, cal))
  }

  /** The milestone recorded for one crossing. */
  function MilestoneOf(airports: map<string, AirportInfo>, cal: Calendar): Crossing -> Milestone {
    (c: Crossing) => HourMilestone(c.mark, c.flight, airports, cal)
  }

  /** `detectMilestones`: first flight, first solo, then the hour milestones. */
  function DetectMilestones(flights: seq<FlightEntry>, stats: seq<Rollup<AircraftLabel>>,
                            airports: map<string, AirportInfo>, cal: Calendar): (r: seq<Milestone>)
    ensures |flights| == 0 ==> r == []
    ensures |r| == (if |flights| > 0 then 1 else 0)
      + (if exists k :: 0 <= k < |flights| && flights[k].solo > 0.0 then 1 else 0)
      + |HourCrossings(flights, cal)|
    ensures |flights| > 0 ==> |r| >= 1 && r[0].title == "First Flight"
    ensures |flights| > 0 ==> r[0] == FirstFlightMilestone(Chronological(flights, cal)[0], stats, airports, cal)
    ensures (exists k :: 0 <= k < |flights| && flights[k].solo > 0.0) ==> |r| >= 2 && r[1].title == "First Solo Flight"
    ensures FirstSolo(Chronological(flights, cal)).Some? ==>
      |r| >= 2 && r[1] == FirstSoloMilestone(FirstSolo(Chronological(flights, cal)).value, stats, airports, cal)
    ensures |r| >= |HourCrossings(flights, cal)|
    ensures r[|r| - |HourCrossings(flights, cal)|..] == Map(HourCrossings(flights, cal), MilestoneOf(airports, cal))
  {
    var sorted := Chronological(flights, cal);
    var first := if |sorted| > 0 then [FirstFlightMilestone(sorted[0], stats, airports, cal)] else [];
    var solo := FirstSolo(sorted);
    SoloFound(flights, sorted);
    var soloPart := if solo.Some? then [FirstSoloMilestone(solo.value, stats, airports, cal)] else [];
    var hours := Map(HourCrossings(flights, cal), MilestoneOf(airports, cal));
    ThreeParts(first, soloPart, hours);
    first + soloPart + hours
  }

  /** Where the pieces of a three-part concatenation sit. */
  lemma ThreeParts<T>(a: seq<T>, b: seq<T>, c: seq<T>)
    requires |a| <= 1 && |b| <= 1
    ensures |a + b + c| == |a| + |b| + |c|
    ensures |a| == 1 ==> (a + b + c)[0] == a[0]
    ensures |a| == 1 && |b| == 1 ==> (a + b + c)[1] == b[0]
    ensures (a + b + c)[|a + b + c| - |c|..] == c
  {
    assert (a + b + c)[|a| + |b|..] == c;
  }

  /** The first entry is built from a flight of the logbook that is no later than any other. */
  lemma FirstFlightEarliest(flights: seq<FlightEntry>, stats: seq<Rollup<AircraftLabel>>,
                            airports: map<string, AirportInfo>, cal: Calendar)
    requires |flights| > 0
    ensures exists f :: (f in flights && DetectMilestones(flights, stats, airports, cal)[0] == FirstFlightMilestone(f, stats, airports, cal)
      && forall g :: g in flights ==> cal.dateKey(f.date) <= cal.dateKey(g.date))
  {
    var r := DetectMilestones(flights, stats, airports, cal);
    var sorted := Chronological(flights, cal);
    ChronologicalFirstIsEarliest(flights, cal);
    assert sorted[0] in multiset(flights);
    assert r[0] == FirstFlightMilestone(sorted[0], stats, airports, cal);
  }

  /** When some flight has solo time, the second entry is built from a solo flight of
      the logbook that is no later than any other solo flight. */
  lemma FirstSoloEarliest(flights: seq<FlightEntry>, stats: seq<Rollup<AircraftLabel>>,
                          airports: map<string, AirportInfo>, cal: Calendar)
    requires exists k :: 0 <= k < |flights| && flights[k].solo > 0.0
    ensures exists f :: (f in flights && f.solo > 0.0
      && DetectMilestones(flights, stats, airports, cal)[1] == FirstSoloMilestone(f, stats, airports, cal)
      && forall g :: g in flights && g.solo > 0.0 ==> cal.dateKey(f.date) <= cal.dateKey(g.date))
  {
    var sorted := Chronological(flights, cal);
    SoloFound(flights, sorted);
    EarliestSolo(flights, sorted, cal);
    var s := FirstSolo(sorted).value;
    assert DetectMilestones(flights, stats, airports, cal)[1] == FirstSoloMilestone(s, stats, airports, cal);
  }

  /** In an oldest-first permutation, the first solo flight is a solo flight of the
      logbook no later than any other. */
  lemma EarliestSolo(flights: seq<FlightEntry>, sorted: seq<FlightEntry>, cal: Calendar)
    requires multiset(sorted) == multiset(flights)
    requires forall i, j :: 0 <= i < j < |sorted| ==> cal.dateKey(sorted[i].date) <= cal.dateKey(sorted[j].date)
    requires FirstSolo(sorted).Some?
    ensures var s := FirstSolo(sorted).value;
      && s in flights && s.solo > 0.0
      && forall g :: g in flights && g.solo > 0.0 ==> cal.dateKey(s.date) <= cal.dateKey(g.date)
  {
    var s := FirstSolo(sorted).value;
    var k :| 0 <= k < |sorted| && sorted[k] == s && s.solo > 0.0
      && forall j :: 0 <= j < k ==> sorted[j].solo <= 0.0;
    assert s in multiset(flights);
    forall g | g in flights && g.solo > 0.0 ensures cal.dateKey(s.date) <= cal.dateKey(g.date) {
      var m := PositionIn(g, flights, sorted);
      SoloNoLater(sorted, k, m, cal);
    }
  }

  /** In an oldest-first list, a flight with solo time is no earlier than the
      first flight with solo time. */
  lemma SoloNoLater(sorted: seq<FlightEntry>, k: nat, m: nat, cal: Calendar)
    requires forall i, j :: 0 <= i < j < |sorted| ==> cal.dateKey(sorted[i].date) <= cal.dateKey(sorted[j].date)
    requires k < |sorted| && m < |sorted|
    requires forall j :: 0 <= j < k ==> sorted[j].solo <= 0.0
    requires sorted[m].solo > 0.0
    ensures cal.dateKey(sorted[k].date) <= cal.dateKey(sorted[m].date)
  {
    assert k <= m;
    if k < m {
      assert cal.dateKey(sorted[k].date) <= cal.dateKey(sorted[m].date);
    }
  }

  /** The search over the sorted copy finds a solo flight iff the logbook has one. */
  lemma SoloFound(flights: seq<FlightEntry>, sorted: seq<FlightEntry>)
    requires multiset(sorted) == multiset(flights)
    ensures FirstSolo(sorted).Some? <==> exists k :: 0 <= k < |flights| && flights[k].solo > 0.0
  {
    if exists k :: 0 <= k < |flights| && flights[k].solo > 0.0 {
      var k :| 0 <= k < |flights| && flights[k].solo > 0.0;
      assert flights[k] in multiset(sorted);
    }
    if FirstSolo(sorted).Some? {
      var k :| 0 <= k < |sorted| && sorted[k].solo > 0.0;
      assert sorted[k] in multiset(flights);
    }
  }

  /** Over the whole logbook each hour threshold is announced at most once, in
      increasing order, and exactly when the total logged time reaches it. */
  lemma HourMilestonesOnce(flights: seq<FlightEntry>, cal: Calendar)
    requires forall k :: 0 <= k < |flights| ==> flights[k].totalTime >= 0.0
    ensures Ascending(MarksOf(HourCrossings(flights, cal)))
    ensures forall t :: t in MarksOf(HourCrossings(flights, cal)) <==>
      t in HourMarks && t as real <= Sum(flights, TotalTimeOf)
  {
    var sorted := Chronological(flights, cal);
    forall k | 0 <= k < |sorted| ensures sorted[k].totalTime >= 0.0 {
      assert sorted[k] in multiset(flights);
    }
    HourMarksAscending();
    CrossingsOnce(HourMarks, sorted);
    SumPermutation(sorted, flights, TotalTimeOf);
  }
}

=== FILE: parser.dfy ===
/** The table locator and record extractor inside `parseForeflight`
    (src/parser.ts:16-151), with the file read and console output removed: a pure
    function from the lines of the export to `LogbookData`. */
module Parser {
  import opened Types
  import opened Strings
  import opened Tokenizer
  import opened Seqs

  const AircraftHeaderPrefix: string := "AircraftID,TypeCode,Year,Make,Model"
  const FlightsHeaderPrefix: string := "Date,AircraftID,From,To,Route"
  /** Lines containing this banner are noise, not data. */
  const ImportMarker: string := "ForeFlight Logbook Import"
  const MinAircraftFields: nat := 13
  const MinFlightFields: nat := 30
  const ApproachColumns: seq<string> :=
    ["Approach1", "Approach2", "Approach3", "Approach4", "Approach5", "Approach6"]

  /** The two errors `parseForeflight` throws (and then swallows). */
  datatype TableError = MissingAircraftTable | MissingFlightsTable

  datatype TableOffsets = TableOffsets(aircraftHeader: nat, flightsHeader: nat)

  /** The first line at or after `from` that starts with `prefix`. */
  function FindHeader(lines: seq<string>, from: nat, prefix: string): (r: Option<nat>)
    ensures r.Some? ==> from <= r.value < |lines| && IsPrefix(prefix, lines[r.value])
    ensures r.Some? ==> forall j :: from <= j < r.value ==> !IsPrefix(prefix, lines[j])
    ensures r.None? <==> forall j :: from <= j < |lines| ==> !IsPrefix(prefix, lines[j])
    decreases |lines| - from
  {
    if from >= |lines| then None
    else if IsPrefix(prefix, lines[from]) then Some(from)
    else FindHeader(lines, from + 1, prefix)
  }

  /** Locates the Aircraft header, then the Flights header strictly after it. */
  function LocateTables(lines: seq<string>): (r: Result<TableOffsets, TableError>)
    ensures r.Success? ==> r.value.aircraftHeader < r.value.flightsHeader < |lines|
    ensures r.Success? ==>
      && IsPrefix(AircraftHeaderPrefix, lines[r.value.aircraftHeader])
      && (forall j :: 0 <= j < r.value.aircraftHeader ==> !IsPrefix(AircraftHeaderPrefix, lines[j]))
      && IsPrefix(FlightsHeaderPrefix, lines[r.value.flightsHeader])
      && (forall j :: r.value.aircraftHeader < j < r.value.flightsHeader ==> !IsPrefix(FlightsHeaderPrefix, lines[j]))
    ensures r == Failure(MissingAircraftTable)
      <==> forall j :: 0 <= j < |lines| ==> !IsPrefix(AircraftHeaderPrefix, lines[j])
    ensures r == Failure(MissingFlightsTable)
      <==> && (exists i :: 0 <= i < |lines| && IsPrefix(AircraftHeaderPrefix, lines[i]))
           && (forall j :: 0 <= j < |lines| && IsPrefix(FlightsHeaderPrefix, lines[j]) ==>
                 forall i :: 0 <= i < j ==> !IsPrefix(AircraftHeaderPrefix, lines[i]))
  {
    match FindHeader(lines, 0, AircraftHeaderPrefix)
    case None => Failure(MissingAircraftTable)
    case Some(a) =>
      match FindHeader(lines, a + 1, FlightsHeaderPrefix)
      case None => Failure(MissingFlightsTable)
      case Some(f) => Success(TableOffsets(a, f))
  }

  /** A line the extractor turns into a record: not blank, no import banner,
      and at least `minFields` fields. */
  predicate IsDataRow(line: string, minFields: nat) {
    Trim(line) != "" && !Contains(line, ImportMarker) && |Tokenize(line)| >= minFields
  }

  /** A row of the Aircraft table that yields a record. */
  predicate IsAircraftRow(line: string) {
    IsDataRow(line, MinAircraftFields)
  }

  /** A row of the Flights table that yields a record. */
  predicate IsFlightRow(line: string) {
    IsDataRow(line, MinFlightFields)
  }

  /** The tokenized data rows of `rows`, in line order (the skip rules of one table loop). */
  function DataRows(rows: seq<string>, isRow: string -> bool): seq<seq<string>> {
    FilterMap(rows, isRow, Tokenize)
  }

  /** Every extracted row is the tokenization of a data row, in line order, and
      every data row is extracted. */
  lemma DataRowsAligned(rows: seq<string>, isRow: string -> bool)
    ensures |DataRows(rows, isRow)| == |Positions(rows, isRow)|
    ensures forall k :: 0 <= k < |Positions(rows, isRow)| ==>
      && Positions(rows, isRow)[k] < |rows|
      && isRow(rows[Positions(rows, isRow)[k]])
      && DataRows(rows, isRow)[k] == Tokenize(rows[Positions(rows, isRow)[k]])
    ensures forall k, l :: 0 <= k < l < |Positions(rows, isRow)| ==> Positions(rows, isRow)[k] < Positions(rows, isRow)[l]
    ensures forall i :: 0 <= i < |rows| && isRow(rows[i]) ==> i in Positions(rows, isRow)
  {
    PositionsExact(rows, isRow);
    FilterMapAligned(rows, isRow, Tokenize);
  }

  /** Extracted rows meet the table's minimum field count. */
  lemma DataRowsWide(rows: seq<string>, minFields: nat, isRow: string -> bool)
    requires forall line :: isRow(line) ==> |Tokenize(line)| >= minFields
    ensures forall k :: 0 <= k < |DataRows(rows, isRow)| ==> |DataRows(rows, isRow)[k]| >= minFields
  {
    DataRowsAligned(rows, isRow);
  }

  /** `aircraft.push({...})`: the thirteen aircraft fields are positional. */
  function AircraftOf(values: seq<string>): Aircraft
    requires |values| >= MinAircraftFields
  {
    Aircraft(values[0], values[1], values[2], values[3], values[4], values[5], values[6],
             values[7], values[8], values[9], values[10], values[11], values[12])
  }

  /** `headers.indexOf(name)`: the first matching column, or -1. */
  function ColumnIndex(header: seq<string>, name: string): (r: int)
    ensures -1 <= r < |header|
    ensures r == -1 <==> name !in header
    ensures r >= 0 ==> header[r] == name
  {
    if |header| == 0 then -1
    else if header[0] == name then 0
    else
      var r := ColumnIndex(header[1..], name);
      if r == -1 then -1 else r + 1
  }

  /** A name whose first occurrence is at `i` is found at `i`. */
  lemma {:induction false} ColumnIndexAt(header: seq<string>, name: string, i: nat)
    requires i < |header| && header[i] == name
    requires forall j :: 0 <= j < i ==> header[j] != name
    ensures ColumnIndex(header, name) == i
    decreases i
  {
    if i > 0 {
      ColumnIndexAt(header[1..], name, i - 1);
    }
  }

  /** `indexOf` finds the first occurrence: no earlier column has the name. */
  lemma {:induction false} ColumnIndexFirst(header: seq<string>, name: string, j: nat)
    requires j < ColumnIndex(header, name)
    ensures header[j] != name
    decreases j
  {
    if j > 0 {
      ColumnIndexFirst(header[1..], name, j - 1);
    }
  }

  /** `values[idx]`: `undefined` (None) outside the row. */
  function Cell(values: seq<string>, idx: int): Option<string> {
    if 0 <= idx < |values| then Some(values[idx]) else None
  }

  /** The cell of the named column in this row. */
  function Lookup(header: seq<string>, values: seq<string>, name: string): Option<string> {
    Cell(values, ColumnIndex(header, name))
  }

  /** JavaScript truthiness of a possibly undefined string. */
  predicate Truthy(c: Option<string>) {
    c.Some? && c.value != ""
  }

  /** `parseFloat(cell) || 0`: NaN (unparsable or undefined) and zero both give 0. */
  function FloatOrZero(cell: Option<string>, parseFloat: string -> Option<real>): real {
    if cell.None? then 0.0 else parseFloat(cell.value).GetOr(0.0)
  }

  /** A whole-number cell: unparsable, missing and zero all read as 0. */
  function IntOrZero(cell: Option<string>, parseInt: string -> Option<int>): real {
    if cell.None? then 0.0 else parseInt(cell.value).GetOr(0) as real
  }

  /** The column positions looked up in the flights header (`headers.indexOf`, -1 when absent). */
  datatype FlightColumns = FlightColumns(
    date: int, aircraftId: int, from: int, to: int, route: int,
    timeOut: int, timeOff: int, timeOn: int, timeIn: int,
    totalTime: int, pic: int, sic: int, night: int, solo: int, crossCountry: int, ifr: int,
    actualInstrument: int, simulatedInstrument: int, approaches: seq<int>,
    dayLandings: int, nightLandings: int, allLandings: int, dualReceived: int, dualGiven: int,
    pilotComments: int, instructorComments: int, flightReview: int, ipc: int, checkride: int)

  /** Every column of interest located in the flights header. */
  function ColumnsOf(header: seq<string>): FlightColumns {
    FlightColumns(
      date := ColumnIndex(header, "Date"),
      aircraftId := ColumnIndex(header, "AircraftID"),
      from := ColumnIndex(header, "From"),
      to := ColumnIndex(header, "To"),
      route := ColumnIndex(header, "Route"),
      timeOut := ColumnIndex(header, "TimeOut"),
      timeOff := ColumnIndex(header, "TimeOff"),
      timeOn := ColumnIndex(header, "TimeOn"),
      timeIn := ColumnIndex(header, "TimeIn"),
      totalTime := ColumnIndex(header, "TotalTime"),
      pic := ColumnIndex(header, "PIC"),
      sic := ColumnIndex(header, "SIC"),
      night := ColumnIndex(header, "Night"),
      solo := ColumnIndex(header, "Solo"),
      crossCountry := ColumnIndex(header, "CrossCountry"),
      ifr := ColumnIndex(header, "IFR"),
      actualInstrument := ColumnIndex(header, "ActualInstrument"),
      simulatedInstrument := ColumnIndex(header, "SimulatedInstrument"),
      approaches := IndexesOf(header, ApproachColumns),
      dayLandings := ColumnIndex(header, "DayLandingsFullStop"),
      nightLandings := ColumnIndex(header, "NightLandingsFullStop"),
      allLandings := ColumnIndex(header, "AllLandings"),
      dualReceived := ColumnIndex(header, "DualReceived"),
      dualGiven := ColumnIndex(header, "DualGiven"),
      pilotComments := ColumnIndex(header, "PilotComments"),
      instructorComments := ColumnIndex(header, "InstructorComments"),
      flightReview := ColumnIndex(header, "Flight Review (FAA)"),
      ipc := ColumnIndex(header, "IPC (FAA)"),
      checkride := ColumnIndex(header, "Checkride (FAA)"))
  }

  /** The positions of the named columns, in the order of `names`. */
  function IndexesOf(header: seq<string>, names: seq<string>): (r: seq<int>)
    ensures |r| == |names|
    ensures forall j :: 0 <= j < |names| ==> r[j] == ColumnIndex(header, names[j])
  {
    if |names| == 0 then [] else [ColumnIndex(header, names[0])] + IndexesOf(header, names[1..])
  }

  /** The truthy cells at `idxs`, in order (the six `if (approachNIdx !== -1 && values[approachNIdx])`). */
  function PresentCells(values: seq<string>, idxs: seq<int>): (r: seq<string>)
    ensures |r| <= |idxs|
    ensures forall k :: 0 <= k < |r| ==> r[k] != ""
    decreases |idxs|
  {
    if |idxs| == 0 then []
    else
      var c := Cell(values, idxs[0]);
      (if Truthy(c) then [c.value] else []) + PresentCells(values, idxs[1..])
  }

  /** Every kept cell is the cell at one of the positions. */
  lemma {:induction false} PresentCellSource(values: seq<string>, idxs: seq<int>, k: nat) returns (j: nat)
    requires k < |PresentCells(values, idxs)|
    ensures j < |idxs| && Cell(values, idxs[j]) == Some(PresentCells(values, idxs)[k])
    decreases |idxs|
  {
    var c := Cell(values, idxs[0]);
    var rest := PresentCells(values, idxs[1..]);
    if Truthy(c) && k == 0 {
      j := 0;
    } else {
      var k' := if Truthy(c) then k - 1 else k;
      assert PresentCells(values, idxs)[k] == rest[k'];
      var j' := PresentCellSource(values, idxs[1..], k');
      j := j' + 1;
    }
  }

  /** No truthy cell, nothing kept. */
  lemma {:induction false} PresentCellsNone(values: seq<string>, idxs: seq<int>)
    requires forall j :: 0 <= j < |idxs| ==> !Truthy(Cell(values, idxs[j]))
    ensures PresentCells(values, idxs) == []
    decreases |idxs|
  {
    if |idxs| > 0 {
      assert !Truthy(Cell(values, idxs[0]));
      PresentCellsNone(values, idxs[1..]);
    }
  }

  /** Every cell truthy, every cell kept, in position order. */
  lemma {:induction false} PresentCellsAll(values: seq<string>, idxs: seq<int>)
    requires forall j :: 0 <= j < |idxs| ==> Truthy(Cell(values, idxs[j]))
    ensures var r := PresentCells(values, idxs);
      |r| == |idxs| && forall j :: 0 <= j < |idxs| ==> Some(r[j]) == Cell(values, idxs[j])
    decreases |idxs|
  {
    if |idxs| > 0 {
      assert Truthy(Cell(values, idxs[0]));
      PresentCellsAll(values, idxs[1..]);
      var r := PresentCells(values, idxs);
      var rest := PresentCells(values, idxs[1..]);
      assert r == [Cell(values, idxs[0]).value] + rest;
      forall j | 0 <= j < |idxs| ensures Some(r[j]) == Cell(values, idxs[j]) {
        if j > 0 {
          assert r[j] == rest[j - 1];
          assert idxs[j] == idxs[1..][j - 1];
        }
      }
    }
  }

  /** One `flights.push({...})` from the located columns and a row. */
  function FlightAt(cols: FlightColumns, values: seq<string>, num: NumberParsers): FlightEntry {
    FlightEntry(
      date := Cell(values, cols.date).GetOr(""),
      aircraftId := Cell(values, cols.aircraftId).GetOr(""),
      from := Cell(values, cols.from).GetOr(""),
      to := Cell(values, cols.to).GetOr(""),
      route := Cell(values, cols.route),
      timeOut := Cell(values, cols.timeOut),
      timeOff := Cell(values, cols.timeOff),
      timeOn := Cell(values, cols.timeOn),
      timeIn := Cell(values, cols.timeIn),
      totalTime := FloatOrZero(Cell(values, cols.totalTime), num.parseFloat),
      pic := FloatOrZero(Cell(values, cols.pic), num.parseFloat),
      sic := FloatOrZero(Cell(values, cols.sic), num.parseFloat),
      night := FloatOrZero(Cell(values, cols.night), num.parseFloat),
      solo := FloatOrZero(Cell(values, cols.solo), num.parseFloat),
      crossCountry := FloatOrZero(Cell(values, cols.crossCountry), num.parseFloat),
      ifr := FloatOrZero(Cell(values, cols.ifr), num.parseFloat),
      actualInstrument := FloatOrZero(Cell(values, cols.actualInstrument), num.parseFloat),
      simulatedInstrument := FloatOrZero(Cell(values, cols.simulatedInstrument), num.parseFloat),
      approaches := PresentCells(values, cols.approaches),
      dayLandings := IntOrZero(Cell(values, cols.dayLandings), num.parseInt),
      nightLandings := IntOrZero(Cell(values, cols.nightLandings), num.parseInt),
      allLandings := IntOrZero(Cell(values, cols.allLandings), num.parseInt),
      dualReceived := FloatOrZero(Cell(values, cols.dualReceived), num.parseFloat),
      dualGiven := FloatOrZero(Cell(values, cols.dualGiven), num.parseFloat),
      pilotComments := Cell(values, cols.pilotComments).GetOr(""),
      instructorComments := Cell(values, cols.instructorComments).GetOr(""),
      flightReview := Cell(values, cols.flightReview).GetOr(""),
      ipc := Cell(values, cols.ipc).GetOr(""),
      checkride := Cell(values, cols.checkride).GetOr(""))
  }

  /** One flight record from a row, every column located by name in `header`. The
      date, aircraft and airport columns fall back to "" only in form: under a
      flights header they always resolve (`FlightKeyColumns`). */
  function FlightOf(header: seq<string>, values: seq<string>, num: NumberParsers): FlightEntry {
    FlightAt(ColumnsOf(header), values, num)
  }

  /** The Aircraft table loop: the data rows strictly between the two headers. */
  function ExtractAircraft(lines: seq<string>, t: TableOffsets): (r: seq<Aircraft>)
    requires t.aircraftHeader < t.flightsHeader < |lines|
    ensures |r| <= t.flightsHeader - t.aircraftHeader - 1
  {
    var rows := DataRows(lines[t.aircraftHeader + 1..t.flightsHeader], IsAircraftRow);
    DataRowsWide(lines[t.aircraftHeader + 1..t.flightsHeader], MinAircraftFields, IsAircraftRow);
    seq(|rows|, k requires 0 <= k < |rows| => AircraftOf(rows[k]))
  }

  /** The aircraft records are the data rows' tokens read positionally. */
  lemma AircraftFromTokens(lines: seq<string>, t: TableOffsets)
    requires t.aircraftHeader < t.flightsHeader < |lines|
    ensures var tokens := DataRows(lines[t.aircraftHeader + 1..t.flightsHeader], IsAircraftRow);
      var r := ExtractAircraft(lines, t);
      && |r| == |tokens|
      && forall k :: 0 <= k < |r| ==> |tokens[k]| >= MinAircraftFields && r[k] == AircraftOf(tokens[k])
  {
    DataRowsWide(lines[t.aircraftHeader + 1..t.flightsHeader], MinAircraftFields, IsAircraftRow);
  }

  /** The Flights table loop: the data rows after the flights header, read through
      that header's column positions. */
  function ExtractFlights(lines: seq<string>, t: TableOffsets, num: NumberParsers): (r: seq<FlightEntry>)
    requires t.flightsHeader < |lines|
    ensures |r| <= |lines| - t.flightsHeader - 1
  {
    var header := Tokenize(lines[t.flightsHeader]);
    var rows := DataRows(lines[t.flightsHeader + 1..], IsFlightRow);
    FlightRows(header, rows, num)
  }

  /** One flight record per data row, in row order. */
  function FlightRows(header: seq<string>, rows: seq<seq<string>>, num: NumberParsers): seq<FlightEntry> {
    seq(|rows|, k requires 0 <= k < |rows| => FlightOf(header, rows[k], num))
  }

  lemma FlightRowsAt(header: seq<string>, rows: seq<seq<string>>, num: NumberParsers)
    ensures var r := FlightRows(header, rows, num);
      |r| == |rows| && forall k :: 0 <= k < |r| ==> r[k] == FlightOf(header, rows[k], num)
  {
  }

  /** Both tables, once their headers are located. */
  function ExtractTables(lines: seq<string>, t: TableOffsets, num: NumberParsers): LogbookData
    requires t.aircraftHeader < t.flightsHeader < |lines|
  {
    LogbookData(ExtractAircraft(lines, t), ExtractFlights(lines, t, num))
  }

  /** `parseForeflight` without the file read: a missing header is caught and
      yields two empty tables. */
  function ParseForeflight(lines: seq<string>, num: NumberParsers): (r: LogbookData)
    ensures (forall j :: 0 <= j < |lines| ==> !IsPrefix(AircraftHeaderPrefix, lines[j])) ==> r == LogbookData([], [])
    ensures LocateTables(lines).Failure? ==> r == LogbookData([], [])
    ensures |r.aircraft| <= |lines| && |r.flights| <= |lines|
  {
    match LocateTables(lines)
    case Failure(_) => LogbookData([], [])
    case Success(t) =>
      ExtractTables(lines, t, num)
  }

  /** The column names spelled out by `FlightsHeaderPrefix`. */
  const FlightsHeaderNames: seq<string> := ["Date", "AircraftID", "From", "To", "Route"]

  lemma Join5(a: string, b: string, c: string, d: string, e: string, sep: string)
    ensures Join([a, b, c, d, e], sep) == a + sep + b + sep + c + sep + d + sep + e
  {
    assert Join([e], sep) == e;
    assert [d, e][1..] == [e];
    assert Join([d, e], sep) == d + sep + e;
    assert [c, d, e][1..] == [d, e];
    assert Join([c, d, e], sep) == c + sep + (d + sep + e);
    assert [b, c, d, e][1..] == [c, d, e];
    assert Join([b, c, d, e], sep) == b + sep + (c + sep + (d + sep + e));
    assert [a, b, c, d, e][1..] == [b, c, d, e];
    assert Join([a, b, c, d, e], sep) == a + sep + (b + sep + (c + sep + (d + sep + e)));
  }

  lemma HeaderNamesPlain(names: seq<string>)
    requires names == FlightsHeaderNames
    ensures forall k :: 0 <= k < |names| ==> ',' !in names[k] && '"' !in names[k]
  {
  }

  lemma HeaderNamesConcat(a: string, b: string, c: string, d: string, e: string)
    requires a == "Date" && b == "AircraftID" && c == "From" && d == "To" && e == "Route"
    ensures a + "," + b + "," + c + "," + d + "," + e == FlightsHeaderPrefix
  {
  }

  /** The flights header prefix is the comma-join of its five column names. */
  lemma HeaderNamesJoin(names: seq<string>)
    requires names == FlightsHeaderNames
    ensures Join(names, ",") == FlightsHeaderPrefix
  {
    Join5(names[0], names[1], names[2], names[3], names[4], ",");
    assert names == [names[0], names[1], names[2], names[3], names[4]];
    HeaderNamesConcat(names[0], names[1], names[2], names[3], names[4]);
  }

  lemma HeaderPrefixRun(names: seq<string>, p: string)
    requires names == FlightsHeaderNames && p == Join(names, ",")
    ensures Run(p).fields == names[..4]
  {
    HeaderNamesPlain(names);
    RunJoinPlain(names);
  }

  /** The four leading columns of any flights header: they are always present,
      as the first four fields. */
  lemma FlightsHeaderColumns(line: string)
    requires IsPrefix(FlightsHeaderPrefix, line)
    ensures |Tokenize(line)| >= 4
    ensures Tokenize(line)[..4] == ["Date", "AircraftID", "From", "To"]
    ensures ColumnIndex(Tokenize(line), "Date") == 0
    ensures ColumnIndex(Tokenize(line), "AircraftID") == 1
    ensures ColumnIndex(Tokenize(line), "From") == 2
    ensures ColumnIndex(Tokenize(line), "To") == 3
  {
    FlightsHeaderFields(line);
    var h := Tokenize(line);
    ColumnIndexAt(h, "Date", 0);
    ColumnIndexAt(h, "AircraftID", 1);
    ColumnIndexAt(h, "From", 2);
    ColumnIndexAt(h, "To", 3);
  }

  /** The first four fields of a flights header line. */
  lemma FlightsHeaderFields(line: string)
    requires IsPrefix(FlightsHeaderPrefix, line)
    ensures var h := Tokenize(line);
      && |h| >= 4 && h[..4] == ["Date", "AircraftID", "From", "To"]
      && h[0] == "Date" && h[1] == "AircraftID" && h[2] == "From" && h[3] == "To"
  {
    var names := FlightsHeaderNames;
    HeaderNamesJoin(names);
    var p := line[..|FlightsHeaderPrefix|];
    HeaderPrefixRun(names, p);
    var rest := line[|FlightsHeaderPrefix|..];
    assert line == p + rest;
    RunExtends(p, rest);
    assert names[..4] == ["Date", "AircraftID", "From", "To"];
    var h := Tokenize(line);
    assert h[..4] == Run(line).fields[..4];
  }

  /** Under a flights header, a row of at least four fields gives date, aircraft and
      airports from its first four fields: the `""` fallbacks of `FlightOf` never fire. */
  lemma FlightKeyColumns(headerLine: string, values: seq<string>, num: NumberParsers)
    requires IsPrefix(FlightsHeaderPrefix, headerLine)
    requires |values| >= 4
    ensures KeyFields(FlightOf(Tokenize(headerLine), values, num), values)
  {
    FlightsHeaderColumns(headerLine);
  }

  /** Date, aircraft and the two airports are the row's first four fields. */
  predicate KeyFields(f: FlightEntry, values: seq<string>) {
    && |values| >= 4
    && f.date == values[0]
    && f.aircraftId == values[1]
    && f.from == values[2]
    && f.to == values[3]
  }

  /** A missing numeric column reads as 0 on every row. */
  lemma AbsentNumbers(header: seq<string>, values: seq<string>, num: NumberParsers)
    ensures var f := FlightOf(header, values, num);
      && ("TotalTime" !in header ==> f.totalTime == 0.0)
      && ("PIC" !in header ==> f.pic == 0.0)
      && ("SIC" !in header ==> f.sic == 0.0)
      && ("Night" !in header ==> f.night == 0.0)
      && ("Solo" !in header ==> f.solo == 0.0)
      && ("CrossCountry" !in header ==> f.crossCountry == 0.0)
      && ("IFR" !in header ==> f.ifr == 0.0)
      && ("ActualInstrument" !in header ==> f.actualInstrument == 0.0)
      && ("SimulatedInstrument" !in header ==> f.simulatedInstrument == 0.0)
      && ("DayLandingsFullStop" !in header ==> f.dayLandings == 0.0)
      && ("NightLandingsFullStop" !in header ==> f.nightLandings == 0.0)
      && ("AllLandings" !in header ==> f.allLandings == 0.0)
      && ("DualReceived" !in header ==> f.dualReceived == 0.0)
      && ("DualGiven" !in header ==> f.dualGiven == 0.0)
  {
  }

  /** A missing text column reads as "" (comments, event flags) or `undefined` (route, clock times). */
  lemma AbsentTexts(header: seq<string>, values: seq<string>, num: NumberParsers)
    ensures var f := FlightOf(header, values, num);
      && ("Route" !in header ==> f.route.None?)
      && ("TimeOut" !in header ==> f.timeOut.None?)
      && ("TimeOff" !in header ==> f.timeOff.None?)
      && ("TimeOn" !in header ==> f.timeOn.None?)
      && ("TimeIn" !in header ==> f.timeIn.None?)
      && ("PilotComments" !in header ==> f.pilotComments == "")
      && ("InstructorComments" !in header ==> f.instructorComments == "")
      && ("Flight Review (FAA)" !in header ==> f.flightReview == "")
      && ("IPC (FAA)" !in header ==> f.ipc == "")
      && ("Checkride (FAA)" !in header ==> f.checkride == "")
  {
  }

  /** A present numeric column holds the parsed number, or 0 when it does not parse. */
  lemma NumericColumnValue(header: seq<string>, values: seq<string>, num: NumberParsers, x: real)
    requires 0 <= ColumnIndex(header, "TotalTime") < |values|
    ensures var cell := values[ColumnIndex(header, "TotalTime")];
      && (num.parseFloat(cell) == Some(x) ==> FlightOf(header, values, num).totalTime == x)
      && (num.parseFloat(cell).None? ==> FlightOf(header, values, num).totalTime == 0.0)
  {
  }

  lemma FlightApproaches(header: seq<string>, values: seq<string>, num: NumberParsers)
    ensures FlightOf(header, values, num).approaches == PresentCells(values, IndexesOf(header, ApproachColumns))
  {
  }

  /** At most six approaches, none empty, each the cell of one of the six approach
      columns; none at all when the header has no approach column. */
  predicate ApproachesFromColumns(a: seq<string>, header: seq<string>, values: seq<string>) {
    && |a| <= 6
    && (forall k :: 0 <= k < |a| ==> a[k] != "")
    && (forall k :: 0 <= k < |a| ==>
          exists j :: (0 <= j < 6 && ApproachColumns[j] in header
                       && Lookup(header, values, ApproachColumns[j]) == Some(a[k])))
    && ((forall j :: 0 <= j < 6 ==> ApproachColumns[j] !in header) ==> a == [])
  }

  lemma ApproachesShape(header: seq<string>, values: seq<string>, num: NumberParsers)
    ensures ApproachesFromColumns(FlightOf(header, values, num).approaches, header, values)
  {
    FlightApproaches(header, values, num);
    ApproachCellsShape(header, values);
  }

  /** The same facts about the cells the six approach lookups find. */
  lemma ApproachCellsShape(header: seq<string>, values: seq<string>)
    ensures ApproachesFromColumns(PresentCells(values, IndexesOf(header, ApproachColumns)), header, values)
  {
    var idxs := IndexesOf(header, ApproachColumns);
    var a := PresentCells(values, idxs);
    forall k | 0 <= k < |a|
      ensures exists j :: (0 <= j < 6 && ApproachColumns[j] in header
                           && Lookup(header, values, ApproachColumns[j]) == Some(a[k]))
    {
      var j := PresentCellSource(values, idxs, k);
      assert idxs[j] == ColumnIndex(header, ApproachColumns[j]);
      assert Lookup(header, values, ApproachColumns[j]) == Some(a[k]);
    }
    if forall j :: 0 <= j < 6 ==> ApproachColumns[j] !in header {
      forall j | 0 <= j < 6 ensures !Truthy(Cell(values, idxs[j])) {
        assert idxs[j] == ColumnIndex(header, ApproachColumns[j]) == -1;
      }
      PresentCellsNone(values, idxs);
    }
  }


  /** Once the headers are located, parsing is extraction from those offsets. */
  lemma ParseAtOffsets(lines: seq<string>, t: TableOffsets, num: NumberParsers)
    requires LocateTables(lines) == Success(t)
    ensures ParseForeflight(lines, num) == ExtractTables(lines, t, num)
  {
  }

  /** The k-th aircraft is built positionally from the k-th data row strictly
      between the two headers, and every such row yields one. */
  lemma ExtractedAircraftRows(lines: seq<string>, t: TableOffsets, num: NumberParsers)
    requires t.aircraftHeader < t.flightsHeader < |lines|
    ensures var rows := lines[t.aircraftHeader + 1..t.flightsHeader];
      var p := Positions(rows, IsAircraftRow);
      var r := ExtractAircraft(lines, t);
      && |r| == |p|
      && (forall k :: 0 <= k < |p| ==>
            && t.aircraftHeader < t.aircraftHeader + 1 + p[k] < t.flightsHeader
            && IsAircraftRow(lines[t.aircraftHeader + 1 + p[k]])
            && |Tokenize(lines[t.aircraftHeader + 1 + p[k]])| >= MinAircraftFields
            && r[k] == AircraftOf(Tokenize(lines[t.aircraftHeader + 1 + p[k]])))
      && (forall k, l :: 0 <= k < l < |p| ==> p[k] < p[l])
      && (forall i :: t.aircraftHeader < i < t.flightsHeader && IsAircraftRow(lines[i]) ==>
            i - t.aircraftHeader - 1 in p)
  {
    var rows := lines[t.aircraftHeader + 1..t.flightsHeader];
    DataRowsAligned(rows, IsAircraftRow);
    assert forall i :: t.aircraftHeader < i < t.flightsHeader ==> lines[i] == rows[i - t.aircraftHeader - 1];
  }

  /** The k-th flight comes from the k-th data row after the flights header, with
      date, aircraft and airports that row's first four fields. */
  lemma ExtractedFlightRows(lines: seq<string>, t: TableOffsets, num: NumberParsers)
    requires t.aircraftHeader < t.flightsHeader < |lines|
    requires IsPrefix(FlightsHeaderPrefix, lines[t.flightsHeader])
    ensures var rows := lines[t.flightsHeader + 1..];
      var p := Positions(rows, IsFlightRow);
      var r := ExtractFlights(lines, t, num);
      && |r| == |p|
      && (forall k :: 0 <= k < |p| ==>
            && t.flightsHeader < t.flightsHeader + 1 + p[k] < |lines|
            && IsFlightRow(lines[t.flightsHeader + 1 + p[k]])
            && r[k] == FlightOf(Tokenize(lines[t.flightsHeader]), Tokenize(lines[t.flightsHeader + 1 + p[k]]), num)
            && r[k].date == Tokenize(lines[t.flightsHeader + 1 + p[k]])[0]
            && r[k].aircraftId == Tokenize(lines[t.flightsHeader + 1 + p[k]])[1]
            && r[k].from == Tokenize(lines[t.flightsHeader + 1 + p[k]])[2]
            && r[k].to == Tokenize(lines[t.flightsHeader + 1 + p[k]])[3])
      && (forall k, l :: 0 <= k < l < |p| ==> p[k] < p[l])
      && (forall i :: t.flightsHeader < i < |lines| && IsFlightRow(lines[i]) ==> i - t.flightsHeader - 1 in p)
  {
    var rows := lines[t.flightsHeader + 1..];
    var header := Tokenize(lines[t.flightsHeader]);
    var p := Positions(rows, IsFlightRow);
    var tokens := DataRows(rows, IsFlightRow);
    var r := ExtractFlights(lines, t, num);
    DataRowsAligned(rows, IsFlightRow);
    assert r == FlightRows(header, tokens, num);
    FlightRowsAt(header, tokens, num);
    forall k | 0 <= k < |p|
      ensures t.flightsHeader < t.flightsHeader + 1 + p[k] < |lines|
      ensures IsFlightRow(lines[t.flightsHeader + 1 + p[k]])
      ensures r[k] == FlightOf(header, Tokenize(lines[t.flightsHeader + 1 + p[k]]), num)
      ensures KeyFields(r[k], Tokenize(lines[t.flightsHeader + 1 + p[k]]))
    {
      var line := lines[t.flightsHeader + 1 + p[k]];
      assert line == rows[p[k]];
      assert tokens[k] == Tokenize(line);
      assert IsFlightRow(line);
      FlightKeyColumns(lines[t.flightsHeader], Tokenize(line), num);
    }
    forall i | t.flightsHeader < i < |lines| && IsFlightRow(lines[i])
      ensures i - t.flightsHeader - 1 in p
    {
      assert lines[i] == rows[i - t.flightsHeader - 1];
    }
  }

}

=== FILE: recent.dfy ===
/** `getRecentFlights` (src/analysis.ts:217-227): the newest flights first, cut
    to `count` entries with the semantics of `Array.prototype.slice(0, count)`. */
module Recent {
  import opened Types
  import opened Dates

  /** The default of the `count` parameter. */
  const DefaultRecentCount: int := 5

  /** `slice(0, count)` on a sequence of length `n`: a negative end counts back
      from the end, and an end beyond the length stops at the length. */
  function SliceEnd(n: nat, count: int): (r: nat)
    ensures r <= n
    ensures count >= 0 ==> r == (if count < n then count else n)
    ensures count < 0 ==> r + (-count) == n || (r == 0 && -count >= n)
  {
    if count >= 0 then (if count < n then count else n)
    else if n + count > 0 then n + count else 0
  }

  /** The flights newest first, cut to `count` the way a slice from the start cuts. */
  function RecentFlights(flights: seq<FlightEntry>, count: int, cal: Calendar): (r: seq<FlightEntry>)
    ensures |r| == SliceEnd(|flights|, count)
    ensures forall i, j :: 0 <= i < j < |r| ==> cal.dateKey(r[i].date) >= cal.dateKey(r[j].date)
    ensures multiset(r) <= multiset(flights)
    ensures forall f :: f in multiset(flights) - multiset(r) ==>
      forall k :: 0 <= k < |r| ==> cal.dateKey(f.date) <= cal.dateKey(r[k].date)
    ensures r == MostRecentFirst(flights, cal)[..SliceEnd(|flights|, count)]
  {
    var sorted := MostRecentFirst(flights, cal);
    var r := sorted[..SliceEnd(|sorted|, count)];
    NewestPrefix(sorted, |r|, cal);
    r
  }

  /** Which flights are kept when several share a date is fixed: the result is the
      slice of any newest-first arrangement that keeps each day's flights in logbook
      order, so same-day flights earlier in the logbook are kept first. */
  lemma RecentFlightsUnique(flights: seq<FlightEntry>, count: int, cal: Calendar, s: seq<FlightEntry>)
    requires forall i, j :: 0 <= i < j < |s| ==> cal.dateKey(s[i].date) >= cal.dateKey(s[j].date)
    requires SameDayOrder(s, flights, cal)
    ensures |s| == |flights|
    ensures RecentFlights(flights, count, cal) == s[..SliceEnd(|flights|, count)]
  {
    MostRecentFirstUnique(flights, s, cal);
  }

  /** A prefix of a newest-first order holds the newest flights: whatever it leaves
      out is dated no later than anything it keeps. */
  lemma NewestPrefix(sorted: seq<FlightEntry>, n: nat, cal: Calendar)
    requires n <= |sorted|
    requires forall i, j :: 0 <= i < j < |sorted| ==> cal.dateKey(sorted[i].date) >= cal.dateKey(sorted[j].date)
    ensures multiset(sorted) == multiset(sorted[..n]) + multiset(sorted[n..])
    ensures forall f :: f in multiset(sorted) - multiset(sorted[..n]) ==>
      forall k :: 0 <= k < n ==> cal.dateKey(f.date) <= cal.dateKey(sorted[k].date)
  {
    assert sorted == sorted[..n] + sorted[n..];
    forall f | f in multiset(sorted) - multiset(sorted[..n])
      ensures forall k :: 0 <= k < n ==> cal.dateKey(f.date) <= cal.dateKey(sorted[k].date)
    {
      assert f in multiset(sorted[n..]);
      var j :| 0 <= j < |sorted[n..]| && sorted[n..][j] == f;
      assert sorted[n + j] == f;
    }
  }

  /** The default call returns at most five flights, the newest ones. */
  lemma DefaultCount(flights: seq<FlightEntry>, cal: Calendar)
    ensures |RecentFlights(flights, DefaultRecentCount, cal)| == (if |flights| < 5 then |flights| else 5)
  {
  }

  /** A count at least the logbook's size returns every flight, newest first. */
  lemma AllFlights(flights: seq<FlightEntry>, count: int, cal: Calendar)
    requires count >= |flights|
    ensures multiset(RecentFlights(flights, count, cal)) == multiset(flights)
  {
    var r := RecentFlights(flights, count, cal);
    var sorted := MostRecentFirst(flights, cal);
    assert r == sorted[..|sorted|] == sorted;
  }

  /** Asking for more never drops a flight: a smaller count returns a prefix of a larger one. */
  lemma CountMonotone(flights: seq<FlightEntry>, a: int, b: int, cal: Calendar)
    requires 0 <= a <= b
    ensures RecentFlights(flights, a, cal) == RecentFlights(flights, b, cal)[..|RecentFlights(flights, a, cal)|]
  {
  }
}

=== FILE: roundtrip.dfy ===
/** Reading an export back in (src/export.ts:15-29 against src/parser.ts:16-151):
    the aircraft table survives the trip when its fields are plain cells, and the
    reduced flights table does not when the flight fields other than the comments
    are free of commas, because such a flight line has 21 fields and the importer
    wants 30. The export writes the route, the airports and the approaches
    unquoted, so commas in them add fields, and enough of them make the line a
    flight row again. */
module RoundTrip {
  import opened Types
  import opened Strings
  import opened Seqs
  import opened Tokenizer
  import opened Parser
  import opened Export

  /** Every aircraft field is a plain cell. */
  predicate PlainAircraft(a: Aircraft) {
    forall j :: 0 <= j < AircraftFieldCount ==> PlainCell(AircraftFields(a)[j])
  }

  /** An aircraft line with plain fields tokenizes back to the fields, and the
      importer rebuilds the same aircraft from them. */
  lemma AircraftLineRoundTrip(a: Aircraft)
    requires PlainAircraft(a)
    ensures Tokenize(AircraftLine(a)) == AircraftFields(a)
    ensures AircraftOf(Tokenize(AircraftLine(a))) == a
  {
    var vs := AircraftFields(a);
    forall k | 0 <= k < |vs| ensures ',' !in vs[k] && '"' !in vs[k] {
      assert PlainCell(vs[k]);
    }
    TokenizeJoinPlain(vs);
  }

  /** An exported aircraft line with plain fields and no import banner is a data
      row of the Aircraft table. */
  lemma AircraftLineIsRow(a: Aircraft)
    requires PlainAircraft(a)
    requires !Contains(AircraftLine(a), ImportMarker)
    ensures IsAircraftRow(AircraftLine(a))
  {
    var vs := AircraftFields(a);
    var line := AircraftLine(a);
    AircraftLineRoundTrip(a);
    forall k | 0 <= k < |vs| ensures ',' !in vs[k] {
      assert PlainCell(vs[k]);
    }
    JoinCommaCount(vs);
    if ',' !in line {
      CountCharAbsent(line, ',');
    }
    var i :| 0 <= i < |line| && line[i] == ',';
    TrimEmptyIffAllSpace(line);
  }

  /** An exported flight line whose fields, apart from the comments, hold no comma
      is not a data row of the Flights table. */
  lemma FlightLineIsNotRow(f: FlightEntry, fmt: real -> string)
    requires forall j :: 0 <= j < FlightFieldCount - 1 ==> ',' !in FlightFields(f, fmt)[j]
    ensures !IsFlightRow(FlightLine(fmt)(f))
  {
    FlightLineCommas(f, fmt);
    TokenizeFieldBound(FlightLine(fmt)(f));
  }

  /** What an export must look like for the aircraft table to come back: plain
      aircraft fields, no import banner and no flights-header look-alike among the
      aircraft lines, and flight fields free of line breaks and (apart from the
      comments, which the export sanitises) of commas. */
  predicate Reimportable(d: LogbookData, fmt: real -> string) {
    && SingleLineFields(d, fmt)
    && (forall k :: 0 <= k < |d.aircraft| ==>
          && PlainAircraft(d.aircraft[k])
          && !Contains(AircraftLine(d.aircraft[k]), ImportMarker)
          && !IsPrefix(FlightsHeaderPrefix, AircraftLine(d.aircraft[k])))
    && (forall k :: 0 <= k < |d.flights| ==>
          forall j :: 0 <= j < FlightFieldCount - 1 ==> ',' !in FlightFields(d.flights[k], fmt)[j])
  }

  /** The header search on any file laid out like an export: the Aircraft header
      first and the Flights header after `n + 1` lines that do not look like it. */
  lemma LocateLayout(lines: seq<string>, n: nat)
    requires n + 2 < |lines|
    requires IsPrefix(AircraftHeaderPrefix, lines[0])
    requires IsPrefix(FlightsHeaderPrefix, lines[n + 2])
    requires forall j :: 1 <= j < n + 2 ==> !IsPrefix(FlightsHeaderPrefix, lines[j])
    ensures LocateTables(lines) == Success(TableOffsets(0, n + 2))
  {
    assert FindHeader(lines, 0, AircraftHeaderPrefix) == Some(0);
    var f := FindHeader(lines, 1, FlightsHeaderPrefix);
    assert f == Some(n + 2);
  }

  /** The Aircraft table extracted from rows that are all data rows but the last. */
  lemma AircraftLayout(lines: seq<string>, body: seq<string>, fleet: seq<Aircraft>)
    requires |fleet| + 2 < |lines|
    requires body == lines[1..|fleet| + 1]
    requires !IsAircraftRow(lines[|fleet| + 1])
    requires forall k :: 0 <= k < |body| ==> IsAircraftRow(body[k])
    requires forall k :: 0 <= k < |fleet| ==> IsAircraftRow(body[k]) && AircraftOf(Tokenize(body[k])) == fleet[k]
    ensures ExtractAircraft(lines, TableOffsets(0, |fleet| + 2)) == fleet
  {
    var n := |fleet|;
    var t := TableOffsets(0, n + 2);
    var rows := lines[t.aircraftHeader + 1..t.flightsHeader];
    assert rows == body + [lines[n + 1]];
    FilterMapSkipLast(body, lines[n + 1], IsAircraftRow, Tokenize);
    FilterMapAll(body, IsAircraftRow, Tokenize);
    var tokens := DataRows(rows, IsAircraftRow);
    assert tokens == Map(body, Tokenize);
    AircraftFromTokens(lines, t);
    var r := ExtractAircraft(lines, t);
    assert |r| == n;
    forall k | 0 <= k < n ensures r[k] == fleet[k] {
      assert tokens[k] == Tokenize(body[k]);
      assert r[k] == AircraftOf(tokens[k]);
    }
  }

  /** No Flights-table row qualifies, so no flight is extracted. */
  lemma FlightsLayout(lines: seq<string>, t: TableOffsets, num: NumberParsers)
    requires t.flightsHeader < |lines|
    requires forall i :: t.flightsHeader < i < |lines| ==> !IsFlightRow(lines[i])
    ensures ExtractFlights(lines, t, num) == []
  {
    var rows := lines[t.flightsHeader + 1..];
    assert forall k :: 0 <= k < |rows| ==> rows[k] == lines[t.flightsHeader + 1 + k];
    FilterMapNone(rows, IsFlightRow, Tokenize);
  }

  /** Any file laid out like an export of `fleet` imports as `fleet` and no flights. */
  lemma ImportLayout(lines: seq<string>, fleet: seq<Aircraft>, num: NumberParsers)
    requires |fleet| + 2 < |lines|
    requires IsPrefix(AircraftHeaderPrefix, lines[0])
    requires IsPrefix(FlightsHeaderPrefix, lines[|fleet| + 2])
    requires forall j :: 1 <= j < |fleet| + 2 ==> !IsPrefix(FlightsHeaderPrefix, lines[j])
    requires !IsAircraftRow(lines[|fleet| + 1])
    requires forall k :: 0 <= k < |fleet| ==>
      IsAircraftRow(lines[1..][k]) && AircraftOf(Tokenize(lines[1..][k])) == fleet[k]
    requires forall i :: |fleet| + 2 < i < |lines| ==> !IsFlightRow(lines[i])
    ensures ParseForeflight(lines, num) == LogbookData(fleet, [])
  {
    var t := TableOffsets(0, |fleet| + 2);
    LocateLayout(lines, |fleet|);
    ParseAtOffsets(lines, t, num);
    var body := lines[1..|fleet| + 1];
    assert forall k :: 0 <= k < |body| ==> body[k] == lines[1..][k];
    AircraftLayout(lines, body, fleet);
    FlightsLayout(lines, t, num);
  }

  /** Exporting to CSV and importing the text again gives back every aircraft, in
      order, and no flights. */
  lemma ExportThenImport(d: LogbookData, fmt: real -> string, num: NumberParsers)
    requires Reimportable(d, fmt)
    ensures ParseForeflight(SplitOn(ExportCsv(d, fmt), '\n'), num) == LogbookData(d.aircraft, [])
  {
    var lines := ExportLines(d, fmt) + [""];
    ExportSplits(d, fmt);
    HeadersLayout(d, fmt, lines);
    AircraftRowsLayout(d, fmt, lines);
    FlightRowsLayout(d, fmt, lines);
    ImportLayout(lines, d.aircraft, num);
  }

  /** Where the exported headers sit. */
  lemma HeadersLayout(d: LogbookData, fmt: real -> string, lines: seq<string>)
    requires Reimportable(d, fmt)
    requires lines == ExportLines(d, fmt) + [""]
    ensures |lines| == |d.aircraft| + |d.flights| + 4
    ensures IsPrefix(AircraftHeaderPrefix, lines[0])
    ensures IsPrefix(FlightsHeaderPrefix, lines[|d.aircraft| + 2])
    ensures forall j :: 1 <= j < |d.aircraft| + 2 ==> !IsPrefix(FlightsHeaderPrefix, lines[j])
  {
    AircraftHeaderFound();
    FlightsHeaderFound();
  }

  /** The exported aircraft lines are data rows that rebuild the aircraft, and the
      blank separator after them is not. */
  lemma AircraftRowsLayout(d: LogbookData, fmt: real -> string, lines: seq<string>)
    requires Reimportable(d, fmt)
    requires lines == ExportLines(d, fmt) + [""]
    ensures |lines| > |d.aircraft| + 2
    ensures !IsAircraftRow(lines[|d.aircraft| + 1])
    ensures forall k :: 0 <= k < |d.aircraft| ==>
      IsAircraftRow(lines[1..][k]) && AircraftOf(Tokenize(lines[1..][k])) == d.aircraft[k]
  {
    assert lines[|d.aircraft| + 1] == "";
    assert Trim("") == "";
    forall k | 0 <= k < |d.aircraft|
      ensures IsAircraftRow(lines[1..][k]) && AircraftOf(Tokenize(lines[1..][k])) == d.aircraft[k]
    {
      assert lines[1..][k] == AircraftLine(d.aircraft[k]);
      AircraftLineIsRow(d.aircraft[k]);
      AircraftLineRoundTrip(d.aircraft[k]);
    }
  }

  /** Line i after the exported flights header is not a flight data row: it is
      either an exported flight line or the empty piece after the last newline. */
  lemma ExportedLineNotRow(d: LogbookData, fmt: real -> string, lines: seq<string>, i: nat)
    requires Reimportable(d, fmt)
    requires lines == ExportLines(d, fmt) + [""]
    requires |d.aircraft| + 2 < i < |lines|
    ensures !IsFlightRow(lines[i])
  {
    if i < |lines| - 1 {
      var f := d.flights[i - |d.aircraft| - 3];
      assert lines[i] == FlightLine(fmt)(f);
      assert forall j :: 0 <= j < FlightFieldCount - 1 ==> ',' !in FlightFields(f, fmt)[j];
      FlightLineIsNotRow(f, fmt);
    } else {
      assert lines[i] == "";
      assert Trim("") == "";
    }
  }

  /** No line after the exported flights header is a flight data row. */
  lemma FlightRowsLayout(d: LogbookData, fmt: real -> string, lines: seq<string>)
    requires Reimportable(d, fmt)
    requires lines == ExportLines(d, fmt) + [""]
    ensures forall i :: |d.aircraft| + 2 < i < |lines| ==> !IsFlightRow(lines[i])
  {
    forall i | |d.aircraft| + 2 < i < |lines| ensures !IsFlightRow(lines[i]) {
      ExportedLineNotRow(d, fmt, lines, i);
    }
  }
}

=== FILE: seqs.dfy ===
/** Sequence utilities shared by the analytics: sums over a numeric field,
    filtering, duplicate-freedom, and the stable sort that `Array.prototype.sort`
    performs with a numeric comparator. */
module Seqs {

  /** Sum of `f` over `xs`. */
  function Sum<T>(xs: seq<T>, f: T -> real): real {
    if |xs| == 0 then 0.0 else f(xs[0]) + Sum(xs[1..], f)
  }

  lemma {:induction false} SumAppend<T>(xs: seq<T>, ys: seq<T>, f: T -> real)
    ensures Sum(xs + ys, f) == Sum(xs, f) + Sum(ys, f)
    decreases |xs|
  {
    if |xs| == 0 {
      assert xs + ys == ys;
    } else {
      assert (xs + ys)[1..] == xs[1..] + ys;
      SumAppend(xs[1..], ys, f);
    }
  }

  lemma SumSnoc<T>(xs: seq<T>, x: T, f: T -> real)
    ensures Sum(xs + [x], f) == Sum(xs, f) + f(x)
  {
    SumAppend(xs, [x], f);
  }

  /** Taking one element out of a sequence takes it out of its multiset. */
  lemma RemoveAt<T>(ys: seq<T>, i: nat)
    requires i < |ys|
    ensures ys == ys[..i] + [ys[i]] + ys[i + 1..]
    ensures multiset(ys[..i] + ys[i + 1..]) == multiset(ys) - multiset{ys[i]}
  {
    assert ys == ys[..i] + [ys[i]] + ys[i + 1..];
  }

  /** An element of a sequence has a position in any permutation of it. */
  lemma PositionIn<T>(x: T, xs: seq<T>, ys: seq<T>) returns (m: nat)
    requires multiset(ys) == multiset(xs) && x in xs
    ensures m < |ys| && ys[m] == x
  {
    assert x in multiset(xs);
    assert x in multiset(ys);
    m :| 0 <= m < |ys| && ys[m] == x;
  }

  /** The first element of a sequence, found in a permutation of it: what remains
      on either side is again a permutation. */
  lemma PickFirst<T>(xs: seq<T>, ys: seq<T>) returns (i: nat)
    requires |xs| > 0 && multiset(xs) == multiset(ys)
    ensures i < |ys| && ys[i] == xs[0]
    ensures xs == [xs[0]] + xs[1..] && ys == ys[..i] + [ys[i]] + ys[i + 1..]
    ensures multiset(xs[1..]) == multiset(ys[..i] + ys[i + 1..])
  {
    assert xs[0] in multiset(ys);
    i :| 0 <= i < |ys| && ys[i] == xs[0];
    RemoveAt(ys, i);
    assert xs == [xs[0]] + xs[1..];
    assert multiset(xs) == multiset{xs[0]} + multiset(xs[1..]);
  }

  /** A sum does not depend on the order of its terms. */
  lemma {:induction false} SumPermutation<T>(xs: seq<T>, ys: seq<T>, f: T -> real)
    requires multiset(xs) == multiset(ys)
    ensures Sum(xs, f) == Sum(ys, f)
    decreases |xs|
  {
    if |xs| == 0 {
      assert |ys| == |multiset(ys)| == 0;
    } else {
      var i := PickFirst(xs, ys);
      var x := xs[0];
      SumPermutation(xs[1..], ys[..i] + ys[i + 1..], f);
      assert Sum(xs, f) == f(x) + Sum(xs[1..], f);
      SumAppend(ys[..i] + [x], ys[i + 1..], f);
      SumAppend(ys[..i], [x], f);
      SumAppend(ys[..i], ys[i + 1..], f);
      assert Sum([x], f) == f(x);
      assert Sum(ys, f) == Sum(ys[..i], f) + f(x) + Sum(ys[i + 1..], f);
    }
  }

  /** The elements of `xs` satisfying `p`, in order. */
  function Filter<T>(xs: seq<T>, p: T -> bool): (r: seq<T>)
    ensures |r| <= |xs|
    ensures forall k :: 0 <= k < |r| ==> p(r[k])
  {
    if |xs| == 0 then []
    else (if p(xs[0]) then [xs[0]] else []) + Filter(xs[1..], p)
  }

  lemma {:induction false} FilterAppend<T>(xs: seq<T>, ys: seq<T>, p: T -> bool)
    ensures Filter(xs + ys, p) == Filter(xs, p) + Filter(ys, p)
    decreases |xs|
  {
    if |xs| == 0 {
      assert xs + ys == ys;
    } else {
      assert (xs + ys)[1..] == xs[1..] + ys;
      FilterAppend(xs[1..], ys, p);
    }
  }

  /** Nothing survives a filter that no element satisfies. */
  lemma {:induction false} FilterNone<T>(xs: seq<T>, p: T -> bool)
    requires forall j :: 0 <= j < |xs| ==> !p(xs[j])
    ensures Filter(xs, p) == []
    decreases |xs|
  {
    if |xs| > 0 {
      assert !p(xs[0]);
      FilterNone(xs[1..], p);
    }
  }

  /** Filtering one more element appends it exactly when it satisfies the predicate. */
  lemma FilterSnoc<T>(xs: seq<T>, x: T, p: T -> bool)
    ensures Filter(xs + [x], p) == Filter(xs, p) + (if p(x) then [x] else [])
  {
    FilterAppend(xs, [x], p);
    assert [x][1..] == [];
  }

  /** Every element of `xs` satisfying `p` survives the filter. */
  lemma {:induction false} FilterKeeps<T>(xs: seq<T>, p: T -> bool, x: T)
    requires x in xs && p(x)
    ensures x in Filter(xs, p)
    decreases |xs|
  {
    if xs[0] != x {
      FilterKeeps(xs[1..], p, x);
    }
  }

  /** Filtering commutes with reordering: permuted inputs give permuted outputs. */
  lemma {:induction false} FilterPermutation<T>(xs: seq<T>, ys: seq<T>, p: T -> bool)
    requires multiset(xs) == multiset(ys)
    ensures multiset(Filter(xs, p)) == multiset(Filter(ys, p))
    decreases |xs|
  {
    if |xs| == 0 {
      assert |ys| == |multiset(ys)| == 0;
    } else {
      var i := PickFirst(xs, ys);
      FilterPermutation(xs[1..], ys[..i] + ys[i + 1..], p);
      FilterSplit(ys, i, p);
      FilterAppend([xs[0]], xs[1..], p);
    }
  }

  /** Filtering around one position: the filtered whole is the filtered rest plus
      what the filter keeps of that element. */
  lemma FilterSplit<T>(ys: seq<T>, i: nat, p: T -> bool)
    requires i < |ys|
    ensures multiset(Filter(ys, p)) == multiset(Filter(ys[..i] + ys[i + 1..], p)) + multiset(Filter([ys[i]], p))
  {
    var a, c := ys[..i], ys[i + 1..];
    var y := ys[i];
    RemoveAt(ys, i);
    FilterAppend(a + [y], c, p);
    FilterAppend(a, [y], p);
    FilterAppend(a, c, p);
  }

  predicate Distinct<T(==)>(xs: seq<T>) {
    forall i, j :: 0 <= i < j < |xs| ==> xs[i] != xs[j]
  }

  /** A duplicate-free sequence has as many elements as its set. */
  lemma {:induction false} DistinctCardinality<T>(xs: seq<T>)
    requires Distinct(xs)
    ensures |set x | x in xs| == |xs|
    decreases |xs|
  {
    if |xs| > 0 {
      var last := xs[|xs| - 1];
      var init := xs[..|xs| - 1];
      assert Distinct(init);
      DistinctCardinality(init);
      assert last !in init;
      assert (set x | x in xs) == (set x | x in init) + {last};
    }
  }

  /** `xs` is ordered by `key`, smallest first. */
  predicate SortedBy<T>(xs: seq<T>, key: T -> int) {
    forall i, j :: 0 <= i < j < |xs| ==> key(xs[i]) <= key(xs[j])
  }

  /** Inserts `x` in front of the first element whose key is not smaller. */
  function Insert<T>(x: T, s: seq<T>, key: T -> int): (r: seq<T>)
    ensures multiset(r) == multiset(s) + multiset{x}
    ensures |r| == |s| + 1
  {
    if |s| == 0 || key(x) <= key(s[0]) then [x] + s
    else
      assert s == [s[0]] + s[1..];
      [s[0]] + Insert(x, s[1..], key)
  }

  lemma {:induction false} InsertLowerBound<T>(x: T, s: seq<T>, key: T -> int, lo: int)
    requires lo <= key(x)
    requires forall k :: 0 <= k < |s| ==> lo <= key(s[k])
    ensures forall k :: 0 <= k < |Insert(x, s, key)| ==> lo <= key(Insert(x, s, key)[k])
    decreases |s|
  {
    if |s| > 0 && key(x) > key(s[0]) {
      InsertLowerBound(x, s[1..], key, lo);
    }
  }

  lemma {:induction false} InsertSorted<T>(x: T, s: seq<T>, key: T -> int)
    requires SortedBy(s, key)
    ensures SortedBy(Insert(x, s, key), key)
    decreases |s|
  {
    if |s| > 0 && key(x) > key(s[0]) {
      InsertSorted(x, s[1..], key);
      InsertLowerBound(x, s[1..], key, key(s[0]));
    }
  }

  /** Stable sort by `key`, ascending; the model of `[...xs].sort((a, b) => key(a) - key(b))`. */
  function SortBy<T>(xs: seq<T>, key: T -> int): (r: seq<T>)
    ensures multiset(r) == multiset(xs)
    ensures |r| == |xs|
    ensures SortedBy(r, key)
  {
    if |xs| == 0 then [] else
    assert xs == [xs[0]] + xs[1..];
    var rest := SortBy(xs[1..], key);
    InsertSorted(xs[0], rest, key);
    Insert(xs[0], rest, key)
  }

  /** The elements of `xs` whose key is `k`, in order. */
  function WithKey<T>(xs: seq<T>, key: T -> int, k: int): seq<T> {
    if |xs| == 0 then []
    else (if key(xs[0]) == k then [xs[0]] else []) + WithKey(xs[1..], key, k)
  }

  lemma {:induction false} InsertWithKey<T>(x: T, s: seq<T>, key: T -> int, k: int)
    requires SortedBy(s, key)
    ensures WithKey(Insert(x, s, key), key, k)
            == (if key(x) == k then [x] else []) + WithKey(s, key, k)
    decreases |s|
  {
    if |s| == 0 || key(x) <= key(s[0]) {
      assert ([x] + s)[1..] == s;
    } else {
      var tail := Insert(x, s[1..], key);
      assert SortedBy(s[1..], key);
      InsertWithKey(x, s[1..], key, k);
      assert ([s[0]] + tail)[1..] == tail;
      var head := if key(s[0]) == k then [s[0]] else [];
      assert WithKey([s[0]] + tail, key, k) == head + WithKey(tail, key, k);
      assert WithKey(s, key, k) == head + WithKey(s[1..], key, k);
      if key(x) == k {
        assert head == [];
      }
    }
  }

  /** Stability: among elements with equal keys, the sort keeps the input order. */
  lemma {:induction false} SortByStable<T>(xs: seq<T>, key: T -> int, k: int)
    ensures WithKey(SortBy(xs, key), key, k) == WithKey(xs, key, k)
    decreases |xs|
  {
    if |xs| > 0 {
      SortByStable(xs[1..], key, k);
      InsertWithKey(xs[0], SortBy(xs[1..], key), key, k);
    }
  }

  /** An element of `xs` with key `k` is in `WithKey(xs, key, k)`, and nothing else is. */
  lemma {:induction false} WithKeyMembers<T>(xs: seq<T>, key: T -> int, k: int, x: T)
    ensures x in WithKey(xs, key, k) <==> x in xs && key(x) == k
    decreases |xs|
  {
    if |xs| > 0 {
      WithKeyMembers(xs[1..], key, k, x);
      assert xs == [xs[0]] + xs[1..];
    }
  }

  /** The first element heads its own key group. */
  lemma WithKeyHead<T>(xs: seq<T>, key: T -> int)
    ensures |xs| > 0 ==> WithKey(xs, key, key(xs[0])) == [xs[0]] + WithKey(xs[1..], key, key(xs[0]))
  {
  }

  /** A sorted sequence is fixed by its key groups: two sequences ordered by `key`
      whose elements with each key come in the same order are equal. So a stable
      sort has exactly one possible result. */
  lemma {:induction false} StableSortUnique<T>(a: seq<T>, b: seq<T>, key: T -> int)
    requires SortedBy(a, key) && SortedBy(b, key)
    requires forall k :: WithKey(a, key, k) == WithKey(b, key, k)
    ensures a == b
    decreases |a| + |b|
  {
    WithKeyHead(a, key);
    WithKeyHead(b, key);
    if |a| > 0 && |b| > 0 {
      SameHead(a, b, key);
      WithKeyTails(a, b, key);
      StableSortUnique(a[1..], b[1..], key);
      assert a == [a[0]] + a[1..] && b == [b[0]] + b[1..];
    }
  }

  /** Two non-empty sorted sequences with the same key groups start alike: each
      head has the smallest key of both, so it heads the same group. */
  lemma SameHead<T>(a: seq<T>, b: seq<T>, key: T -> int)
    requires |a| > 0 && |b| > 0
    requires SortedBy(a, key) && SortedBy(b, key)
    requires forall k :: WithKey(a, key, k) == WithKey(b, key, k)
    ensures a[0] == b[0]
  {
    var ka, kb := key(a[0]), key(b[0]);
    WithKeyHead(a, key);
    WithKeyHead(b, key);
    assert kb <= ka by {
      assert a[0] in WithKey(b, key, ka) by { assert WithKey(a, key, ka)[0] == a[0]; }
      WithKeyMembers(b, key, ka, a[0]);
      var i :| 0 <= i < |b| && b[i] == a[0];
    }
    assert ka <= kb by {
      assert b[0] in WithKey(a, key, kb) by { assert WithKey(b, key, kb)[0] == b[0]; }
      WithKeyMembers(a, key, kb, b[0]);
      var j :| 0 <= j < |a| && a[j] == b[0];
    }
    assert WithKey(a, key, ka)[0] == a[0];
    assert WithKey(b, key, ka)[0] == b[0];
  }

  /** Dropping a common head keeps the key groups equal. */
  lemma WithKeyTails<T>(a: seq<T>, b: seq<T>, key: T -> int)
    requires |a| > 0 && |b| > 0 && a[0] == b[0]
    requires forall k :: WithKey(a, key, k) == WithKey(b, key, k)
    ensures forall k :: WithKey(a[1..], key, k) == WithKey(b[1..], key, k)
  {
    forall k ensures WithKey(a[1..], key, k) == WithKey(b[1..], key, k) {
      var head := if key(a[0]) == k then [a[0]] else [];
      assert WithKey(a, key, k) == head + WithKey(a[1..], key, k);
      assert WithKey(b, key, k) == head + WithKey(b[1..], key, k);
      assert WithKey(a[1..], key, k) == WithKey(a, key, k)[|head|..];
      assert WithKey(b[1..], key, k) == WithKey(b, key, k)[|head|..];
    }
  }

  /** The position of the first occurrence of `x`. */
  function FirstIndex<T(==)>(xs: seq<T>, x: T): (r: nat)
    requires x in xs
    ensures r < |xs| && xs[r] == x
    ensures forall i :: 0 <= i < r ==> xs[i] != x
  {
    if xs[0] == x then 0 else 1 + FirstIndex(xs[1..], x)
  }

  /** Appending leaves the first occurrence of an element already present where it is,
      and puts the first occurrence of a new one after the old part. */
  lemma FirstIndexAppend<T>(xs: seq<T>, ys: seq<T>, x: T)
    requires x in xs + ys
    ensures x in xs ==> FirstIndex(xs + ys, x) == FirstIndex(xs, x)
    ensures x !in xs ==> FirstIndex(xs + ys, x) == |xs| + FirstIndex(ys, x)
  {
    var r := FirstIndex(xs + ys, x);
    if x in xs {
      var q := FirstIndex(xs, x);
      assert (xs + ys)[q] == x;
    } else {
      assert x in ys by {
        var i :| 0 <= i < |xs + ys| && (xs + ys)[i] == x;
        if i >= |xs| { assert ys[i - |xs|] == x; }
      }
      var q := FirstIndex(ys, x);
      assert (xs + ys)[|xs| + q] == x;
      assert ys[r - |xs|] == x;
    }
  }

  /** `f` applied to the elements satisfying `p`, in order. */
  function FilterMap<T, U>(xs: seq<T>, p: T -> bool, f: T -> U): (r: seq<U>)
    ensures |r| <= |xs|
    decreases |xs|
  {
    if |xs| == 0 then []
    else FilterMap(xs[..|xs| - 1], p, f) + (if p(xs[|xs| - 1]) then [f(xs[|xs| - 1])] else [])
  }

  /** Positions of the elements satisfying `p`. */
  ghost function Positions<T>(xs: seq<T>, p: T -> bool): seq<nat>
    decreases |xs|
  {
    if |xs| == 0 then []
    else Positions(xs[..|xs| - 1], p) + (if p(xs[|xs| - 1]) then [|xs| - 1] else [])
  }

  /** The positions are exactly those of the elements satisfying `p`, ascending. */
  lemma {:induction false} PositionsExact<T>(xs: seq<T>, p: T -> bool)
    ensures forall k :: 0 <= k < |Positions(xs, p)| ==> Positions(xs, p)[k] < |xs| && p(xs[Positions(xs, p)[k]])
    ensures forall k, l :: 0 <= k < l < |Positions(xs, p)| ==> Positions(xs, p)[k] < Positions(xs, p)[l]
    ensures forall i :: 0 <= i < |xs| && p(xs[i]) ==> i in Positions(xs, p)
    decreases |xs|
  {
    if |xs| > 0 {
      var n := |xs|;
      var init := xs[..n - 1];
      PositionsExact(init, p);
      var q := Positions(init, p);
      assert forall k :: 0 <= k < |q| ==> xs[q[k]] == init[q[k]];
      assert forall i :: 0 <= i < n - 1 ==> xs[i] == init[i];
    }
  }

  /** The k-th output of `FilterMap` is `f` of the k-th element satisfying `p`. */
  lemma {:induction false} FilterMapAligned<T, U>(xs: seq<T>, p: T -> bool, f: T -> U)
    ensures |FilterMap(xs, p, f)| == |Positions(xs, p)|
    ensures forall k :: 0 <= k < |Positions(xs, p)| ==>
      Positions(xs, p)[k] < |xs| && FilterMap(xs, p, f)[k] == f(xs[Positions(xs, p)[k]])
    decreases |xs|
  {
    PositionsExact(xs, p);
    if |xs| > 0 {
      var n := |xs|;
      var init := xs[..n - 1];
      FilterMapAligned(init, p, f);
      PositionsExact(init, p);
      var q := Positions(init, p);
      var ps := Positions(xs, p);
      var r := FilterMap(xs, p, f);
      assert ps == q + (if p(xs[n - 1]) then [n - 1] else []);
      assert r == FilterMap(init, p, f) + (if p(xs[n - 1]) then [f(xs[n - 1])] else []);
      forall k | 0 <= k < |q| ensures r[k] == f(xs[ps[k]]) {
        assert xs[q[k]] == init[q[k]];
      }
    }
  }

  /** `f` applied to every element, in order. */
  function Map<T, U>(xs: seq<T>, f: T -> U): (r: seq<U>)
    ensures |r| == |xs|
    ensures forall k :: 0 <= k < |xs| ==> r[k] == f(xs[k])
  {
    if |xs| == 0 then [] else [f(xs[0])] + Map(xs[1..], f)
  }

  lemma {:induction false} MapAppend<T, U>(xs: seq<T>, ys: seq<T>, f: T -> U)
    ensures Map(xs + ys, f) == Map(xs, f) + Map(ys, f)
    decreases |xs|
  {
    if |xs| == 0 {
      assert xs + ys == ys;
    } else {
      assert (xs + ys)[1..] == xs[1..] + ys;
      MapAppend(xs[1..], ys, f);
    }
  }

  /** Reordering the input reorders the mapped output the same way. */
  lemma MapRemoveAt<T, U>(ys: seq<T>, i: nat, f: T -> U)
    requires i < |ys|
    ensures multiset(Map(ys, f)) == multiset(Map(ys[..i] + ys[i + 1..], f)) + multiset{f(ys[i])}
  {
    var a, c := ys[..i], ys[i + 1..];
    var y := ys[i];
    RemoveAt(ys, i);
    MapAppend(a + [y], c, f);
    MapAppend(a, [y], f);
    MapAppend(a, c, f);
    assert Map([y], f) == [f(y)];
  }

  lemma {:induction false} MapPermutation<T, U>(xs: seq<T>, ys: seq<T>, f: T -> U)
    requires multiset(xs) == multiset(ys)
    ensures multiset(Map(xs, f)) == multiset(Map(ys, f))
    decreases |xs|
  {
    if |xs| == 0 {
      assert |ys| == |multiset(ys)| == 0;
    } else {
      var i := PickFirst(xs, ys);
      MapPermutation(xs[1..], ys[..i] + ys[i + 1..], f);
      MapRemoveAt(ys, i, f);
      assert Map(xs, f) == [f(xs[0])] + Map(xs[1..], f);
    }
  }

  /** Filtering keeps the order of a sorted sequence. */
  lemma {:induction false} FilterSorted<T>(xs: seq<T>, p: T -> bool, key: T -> int)
    requires SortedBy(xs, key)
    ensures SortedBy(Filter(xs, p), key)
    decreases |xs|
  {
    if |xs| > 0 {
      assert SortedBy(xs[1..], key);
      FilterSorted(xs[1..], p, key);
      FilterMembers(xs[1..], p);
      var rest := Filter(xs[1..], p);
      assert forall k :: 0 <= k < |rest| ==> key(xs[0]) <= key(rest[k]);
    }
  }

  /** Everything the filter keeps comes from the input. */
  lemma {:induction false} FilterMembers<T>(xs: seq<T>, p: T -> bool)
    ensures forall k :: 0 <= k < |Filter(xs, p)| ==> Filter(xs, p)[k] in xs
    decreases |xs|
  {
    if |xs| > 0 {
      FilterMembers(xs[1..], p);
    }
  }

  /** The filtered elements are those of the input satisfying `p`, with multiplicity. */
  lemma {:induction false} FilterMultiset<T>(xs: seq<T>, p: T -> bool)
    ensures multiset(Filter(xs, p)) <= multiset(xs)
    decreases |xs|
  {
    if |xs| > 0 {
      FilterMultiset(xs[1..], p);
      assert xs == [xs[0]] + xs[1..];
    }
  }

  /** When every element qualifies, `FilterMap` is `Map`. */
  lemma {:induction false} FilterMapAll<T, U>(xs: seq<T>, p: T -> bool, f: T -> U)
    requires forall k :: 0 <= k < |xs| ==> p(xs[k])
    ensures FilterMap(xs, p, f) == Map(xs, f)
    decreases |xs|
  {
    if |xs| > 0 {
      var init := xs[..|xs| - 1];
      FilterMapAll(init, p, f);
      assert xs == init + [xs[|xs| - 1]];
      MapAppend(init, [xs[|xs| - 1]], f);
    }
  }

  /** When no element qualifies, `FilterMap` is empty. */
  lemma {:induction false} FilterMapNone<T, U>(xs: seq<T>, p: T -> bool, f: T -> U)
    requires forall k :: 0 <= k < |xs| ==> !p(xs[k])
    ensures FilterMap(xs, p, f) == []
    decreases |xs|
  {
    if |xs| > 0 {
      FilterMapNone(xs[..|xs| - 1], p, f);
    }
  }

  /** A trailing element that does not qualify adds nothing. */
  lemma FilterMapSkipLast<T, U>(xs: seq<T>, x: T, p: T -> bool, f: T -> U)
    requires !p(x)
    ensures FilterMap(xs + [x], p, f) == FilterMap(xs, p, f)
  {
    assert (xs + [x])[..|xs|] == xs;
  }
}

=== FILE: strings.dfy ===
/** The JavaScript string built-ins the importer relies on (`startsWith`,
    `includes`, `trim`, `toLowerCase`, `split`, `join`, `replace`), written out
    over `seq<char>`. */
module Strings {

  /** `s` starts with `p`. */
  predicate IsPrefix(p: string, s: string) {
    |p| <= |s| && s[..|p|] == p
  }

  /** `s` ends with `p`. */
  predicate IsSuffix(p: string, s: string) {
    |p| <= |s| && s[|s| - |p|..] == p
  }

  /** `sub` occurs somewhere in `s`. */
  predicate Contains(s: string, sub: string)
    decreases |s|
  {
    IsPrefix(sub, s) || (|s| > 0 && Contains(s[1..], sub))
  }

  /** An occurrence of `sub` lies inside `s` exactly when `s.includes(sub)`. */
  lemma {:induction false} ContainsAt(s: string, sub: string, i: nat)
    requires i + |sub| <= |s| && s[i..i + |sub|] == sub
    ensures Contains(s, sub)
    decreases i
  {
    if i == 0 {
      assert s[..|sub|] == sub;
    } else {
      assert s[1..][i - 1..i - 1 + |sub|] == s[i..i + |sub|];
      ContainsAt(s[1..], sub, i - 1);
    }
  }

  /** The converse of `ContainsAt`: an `includes` hit has a position. */
  lemma {:induction false} ContainsWitness(s: string, sub: string) returns (i: nat)
    requires Contains(s, sub)
    ensures i + |sub| <= |s| && s[i..i + |sub|] == sub
    decreases |s|
  {
    if IsPrefix(sub, s) {
      i := 0;
    } else {
      var j := ContainsWitness(s[1..], sub);
      assert s[1..][j..j + |sub|] == s[j + 1..j + 1 + |sub|];
      i := j + 1;
    }
  }

  /** The characters `String.prototype.trim` removes (ECMAScript WhiteSpace and LineTerminator). */
  predicate IsJsSpace(c: char) {
    var n := c as int;
    n == 0x09 || n == 0x0A || n == 0x0B || n == 0x0C || n == 0x0D || n == 0x20
    || n == 0xA0 || n == 0x1680 || (0x2000 <= n <= 0x200A) || n == 0x2028 || n == 0x2029
    || n == 0x202F || n == 0x205F || n == 0x3000 || n == 0xFEFF
  }

  function TrimStart(s: string): (r: string)
    ensures IsSuffix(r, s)
    ensures |r| > 0 ==> !IsJsSpace(r[0])
    ensures forall i :: 0 <= i < |s| - |r| ==> IsJsSpace(s[i])
  {
    if |s| > 0 && IsJsSpace(s[0]) then TrimStart(s[1..]) else s
  }

  function TrimEnd(s: string): (r: string)
    ensures IsPrefix(r, s)
    ensures |r| > 0 ==> !IsJsSpace(r[|r| - 1])
    ensures forall i :: |r| <= i < |s| ==> IsJsSpace(s[i])
  {
    if |s| > 0 && IsJsSpace(s[|s| - 1]) then TrimEnd(s[..|s| - 1]) else s
  }

  /** `s` without its leading and trailing white space. */
  function Trim(s: string): string {
    TrimEnd(TrimStart(s))
  }

  /** A line is blank (`!line.trim()`) exactly when every character is white space. */
  lemma TrimEmptyIffAllSpace(s: string)
    ensures Trim(s) == "" <==> forall i :: 0 <= i < |s| ==> IsJsSpace(s[i])
  {
    var t := TrimStart(s);
    assert |t| > 0 ==> t[0] == s[|s| - |t|];
    if Trim(s) == "" {
      assert forall i :: |s| - |t| <= i < |s| ==> s[i] == t[i - (|s| - |t|)];
    }
  }

  /** `s.toLowerCase()` on the ASCII letters. */
  function ToLowerAscii(s: string): (r: string)
    ensures |r| == |s|
    ensures forall i :: 0 <= i < |s| ==> r[i] == (if 'A' <= s[i] <= 'Z' then (s[i] as int + 32) as char else s[i])
  {
    if |s| == 0 then "" else
    var c := s[0];
    [if 'A' <= c <= 'Z' then (c as int + 32) as char else c] + ToLowerAscii(s[1..])
  }

  function CountChar(s: string, c: char): nat {
    if |s| == 0 then 0 else (if s[0] == c then 1 else 0) + CountChar(s[1..], c)
  }

  lemma {:induction false} CountCharAppend(s: string, t: string, c: char)
    ensures CountChar(s + t, c) == CountChar(s, c) + CountChar(t, c)
    decreases |s|
  {
    if |s| == 0 {
      assert s + t == t;
    } else {
      assert (s + t)[1..] == s[1..] + t;
      CountCharAppend(s[1..], t, c);
    }
  }

  lemma CountCharAbsent(s: string, c: char)
    requires c !in s
    ensures CountChar(s, c) == 0
  {
  }

  /** `s` with every `c` removed. */
  function Without(s: string, c: char): (r: string)
    ensures c !in r
  {
    if |s| == 0 then "" else (if s[0] == c then "" else [s[0]]) + Without(s[1..], c)
  }

  lemma {:induction false} WithoutAppend(s: string, t: string, c: char)
    ensures Without(s + t, c) == Without(s, c) + Without(t, c)
    decreases |s|
  {
    if |s| == 0 {
      assert s + t == t;
    } else {
      var head := if s[0] == c then "" else [s[0]];
      assert (s + t)[0] == s[0];
      assert (s + t)[1..] == s[1..] + t;
      assert Without(s + t, c) == head + Without(s[1..] + t, c);
      assert Without(s, c) == head + Without(s[1..], c);
      WithoutAppend(s[1..], t, c);
      assert head + (Without(s[1..], c) + Without(t, c)) == (head + Without(s[1..], c)) + Without(t, c);
    }
  }

  /** `s.replace(/a/g, b)` for a single character `a`. */
  function ReplaceChar(s: string, a: char, b: char): (r: string)
    ensures |r| == |s|
    ensures forall i :: 0 <= i < |s| ==> r[i] == (if s[i] == a then b else s[i])
  {
    if |s| == 0 then "" else [if s[0] == a then b else s[0]] + ReplaceChar(s[1..], a, b)
  }

  /** The parts in order, with `sep` between each two. */
  function Join(parts: seq<string>, sep: string): string {
    if |parts| == 0 then ""
    else if |parts| == 1 then parts[0]
    else parts[0] + sep + Join(parts[1..], sep)
  }

  lemma {:induction false} JoinSnoc(parts: seq<string>, x: string, sep: string)
    requires |parts| > 0
    ensures Join(parts + [x], sep) == Join(parts, sep) + sep + x
    decreases |parts|
  {
    if |parts| == 1 {
      assert parts + [x] == [parts[0], x];
      assert [parts[0], x][1..] == [x];
    } else {
      assert (parts + [x])[1..] == parts[1..] + [x];
      JoinSnoc(parts[1..], x, sep);
    }
  }

  /** A character absent from every part and from the separator is absent from the join. */
  lemma {:induction false} JoinAvoids(parts: seq<string>, sep: string, c: char)
    requires c !in sep
    requires forall k :: 0 <= k < |parts| ==> c !in parts[k]
    ensures c !in Join(parts, sep)
    decreases |parts|
  {
    if |parts| > 1 {
      JoinAvoids(parts[1..], sep, c);
    }
  }

  /** `s.split(sep)` for a one-character separator: never empty, one more piece than separators. */
  function SplitOn(s: string, sep: char): (r: seq<string>)
    ensures |r| == CountChar(s, sep) + 1
    ensures forall k :: 0 <= k < |r| ==> sep !in r[k]
  {
    if |s| == 0 then [""]
    else
      var rest := SplitOn(s[1..], sep);
      if s[0] == sep then [""] + rest
      else [[s[0]] + rest[0]] + rest[1..]
  }

  lemma {:induction false} SplitOnPlain(s: string, sep: char)
    requires sep !in s
    ensures SplitOn(s, sep) == [s]
    decreases |s|
  {
    if |s| > 0 {
      SplitOnPlain(s[1..], sep);
      assert [s[0]] + s[1..] == s;
    }
  }

  /** Splitting after a separator-free prefix: the prefix is the first piece. */
  lemma {:induction false} SplitOnCons(a: string, sep: char, b: string)
    requires sep !in a
    ensures SplitOn(a + [sep] + b, sep) == [a] + SplitOn(b, sep)
    decreases |a|
  {
    if |a| == 0 {
      assert a + [sep] + b == [sep] + b;
      assert ([sep] + b)[1..] == b;
    } else {
      assert (a + [sep] + b)[1..] == a[1..] + [sep] + b;
      SplitOnCons(a[1..], sep, b);
      assert [a[0]] + a[1..] == a;
    }
  }

  /** Decimal rendering of a natural number, as `${n}` prints it. */
  function NatToString(n: nat): (r: string)
    ensures |r| > 0
    ensures forall i :: 0 <= i < |r| ==> '0' <= r[i] <= '9'
  {
    var d := ['0' + (n % 10) as char];
    if n < 10 then d else NatToString(n / 10) + d
  }
}

=== FILE: summary.dfy ===
/** `calculateLogbookSummary` (src/analysis.ts:14-106): one pass over the flights
    accumulating totals, the airports seen, and per-aircraft and per-type rollups. */
module Summary {
  import opened Types
  import opened Seqs
  import opened Dates

  // ---- the aircraft table as a lookup ----

  /** `aircraftMap.get(id)`: the map is filled in table order, so the last record with the id wins. */
  function AircraftById(aircraft: seq<Aircraft>, id: string): (r: Option<Aircraft>)
    ensures r.None? <==> forall k :: 0 <= k < |aircraft| ==> aircraft[k].aircraftId != id
    ensures r.Some? ==> r.value.aircraftId == id && r.value in aircraft
    decreases |aircraft|
  {
    if |aircraft| == 0 then None
    else if aircraft[|aircraft| - 1].aircraftId == id then Some(aircraft[|aircraft| - 1])
    else
      var r := AircraftById(aircraft[..|aircraft| - 1], id);
      assert r.Some? ==> r.value in aircraft[..|aircraft| - 1];
      r
  }

  /** The record found is the last one carrying the id. */
  lemma {:induction false} AircraftByIdIsLast(aircraft: seq<Aircraft>, id: string, k: nat)
    requires k < |aircraft| && aircraft[k].aircraftId == id
    requires forall j :: k < j < |aircraft| ==> aircraft[j].aircraftId != id
    ensures AircraftById(aircraft, id) == Some(aircraft[k])
    decreases |aircraft|
  {
    if k < |aircraft| - 1 {
      AircraftByIdIsLast(aircraft[..|aircraft| - 1], id, k);
    }
  }

  /** `s`, or `fallback` when `s` is empty. */
  function OrElse(s: string, fallback: string): (r: string)
    ensures r == s || r == fallback
    ensures r == "" ==> fallback == ""
  {
    if s != "" then s else fallback
  }

  /** The type key of a flight's aircraft record: its type code, or 'Unknown'
      when there is no record or the code is empty. */
  function TypeKey(detail: Option<Aircraft>): (r: string)
    ensures r != ""
  {
    if detail.None? then "Unknown" else OrElse(detail.value.typeCode, "Unknown")
  }

  /** The make/model/type recorded for an aircraft the first time it is flown. */
  function LabelFor(detail: Option<Aircraft>, id: string): (r: AircraftLabel)
    ensures detail.None? ==> r == AircraftLabel("Unknown", id, "Unknown")
    ensures r.make != "" && r.typeName != "" && (id != "" ==> r.model != "")
    ensures detail.Some? && detail.value.make != "" ==> r.make == detail.value.make
  {
    if detail.None? then AircraftLabel("Unknown", id, "Unknown")
    else AircraftLabel(OrElse(detail.value.make, "Unknown"), OrElse(detail.value.model, id), TypeKey(detail))
  }

  // ---- keyed rollups (the `aircraftStats` / `typeStats` objects) ----

  /** Position of `key` among the rollups, or -1. */
  function KeyIndex<L>(stats: seq<Rollup<L>>, key: string): (r: int)
    ensures -1 <= r < |stats|
    ensures r == -1 <==> forall k :: 0 <= k < |stats| ==> stats[k].key != key
    ensures r >= 0 ==> stats[r].key == key
  {
    if |stats| == 0 then -1
    else if stats[0].key == key then 0
    else
      var r := KeyIndex(stats[1..], key);
      if r == -1 then -1 else r + 1
  }

  predicate KeysDistinct<L>(stats: seq<Rollup<L>>) {
    forall i, j :: 0 <= i < j < |stats| ==> stats[i].key != stats[j].key
  }

  function KeySet<L>(stats: seq<Rollup<L>>): set<string> {
    set k | 0 <= k < |stats| :: stats[k].key
  }

  function HoursOf<L>(r: Rollup<L>): real { r.hours }

  function FlightCount<L>(stats: seq<Rollup<L>>): nat {
    if |stats| == 0 then 0 else stats[0].flights + FlightCount(stats[1..])
  }

  /** Files one flight under `key`: its rollup gains the hours and one flight,
      and a key not seen before gets a new rollup at the end. */
  function Bump<L>(stats: seq<Rollup<L>>, key: string, info: L, hours: real): seq<Rollup<L>> {
    var i := KeyIndex(stats, key);
    if i < 0 then stats + [Rollup(key, info, hours, 1)]
    else stats[i := stats[i].(hours := stats[i].hours + hours, flights := stats[i].flights + 1)]
  }

  lemma {:induction false} FlightCountAppend<L>(xs: seq<Rollup<L>>, ys: seq<Rollup<L>>)
    ensures FlightCount(xs + ys) == FlightCount(xs) + FlightCount(ys)
    decreases |xs|
  {
    if |xs| == 0 {
      assert xs + ys == ys;
    } else {
      assert (xs + ys)[1..] == xs[1..] + ys;
      FlightCountAppend(xs[1..], ys);
    }
  }

  /** Updating one rollup in place changes the sums by the difference at that rollup. */
  lemma UpdateSums<L>(stats: seq<Rollup<L>>, i: nat, x: Rollup<L>)
    requires i < |stats|
    ensures Sum(stats[i := x], HoursOf) == Sum(stats, HoursOf) - stats[i].hours + x.hours
    ensures FlightCount(stats[i := x]) == FlightCount(stats) - stats[i].flights + x.flights
  {
    var pre, post := stats[..i], stats[i + 1..];
    assert stats == pre + [stats[i]] + post;
    assert stats[i := x] == pre + [x] + post;
    SumAppend(pre + [stats[i]], post, HoursOf);
    SumAppend(pre, [stats[i]], HoursOf);
    SumAppend(pre + [x], post, HoursOf);
    SumAppend(pre, [x], HoursOf);
    FlightCountAppend(pre + [stats[i]], post);
    FlightCountAppend(pre, [stats[i]]);
    FlightCountAppend(pre + [x], post);
    FlightCountAppend(pre, [x]);
  }

  /** A bump adds its hours and one flight to the totals, keeps keys distinct, adds
      the key to the key set, and never relabels an existing rollup. */
  lemma BumpFacts<L>(stats: seq<Rollup<L>>, key: string, info: L, hours: real)
    requires KeysDistinct(stats)
    ensures var r := Bump(stats, key, info, hours);
      && KeysDistinct(r)
      && KeySet(r) == KeySet(stats) + {key}
      && Sum(r, HoursOf) == Sum(stats, HoursOf) + hours
      && FlightCount(r) == FlightCount(stats) + 1
      && |r| >= |stats|
      && (forall k :: 0 <= k < |stats| ==> r[k].key == stats[k].key && r[k].info == stats[k].info)
      && (key !in KeySet(stats) ==> r[|r| - 1] == Rollup(key, info, hours, 1))
  {
    if KeyIndex(stats, key) < 0 {
      BumpNew(stats, key, info, hours);
    } else {
      BumpExisting(stats, key, info, hours);
    }
  }

  lemma BumpNew<L>(stats: seq<Rollup<L>>, key: string, info: L, hours: real)
    requires KeysDistinct(stats) && KeyIndex(stats, key) < 0
    ensures var r := Bump(stats, key, info, hours);
      && r == stats + [Rollup(key, info, hours, 1)]
      && KeysDistinct(r)
      && KeySet(r) == KeySet(stats) + {key}
      && Sum(r, HoursOf) == Sum(stats, HoursOf) + hours
      && FlightCount(r) == FlightCount(stats) + 1
  {
    var x := Rollup(key, info, hours, 1);
    var r := stats + [x];
    SumSnoc(stats, x, HoursOf);
    FlightCountAppend(stats, [x]);
    assert FlightCount([x]) == 1;
    forall y | y in KeySet(r) ensures y in KeySet(stats) + {key} {
      var k :| 0 <= k < |r| && r[k].key == y;
      if k < |stats| {
        assert stats[k].key == y;
      }
    }
    forall y | y in KeySet(stats) ensures y in KeySet(r) {
      var k :| 0 <= k < |stats| && stats[k].key == y;
      assert r[k].key == y;
    }
    assert r[|stats|].key == key;
  }

  lemma BumpExisting<L>(stats: seq<Rollup<L>>, key: string, info: L, hours: real)
    requires KeysDistinct(stats) && KeyIndex(stats, key) >= 0
    ensures var r := Bump(stats, key, info, hours);
      && |r| == |stats|
      && (forall k :: 0 <= k < |stats| ==> r[k].key == stats[k].key && r[k].info == stats[k].info)
      && KeysDistinct(r)
      && KeySet(r) == KeySet(stats) && key in KeySet(stats)
      && Sum(r, HoursOf) == Sum(stats, HoursOf) + hours
      && FlightCount(r) == FlightCount(stats) + 1
  {
    var i := KeyIndex(stats, key);
    var x := stats[i].(hours := stats[i].hours + hours, flights := stats[i].flights + 1);
    var r := stats[i := x];
    BumpAt(stats, key, info, hours, i, x);
    UpdateSums(stats, i, x);
    UpdateKeepsKeys(stats, i, x);
    assert stats[i].key == key;
    assert key in KeySet(stats);
  }

  /** A key already present is bumped in place. */
  lemma BumpAt<L>(stats: seq<Rollup<L>>, key: string, info: L, hours: real, i: int, x: Rollup<L>)
    requires i == KeyIndex(stats, key) && i >= 0
    requires x == stats[i].(hours := stats[i].hours + hours, flights := stats[i].flights + 1)
    ensures Bump(stats, key, info, hours) == stats[i := x]
  {
  }

  /** Replacing a rollup by one with the same key leaves the keys as they were. */
  lemma UpdateKeepsKeys<L>(stats: seq<Rollup<L>>, i: nat, x: Rollup<L>)
    requires i < |stats| && x.key == stats[i].key
    ensures KeysDistinct(stats) ==> KeysDistinct(stats[i := x])
    ensures KeySet(stats[i := x]) == KeySet(stats)
  {
    var r := stats[i := x];
    assert forall k :: 0 <= k < |r| ==> r[k].key == stats[k].key;
    forall y | y in KeySet(r) ensures y in KeySet(stats) {
      var k :| 0 <= k < |r| && r[k].key == y;
      assert stats[k].key == y;
    }
    forall y | y in KeySet(stats) ensures y in KeySet(r) {
      var k :| 0 <= k < |stats| && stats[k].key == y;
      assert r[k].key == y;
    }
  }

  // ---- the accumulation loop ----

  /** The running totals of the loop. */
  datatype Totals = Totals(
    total: real, pic: real, sic: real, crossCountry: real, night: real,
    actualInstrument: real, simulatedInstrument: real,
    allLandings: real, dayLandings: real, nightLandings: real)

  /** Loop state: totals, airports in first-seen order, and the two rollup tables. */
  datatype Tally = Tally(
    totals: Totals,
    airports: seq<string>,
    aircraftStats: seq<Rollup<AircraftLabel>>,
    typeStats: seq<Rollup<()>>)

  function TotalTimeOf(f: FlightEntry): real { f.totalTime }
  function PicOf(f: FlightEntry): real { f.pic }
  function SicOf(f: FlightEntry): real { f.sic }
  function CrossCountryOf(f: FlightEntry): real { f.crossCountry }
  function NightOf(f: FlightEntry): real { f.night }
  function ActualOf(f: FlightEntry): real { f.actualInstrument }
  function SimulatedOf(f: FlightEntry): real { f.simulatedInstrument }
  function AllLandingsOf(f: FlightEntry): real { f.allLandings }
  function DayLandingsOf(f: FlightEntry): real { f.dayLandings }
  function NightLandingsOf(f: FlightEntry): real { f.nightLandings }

  /** `if (a) uniqueAirports.add(a)`: a Set keeps first-insertion order. */
  function AddAirport(airports: seq<string>, a: string): seq<string> {
    if a != "" && a !in airports then airports + [a] else airports
  }

  function AddTotals(t: Totals, f: FlightEntry): Totals {
    Totals(
      t.total + f.totalTime, t.pic + f.pic, t.sic + f.sic, t.crossCountry + f.crossCountry,
      t.night + f.night, t.actualInstrument + f.actualInstrument,
      t.simulatedInstrument + f.simulatedInstrument, t.allLandings + f.allLandings,
      t.dayLandings + f.dayLandings, t.nightLandings + f.nightLandings)
  }

  /** The type key of a flight: the type code of its aircraft record, or 'Unknown'. */
  function FlightType(aircraft: seq<Aircraft>, f: FlightEntry): string {
    TypeKey(AircraftById(aircraft, f.aircraftId))
  }

  /** One iteration of the loop body. */
  function TallyStep(aircraft: seq<Aircraft>, t: Tally, f: FlightEntry): Tally {
    var detail := AircraftById(aircraft, f.aircraftId);
    Tally(
      AddTotals(t.totals, f),
      AddAirport(AddAirport(t.airports, f.from), f.to),
      Bump(t.aircraftStats, f.aircraftId, LabelFor(detail, f.aircraftId), f.totalTime),
      Bump(t.typeStats, TypeKey(detail), (), f.totalTime))
  }

  /** The loop state after the given flights, in order. */
  function TallyOf(aircraft: seq<Aircraft>, flights: seq<FlightEntry>): Tally
    decreases |flights|
  {
    if |flights| == 0 then Tally(Totals(0.0, 0.0, 0.0, 0.0, 0.0, 0.0, 0.0, 0.0, 0.0, 0.0), [], [], [])
    else TallyStep(aircraft, TallyOf(aircraft, flights[..|flights| - 1]), flights[|flights| - 1])
  }

  /** The four accumulators of the loop are independent of one another: each is a
      fold of its own update over the flights. */
  function TotalsOf(flights: seq<FlightEntry>): Totals
    decreases |flights|
  {
    if |flights| == 0 then Totals(0.0, 0.0, 0.0, 0.0, 0.0, 0.0, 0.0, 0.0, 0.0, 0.0)
    else AddTotals(TotalsOf(flights[..|flights| - 1]), flights[|flights| - 1])
  }

  function AirportsOf(flights: seq<FlightEntry>): seq<string>
    decreases |flights|
  {
    if |flights| == 0 then []
    else
      var f := flights[|flights| - 1];
      AddAirport(AddAirport(AirportsOf(flights[..|flights| - 1]), f.from), f.to)
  }

  function AircraftStatsOf(aircraft: seq<Aircraft>, flights: seq<FlightEntry>): seq<Rollup<AircraftLabel>>
    decreases |flights|
  {
    if |flights| == 0 then []
    else
      var f := flights[|flights| - 1];
      var detail := AircraftById(aircraft, f.aircraftId);
      Bump(AircraftStatsOf(aircraft, flights[..|flights| - 1]), f.aircraftId, LabelFor(detail, f.aircraftId), f.totalTime)
  }

  function TypeStatsOf(aircraft: seq<Aircraft>, flights: seq<FlightEntry>): seq<Rollup<()>>
    decreases |flights|
  {
    if |flights| == 0 then []
    else
      var f := flights[|flights| - 1];
      Bump(TypeStatsOf(aircraft, flights[..|flights| - 1]), FlightType(aircraft, f), (), f.totalTime)
  }

  /** One more flight files it under its aircraft's rollup. */
  lemma AircraftStatsStep(aircraft: seq<Aircraft>, init: seq<FlightEntry>, f: FlightEntry)
    ensures AircraftStatsOf(aircraft, init + [f])
      == Bump(AircraftStatsOf(aircraft, init), f.aircraftId, LabelFor(AircraftById(aircraft, f.aircraftId), f.aircraftId), f.totalTime)
  {
    var flights := init + [f];
    assert flights[..|flights| - 1] == init;
    assert flights[|flights| - 1] == f;
  }

  /** One more flight files it under its type's rollup. */
  lemma TypeStatsStep(aircraft: seq<Aircraft>, init: seq<FlightEntry>, f: FlightEntry)
    ensures TypeStatsOf(aircraft, init + [f]) == Bump(TypeStatsOf(aircraft, init), FlightType(aircraft, f), (), f.totalTime)
  {
    var flights := init + [f];
    assert flights[..|flights| - 1] == init;
    assert flights[|flights| - 1] == f;
  }

  /** The single loop computes the four folds side by side. */
  lemma {:induction false} TallyComponents(aircraft: seq<Aircraft>, flights: seq<FlightEntry>)
    ensures TallyOf(aircraft, flights)
      == Tally(TotalsOf(flights), AirportsOf(flights), AircraftStatsOf(aircraft, flights), TypeStatsOf(aircraft, flights))
    decreases |flights|
  {
    if |flights| > 0 {
      TallyComponents(aircraft, flights[..|flights| - 1]);
    }
  }

  /** The totals after one more flight are the previous totals plus that flight. */
  lemma TotalsSnoc(init: seq<FlightEntry>, f: FlightEntry)
    ensures TotalsOf(init + [f]) == AddTotals(TotalsOf(init), f)
  {
    var flights := init + [f];
    assert flights[..|flights| - 1] == init;
    assert flights[|flights| - 1] == f;
  }

  /** The flight-time totals are the sums of their fields over the flights seen. */
  lemma {:induction false} TallyHours(flights: seq<FlightEntry>)
    ensures var t := TotalsOf(flights);
      && t.total == Sum(flights, TotalTimeOf)
      && t.pic == Sum(flights, PicOf)
      && t.sic == Sum(flights, SicOf)
      && t.crossCountry == Sum(flights, CrossCountryOf)
    decreases |flights|
  {
    if |flights| > 0 {
      var init, f := flights[..|flights| - 1], flights[|flights| - 1];
      assert flights == init + [f];
      TallyHours(init);
      TotalsSnoc(init, f);
      SumSnoc(init, f, TotalTimeOf);
      SumSnoc(init, f, PicOf);
      SumSnoc(init, f, SicOf);
      SumSnoc(init, f, CrossCountryOf);
    }
  }

  /** The night and instrument totals are the sums of their fields over the flights seen. */
  lemma {:induction false} TallyConditions(flights: seq<FlightEntry>)
    ensures var t := TotalsOf(flights);
      && t.night == Sum(flights, NightOf)
      && t.actualInstrument == Sum(flights, ActualOf)
      && t.simulatedInstrument == Sum(flights, SimulatedOf)
    decreases |flights|
  {
    if |flights| > 0 {
      var init, f := flights[..|flights| - 1], flights[|flights| - 1];
      assert flights == init + [f];
      TallyConditions(init);
      TotalsSnoc(init, f);
      SumSnoc(init, f, NightOf);
      SumSnoc(init, f, ActualOf);
      SumSnoc(init, f, SimulatedOf);
    }
  }

  /** Each running landing total is the sum of its field over the flights seen. */
  lemma {:induction false} TallyLandings(flights: seq<FlightEntry>)
    ensures var t := TotalsOf(flights);
      && t.allLandings == Sum(flights, AllLandingsOf)
      && t.dayLandings == Sum(flights, DayLandingsOf)
      && t.nightLandings == Sum(flights, NightLandingsOf)
    decreases |flights|
  {
    if |flights| > 0 {
      var init, f := flights[..|flights| - 1], flights[|flights| - 1];
      assert flights == init + [f];
      TallyLandings(init);
      TotalsSnoc(init, f);
      SumSnoc(init, f, AllLandingsOf);
      SumSnoc(init, f, DayLandingsOf);
      SumSnoc(init, f, NightLandingsOf);
    }
  }

  /** Every non-empty departure or arrival airport of the flights. */
  function AirportSet(flights: seq<FlightEntry>): set<string> {
    (set k | 0 <= k < |flights| && flights[k].from != "" :: flights[k].from)
    + (set k | 0 <= k < |flights| && flights[k].to != "" :: flights[k].to)
  }

  lemma AddAirportFacts(airports: seq<string>, a: string)
    requires Distinct(airports)
    ensures Distinct(AddAirport(airports, a))
    ensures (set x | x in AddAirport(airports, a)) == (set x | x in airports) + (if a != "" then {a} else {})
  {
  }

  lemma AirportSetSnoc(flights: seq<FlightEntry>, f: FlightEntry)
    ensures AirportSet(flights + [f]) ==
      AirportSet(flights) + (if f.from != "" then {f.from} else {}) + (if f.to != "" then {f.to} else {})
  {
    var g := flights + [f];
    forall x | x in AirportSet(g)
      ensures x in AirportSet(flights) + (if f.from != "" then {f.from} else {}) + (if f.to != "" then {f.to} else {})
    {
      var k :| 0 <= k < |g| && ((g[k].from != "" && g[k].from == x) || (g[k].to != "" && g[k].to == x));
      if k < |flights| {
        assert g[k] == flights[k];
      }
    }
    forall x | x in AirportSet(flights) ensures x in AirportSet(g) {
      var k :| 0 <= k < |flights| && ((flights[k].from != "" && flights[k].from == x) || (flights[k].to != "" && flights[k].to == x));
      assert g[k] == flights[k];
    }
    assert g[|flights|] == f;
  }

  /** The airport cells in the order the loop visits them: each flight's departure,
      then its arrival, empty cells included. */
  function Mentions(flights: seq<FlightEntry>): (r: seq<string>)
    ensures |r| == 2 * |flights|
    ensures forall k :: 0 <= k < |flights| ==> r[2 * k] == flights[k].from && r[2 * k + 1] == flights[k].to
    decreases |flights|
  {
    if |flights| == 0 then []
    else
      var f := flights[|flights| - 1];
      Mentions(flights[..|flights| - 1]) + [f.from, f.to]
  }

  /** `xs` lists the non-empty cells of `cells`, each once, in order of first appearance. */
  ghost predicate FirstSeenOrder(xs: seq<string>, cells: seq<string>) {
    && (forall x :: x in xs <==> x in cells && x != "")
    && (forall i, j :: 0 <= i < j < |xs| ==>
          xs[i] in cells && xs[j] in cells && FirstIndex(cells, xs[i]) < FirstIndex(cells, xs[j]))
  }

  /** Adding one cell to the set keeps the list in first-seen order. */
  lemma AddAirportOrder(airports: seq<string>, cells: seq<string>, a: string)
    requires FirstSeenOrder(airports, cells)
    ensures FirstSeenOrder(AddAirport(airports, a), cells + [a])
  {
    var r := AddAirport(airports, a);
    var c := cells + [a];
    forall x ensures x in r <==> x in c && x != "" {
      assert x in c <==> x in cells || x == a;
    }
    forall x | x in cells ensures FirstIndex(c, x) == FirstIndex(cells, x) {
      FirstIndexAppend(cells, [a], x);
    }
    forall i, j | 0 <= i < j < |r| ensures r[i] in c && r[j] in c && FirstIndex(c, r[i]) < FirstIndex(c, r[j]) {
      if j < |airports| {
        assert r[i] == airports[i] && r[j] == airports[j];
      } else {
        assert r[i] == airports[i] && r[j] == a && a !in cells;
        FirstIndexAppend(cells, [a], a);
      }
    }
  }

  /** The airports list is duplicate-free, holds exactly the non-empty from/to values,
      and lists them in the order they first appear in the logbook. */
  lemma {:induction false} TallyAirports(flights: seq<FlightEntry>)
    ensures Distinct(AirportsOf(flights))
    ensures (set x | x in AirportsOf(flights)) == AirportSet(flights)
    ensures FirstSeenOrder(AirportsOf(flights), Mentions(flights))
    decreases |flights|
  {
    if |flights| > 0 {
      var init, f := flights[..|flights| - 1], flights[|flights| - 1];
      TallyAirports(init);
      var a := AirportsOf(init);
      var r := AirportsOf(flights);
      assert r == AddAirport(AddAirport(a, f.from), f.to);
      assert Distinct(r) && (set x | x in r) == AirportSet(flights) by {
        AddAirportFacts(a, f.from);
        AddAirportFacts(AddAirport(a, f.from), f.to);
        assert flights == init + [f];
        AirportSetSnoc(init, f);
      }
      assert FirstSeenOrder(r, Mentions(flights)) by {
        AddAirportOrder(a, Mentions(init), f.from);
        AddAirportOrder(AddAirport(a, f.from), Mentions(init) + [f.from], f.to);
        assert Mentions(flights) == Mentions(init) + [f.from] + [f.to];
      }
    }
  }

  /** The set of aircraft ids flown. */
  function FlownIds(flights: seq<FlightEntry>): set<string> {
    set k | 0 <= k < |flights| :: flights[k].aircraftId
  }

  /** The set of type keys flown. */
  function FlownTypes(aircraft: seq<Aircraft>, flights: seq<FlightEntry>): set<string> {
    set k | 0 <= k < |flights| :: FlightType(aircraft, flights[k])
  }

  lemma FlownSnoc(aircraft: seq<Aircraft>, flights: seq<FlightEntry>, f: FlightEntry)
    ensures FlownIds(flights + [f]) == FlownIds(flights) + {f.aircraftId}
    ensures FlownTypes(aircraft, flights + [f]) == FlownTypes(aircraft, flights) + {FlightType(aircraft, f)}
  {
    var g := flights + [f];
    forall x | x in FlownIds(g) ensures x in FlownIds(flights) + {f.aircraftId} {
      var k :| 0 <= k < |g| && g[k].aircraftId == x;
      if k < |flights| { assert g[k] == flights[k]; }
    }
    forall x | x in FlownIds(flights) ensures x in FlownIds(g) {
      var k :| 0 <= k < |flights| && flights[k].aircraftId == x;
      assert g[k] == flights[k];
    }
    assert g[|flights|] == f;
    forall x | x in FlownTypes(aircraft, g) ensures x in FlownTypes(aircraft, flights) + {FlightType(aircraft, f)} {
      var k :| 0 <= k < |g| && FlightType(aircraft, g[k]) == x;
      if k < |flights| { assert g[k] == flights[k]; }
    }
    forall x | x in FlownTypes(aircraft, flights) ensures x in FlownTypes(aircraft, g) {
      var k :| 0 <= k < |flights| && FlightType(aircraft, flights[k]) == x;
      assert g[k] == flights[k];
    }
  }

  // ---- what each rollup entry holds ----

  function AircraftIdOf(f: FlightEntry): string { f.aircraftId }

  /** The type key of each flight, for a fixed aircraft table. */
  function TypeOf(aircraft: seq<Aircraft>): FlightEntry -> string {
    (f: FlightEntry) => FlightType(aircraft, f)
  }

  /** The flights filed under `key` by `keyOf`. */
  function HasKey(keyOf: FlightEntry -> string, key: string): FlightEntry -> bool {
    (f: FlightEntry) => keyOf(f) == key
  }

  /** Every rollup entry holds the total time and the number of exactly those
      flights that are filed under its key. */
  predicate EntriesMatch<L>(stats: seq<Rollup<L>>, flights: seq<FlightEntry>, keyOf: FlightEntry -> string) {
    forall k :: 0 <= k < |stats| ==>
      && stats[k].hours == Sum(Filter(flights, HasKey(keyOf, stats[k].key)), TotalTimeOf)
      && stats[k].flights == |Filter(flights, HasKey(keyOf, stats[k].key))|
  }

  /** Filing one more flight under its key keeps every entry equal to the flights
      filed under that entry's key. */
  lemma BumpMatches<L>(stats: seq<Rollup<L>>, flights: seq<FlightEntry>, keyOf: FlightEntry -> string,
                       f: FlightEntry, info: L)
    requires KeysDistinct(stats)
    requires EntriesMatch(stats, flights, keyOf)
    requires forall j :: 0 <= j < |flights| ==> keyOf(flights[j]) in KeySet(stats)
    ensures EntriesMatch(Bump(stats, keyOf(f), info, f.totalTime), flights + [f], keyOf)
  {
    var key := keyOf(f);
    var r := Bump(stats, key, info, f.totalTime);
    var i := KeyIndex(stats, key);
    forall k | 0 <= k < |r|
      ensures r[k].hours == Sum(Filter(flights + [f], HasKey(keyOf, r[k].key)), TotalTimeOf)
      ensures r[k].flights == |Filter(flights + [f], HasKey(keyOf, r[k].key))|
    {
      var p := HasKey(keyOf, r[k].key);
      FilterSnoc(flights, f, p);
      SumAppend(Filter(flights, p), if p(f) then [f] else [], TotalTimeOf);
      if i < 0 {
        if k == |stats| {
          assert r[k] == Rollup(key, info, f.totalTime, 1);
          forall j | 0 <= j < |flights| ensures !p(flights[j]) {
            var y := keyOf(flights[j]);
            var m :| 0 <= m < |stats| && stats[m].key == y;
          }
          FilterNone(flights, p);
        } else {
          assert r[k] == stats[k] && stats[k].key != key;
        }
      } else if k == i {
        assert r[k].key == key && p(f);
      } else {
        assert r[k] == stats[k] && stats[k].key != stats[i].key;
      }
    }
  }

  /** The aircraft rollups have one entry per aircraft id flown; the counts add up
      to the number of flights and the hours to the total time. */
  lemma {:induction false} AircraftRollups(aircraft: seq<Aircraft>, flights: seq<FlightEntry>)
    ensures var s := AircraftStatsOf(aircraft, flights);
      && KeysDistinct(s)
      && KeySet(s) == FlownIds(flights)
      && FlightCount(s) == |flights|
      && Sum(s, HoursOf) == Sum(flights, TotalTimeOf)
    decreases |flights|
  {
    if |flights| > 0 {
      var init, f := flights[..|flights| - 1], flights[|flights| - 1];
      assert flights == init + [f];
      var prev, s := AircraftStatsOf(aircraft, init), AircraftStatsOf(aircraft, flights);
      AircraftRollups(aircraft, init);
      assert s == Bump(prev, f.aircraftId, LabelFor(AircraftById(aircraft, f.aircraftId), f.aircraftId), f.totalTime) by {
        AircraftStatsStep(aircraft, init, f);
      }
      BumpFacts(prev, f.aircraftId, LabelFor(AircraftById(aircraft, f.aircraftId), f.aircraftId), f.totalTime);
      assert KeySet(s) == FlownIds(flights) by {
        FlownSnoc(aircraft, init, f);
      }
      assert Sum(s, HoursOf) == Sum(flights, TotalTimeOf) by {
        SumSnoc(init, f, TotalTimeOf);
      }
    }
  }

  /** Every flight has its aircraft's rollup, and no id has two. */
  lemma AircraftKeysCover(aircraft: seq<Aircraft>, flights: seq<FlightEntry>)
    ensures KeysDistinct(AircraftStatsOf(aircraft, flights))
    ensures forall j :: 0 <= j < |flights| ==> AircraftIdOf(flights[j]) in KeySet(AircraftStatsOf(aircraft, flights))
  {
    AircraftRollups(aircraft, flights);
    forall j | 0 <= j < |flights| ensures AircraftIdOf(flights[j]) in KeySet(AircraftStatsOf(aircraft, flights)) {
      assert flights[j].aircraftId in FlownIds(flights);
    }
  }

  /** Each aircraft rollup holds the hours and the count of exactly the flights
      logged in that aircraft. */
  lemma {:induction false} AircraftRollupEntries(aircraft: seq<Aircraft>, flights: seq<FlightEntry>)
    ensures EntriesMatch(AircraftStatsOf(aircraft, flights), flights, AircraftIdOf)
    decreases |flights|
  {
    if |flights| > 0 {
      var init, f := flights[..|flights| - 1], flights[|flights| - 1];
      assert flights == init + [f];
      var prev := AircraftStatsOf(aircraft, init);
      var info := LabelFor(AircraftById(aircraft, f.aircraftId), f.aircraftId);
      assert AircraftStatsOf(aircraft, flights) == Bump(prev, AircraftIdOf(f), info, f.totalTime) by {
        AircraftStatsStep(aircraft, init, f);
      }
      AircraftRollupEntries(aircraft, init);
      AircraftKeysCover(aircraft, init);
      BumpMatches(prev, init, AircraftIdOf, f, info);
    }
  }

  /** The type rollups have one entry per type key flown; the counts add up to the
      number of flights and the hours to the total time. */
  lemma {:induction false} TypeRollups(aircraft: seq<Aircraft>, flights: seq<FlightEntry>)
    ensures var s := TypeStatsOf(aircraft, flights);
      && KeysDistinct(s)
      && KeySet(s) == FlownTypes(aircraft, flights)
      && FlightCount(s) == |flights|
      && Sum(s, HoursOf) == Sum(flights, TotalTimeOf)
    decreases |flights|
  {
    if |flights| > 0 {
      var init, f := flights[..|flights| - 1], flights[|flights| - 1];
      assert flights == init + [f];
      var prev, s := TypeStatsOf(aircraft, init), TypeStatsOf(aircraft, flights);
      TypeRollups(aircraft, init);
      assert s == Bump(prev, FlightType(aircraft, f), (), f.totalTime) by {
        TypeStatsStep(aircraft, init, f);
      }
      BumpFacts(prev, FlightType(aircraft, f), (), f.totalTime);
      assert KeySet(s) == FlownTypes(aircraft, flights) by {
        FlownSnoc(aircraft, init, f);
      }
      assert Sum(s, HoursOf) == Sum(flights, TotalTimeOf) by {
        SumSnoc(init, f, TotalTimeOf);
      }
    }
  }

  /** Every flight has its type's rollup, and no type has two. */
  lemma TypeKeysCover(aircraft: seq<Aircraft>, flights: seq<FlightEntry>)
    ensures KeysDistinct(TypeStatsOf(aircraft, flights))
    ensures forall j :: 0 <= j < |flights| ==> TypeOf(aircraft)(flights[j]) in KeySet(TypeStatsOf(aircraft, flights))
  {
    TypeRollups(aircraft, flights);
    forall j | 0 <= j < |flights| ensures TypeOf(aircraft)(flights[j]) in KeySet(TypeStatsOf(aircraft, flights)) {
      assert FlightType(aircraft, flights[j]) in FlownTypes(aircraft, flights);
    }
  }

  /** Each type rollup holds the hours and the count of exactly the flights logged
      in aircraft of that type. */
  lemma {:induction false} TypeRollupEntries(aircraft: seq<Aircraft>, flights: seq<FlightEntry>)
    ensures EntriesMatch(TypeStatsOf(aircraft, flights), flights, TypeOf(aircraft))
    decreases |flights|
  {
    if |flights| > 0 {
      var init, f := flights[..|flights| - 1], flights[|flights| - 1];
      assert flights == init + [f];
      var prev := TypeStatsOf(aircraft, init);
      assert TypeStatsOf(aircraft, flights) == Bump(prev, TypeOf(aircraft)(f), (), f.totalTime) by {
        TypeStatsStep(aircraft, init, f);
      }
      TypeRollupEntries(aircraft, init);
      TypeKeysCover(aircraft, init);
      BumpMatches(prev, init, TypeOf(aircraft), f, ());
    }
  }

  /** Each aircraft rollup carries the label of that aircraft's record (last one
      wins), with 'Unknown' make and type and the id as model when there is none. */
  lemma {:induction false} TallyLabels(aircraft: seq<Aircraft>, flights: seq<FlightEntry>)
    ensures var s := AircraftStatsOf(aircraft, flights);
      forall k :: 0 <= k < |s| ==> s[k].info == LabelFor(AircraftById(aircraft, s[k].key), s[k].key)
    decreases |flights|
  {
    if |flights| > 0 {
      var init, f := flights[..|flights| - 1], flights[|flights| - 1];
      TallyLabels(aircraft, init);
      AircraftRollups(aircraft, init);
      var detail := AircraftById(aircraft, f.aircraftId);
      BumpFacts(AircraftStatsOf(aircraft, init), f.aircraftId, LabelFor(detail, f.aircraftId), f.totalTime);
    }
  }

  // ---- the summary ----

  /** The number of 365-day years a whole number of days spans, rounded up. */
  function CeilYears(days: int): (r: int)
    ensures 365 * (r - 1) < days <= 365 * r
  {
    -((-days) / 365)
  }

  /** Years of flying: none without both dates, otherwise the span in 365-day
      years rounded up, and at least one. */
  function YearsFlying(first: string, last: string, cal: Calendar): (r: int)
    ensures r == 0 <==> first == "" || last == ""
    ensures first != "" && last != "" ==> r >= 1
    ensures first != "" && last != "" && cal.dateKey(last) - cal.dateKey(first) <= 365 ==> r == 1
    ensures first != "" && last != "" && cal.dateKey(last) - cal.dateKey(first) > 365 ==>
      365 * (r - 1) < cal.dateKey(last) - cal.dateKey(first) <= 365 * r
  {
    if first == "" || last == "" then 0
    else
      var y := CeilYears(cal.dateKey(last) - cal.dateKey(first));
      if y > 1 then y else 1
  }

  /** The summary record. */
  function CalculateSummary(data: LogbookData, cal: Calendar): (r: LogbookSummary)
    ensures r.totalHours == Sum(data.flights, TotalTimeOf)
    ensures r.picHours == Sum(data.flights, PicOf) && r.sicHours == Sum(data.flights, SicOf)
    ensures r.crossCountryHours == Sum(data.flights, CrossCountryOf) && r.nightHours == Sum(data.flights, NightOf)
    ensures r.actualInstrumentHours == Sum(data.flights, ActualOf)
    ensures r.simulatedInstrumentHours == Sum(data.flights, SimulatedOf)
    ensures r.instrumentHours == r.actualInstrumentHours + r.simulatedInstrumentHours
    ensures r.totalLandings == Sum(data.flights, AllLandingsOf)
    ensures r.dayLandings == Sum(data.flights, DayLandingsOf) && r.nightLandings == Sum(data.flights, NightLandingsOf)
    ensures Distinct(r.uniqueAirports) && (set x | x in r.uniqueAirports) == AirportSet(data.flights)
    ensures FirstSeenOrder(r.uniqueAirports, Mentions(data.flights))
    ensures r.uniqueAircraftCount == |FlownIds(data.flights)|
    ensures KeySet(r.aircraftStats) == FlownIds(data.flights) && KeysDistinct(r.aircraftStats)
    ensures KeySet(r.typeStats) == FlownTypes(data.aircraft, data.flights) && KeysDistinct(r.typeStats)
    ensures FlightCount(r.aircraftStats) == |data.flights| && FlightCount(r.typeStats) == |data.flights|
    ensures Sum(r.aircraftStats, HoursOf) == r.totalHours && Sum(r.typeStats, HoursOf) == r.totalHours
    ensures EntriesMatch(r.aircraftStats, data.flights, AircraftIdOf)
    ensures EntriesMatch(r.typeStats, data.flights, TypeOf(data.aircraft))
    ensures forall k :: 0 <= k < |r.aircraftStats| ==>
      r.aircraftStats[k].info == LabelFor(AircraftById(data.aircraft, r.aircraftStats[k].key), r.aircraftStats[k].key)
    ensures |data.flights| == 0 ==> r.firstFlightDate == "" && r.lastFlightDate == "" && r.yearsFlying == 0
    ensures |data.flights| > 0 ==>
      && (forall f :: f in data.flights ==> cal.dateKey(r.firstFlightDate) <= cal.dateKey(f.date))
      && (forall f :: f in data.flights ==> cal.dateKey(f.date) <= cal.dateKey(r.lastFlightDate))
      && (exists f :: f in data.flights && f.date == r.firstFlightDate)
      && (exists f :: f in data.flights && f.date == r.lastFlightDate)
    ensures r.firstFlightDate != "" && r.lastFlightDate != "" ==> r.yearsFlying >= 1
    ensures r.yearsFlying == YearsFlying(r.firstFlightDate, r.lastFlightDate, cal)
  {
    var sorted := Chronological(data.flights, cal);
    var first := if |sorted| > 0 then sorted[0].date else "";
    var last := if |sorted| > 0 then sorted[|sorted| - 1].date else "";
    var t := TallyOf(data.aircraft, data.flights);
    TallyComponents(data.aircraft, data.flights);
    TallyHours(data.flights);
    TallyConditions(data.flights);
    TallyLandings(data.flights);
    TallyAirports(data.flights);
    AircraftRollups(data.aircraft, data.flights);
    TypeRollups(data.aircraft, data.flights);
    AircraftRollupEntries(data.aircraft, data.flights);
    TypeRollupEntries(data.aircraft, data.flights);
    TallyLabels(data.aircraft, data.flights);
    RollupCount(t.aircraftStats);
    ChronologicalFirstIsEarliest(data.flights, cal);
    ChronologicalEndsLogged(data.flights, cal);
    LogbookSummary(
      totalHours := t.totals.total,
      picHours := t.totals.pic,
      sicHours := t.totals.sic,
      crossCountryHours := t.totals.crossCountry,
      nightHours := t.totals.night,
      instrumentHours := t.totals.actualInstrument + t.totals.simulatedInstrument,
      actualInstrumentHours := t.totals.actualInstrument,
      simulatedInstrumentHours := t.totals.simulatedInstrument,
      totalLandings := t.totals.allLandings,
      dayLandings := t.totals.dayLandings,
      nightLandings := t.totals.nightLandings,
      uniqueAircraftCount := |t.aircraftStats|,
      uniqueAirports := t.airports,
      firstFlightDate := first,
      lastFlightDate := last,
      yearsFlying := YearsFlying(first, last, cal),
      aircraftStats := t.aircraftStats,
      typeStats := t.typeStats)
  }

  /** Distinct keys: as many rollups as keys. */
  lemma RollupCount<L>(stats: seq<Rollup<L>>)
    requires KeysDistinct(stats)
    ensures |KeySet(stats)| == |stats|
  {
    var keys := seq(|stats|, k requires 0 <= k < |stats| => stats[k].key);
    assert Distinct(keys);
    DistinctCardinality(keys);
    forall x | x in KeySet(stats) ensures x in keys {
      var k :| 0 <= k < |stats| && stats[k].key == x;
      assert keys[k] == x;
    }
    assert (set x | x in keys) == KeySet(stats);
  }

  /** The totals do not depend on the order of the flights. */
  lemma SummaryOrderIndependent(data: LogbookData, other: seq<FlightEntry>, cal: Calendar)
    requires multiset(other) == multiset(data.flights)
    ensures var a := CalculateSummary(data, cal);
      var b := CalculateSummary(LogbookData(data.aircraft, other), cal);
      && a.totalHours == b.totalHours && a.picHours == b.picHours && a.sicHours == b.sicHours
      && a.crossCountryHours == b.crossCountryHours && a.nightHours == b.nightHours
      && a.instrumentHours == b.instrumentHours
      && a.totalLandings == b.totalLandings && a.dayLandings == b.dayLandings
      && a.nightLandings == b.nightLandings
  {
    SumPermutation(data.flights, other, TotalTimeOf);
    SumPermutation(data.flights, other, PicOf);
    SumPermutation(data.flights, other, SicOf);
    SumPermutation(data.flights, other, CrossCountryOf);
    SumPermutation(data.flights, other, NightOf);
    SumPermutation(data.flights, other, ActualOf);
    SumPermutation(data.flights, other, SimulatedOf);
    SumPermutation(data.flights, other, AllLandingsOf);
    SumPermutation(data.flights, other, DayLandingsOf);
    SumPermutation(data.flights, other, NightLandingsOf);
  }
}

=== FILE: tokenizer.dfy ===
/** The one-line CSV tokenizer `parseCSVLine` (src/parser.ts:157-174): a single
    left-to-right pass with one `inQuotes` flag. A double quote toggles the flag
    and is dropped, a comma outside quotes ends the current field, every other
    character is appended to it. There is no escape rule. */
module Tokenizer {
  import opened Strings

  /** Loop state of `parseCSVLine`: finished fields, the field being built, the quote flag. */
  datatype LexState = LexState(fields: seq<string>, current: string, inQuotes: bool)

  const Start := LexState([], "", false)

  /** One iteration of the character loop. */
  function Step(st: LexState, c: char): LexState {
    if c == '"' then st.(inQuotes := !st.inQuotes)
    else if c == ',' && !st.inQuotes then LexState(st.fields + [st.current], "", st.inQuotes)
    else st.(current := st.current + [c])
  }

  /** The loop state after consuming all of `line`. */
  function Run(line: string): LexState
    decreases |line|
  {
    if |line| == 0 then Start else Step(Run(line[..|line| - 1]), line[|line| - 1])
  }

  /** `parseCSVLine(line)`: the finished fields plus the last one. */
  function Tokenize(line: string): seq<string> {
    var st := Run(line);
    st.fields + [st.current]
  }

  /** Reference count, independent of the state machine: a comma is a separator
      exactly when an even number of double quotes precedes it. */
  function UnquotedCommas(line: string): nat
    decreases |line|
  {
    if |line| == 0 then 0
    else
      var init := line[..|line| - 1];
      UnquotedCommas(init) + (if line[|line| - 1] == ',' && CountChar(init, '"') % 2 == 0 then 1 else 0)
  }

  lemma CountCharSnoc(s: string, c: char, q: char)
    ensures CountChar(s + [c], q) == CountChar(s, q) + (if c == q then 1 else 0)
  {
    CountCharAppend(s, [c], q);
  }

  /** The quote flag after a prefix is the parity of the quotes in it. */
  lemma {:induction false} RunInQuotes(line: string)
    ensures Run(line).inQuotes <==> CountChar(line, '"') % 2 == 1
    decreases |line|
  {
    if |line| > 0 {
      var init := line[..|line| - 1];
      RunInQuotes(init);
      assert line == init + [line[|line| - 1]];
      CountCharSnoc(init, line[|line| - 1], '"');
    }
  }

  /** Completed fields are exactly the separating commas seen so far. */
  lemma {:induction false} RunFieldCount(line: string)
    ensures |Run(line).fields| == UnquotedCommas(line)
    decreases |line|
  {
    if |line| > 0 {
      RunFieldCount(line[..|line| - 1]);
      RunInQuotes(line[..|line| - 1]);
    }
  }

  /** `parseCSVLine` returns one more field than there are commas outside quotes;
      in particular it never returns an empty list. */
  lemma TokenizeFieldCount(line: string)
    ensures |Tokenize(line)| == UnquotedCommas(line) + 1
    ensures |Tokenize(line)| >= 1
  {
    RunFieldCount(line);
  }

  /** The empty line is one empty field. */
  lemma TokenizeEmptyLine()
    ensures Tokenize("") == [""]
  {
  }

  /** Commas inside quotes are data: `a,"b,c",d` gives three fields. */
  lemma TokenizeQuotedComma()
    ensures Tokenize("a,\"b,c\",d") == ["a", "b,c", "d"]
  {
    var line := "a,\"b,c\",d";
    assert Run(line[..0]) == Start;
    assert line[..1][..0] == line[..0];
    assert Run(line[..1]) == LexState([], "a", false);
    assert line[..2][..1] == line[..1];
    assert Run(line[..2]) == LexState(["a"], "", false);
    assert line[..3][..2] == line[..2];
    assert Run(line[..3]) == LexState(["a"], "", true);
    assert line[..4][..3] == line[..3];
    assert Run(line[..4]) == LexState(["a"], "b", true);
    assert line[..5][..4] == line[..4];
    assert Run(line[..5]) == LexState(["a"], "b,", true);
    assert line[..6][..5] == line[..5];
    assert Run(line[..6]) == LexState(["a"], "b,c", true);
    assert line[..7][..6] == line[..6];
    assert Run(line[..7]) == LexState(["a"], "b,c", false);
    assert line[..8][..7] == line[..7];
    assert Run(line[..8]) == LexState(["a", "b,c"], "", false);
    assert line[..9][..8] == line[..8];
    assert Run(line[..9]) == LexState(["a", "b,c"], "d", false);
    assert line[..9] == line;
  }

  /** The invariant behind the join round trip: joining the fields seen so far
      with commas gives the consumed text with its quotes removed. */
  lemma {:induction false} RunJoin(line: string)
    ensures Join(Run(line).fields + [Run(line).current], ",") == Without(line, '"')
    decreases |line|
  {
    if |line| > 0 {
      var init := line[..|line| - 1];
      var c := line[|line| - 1];
      var st := Run(init);
      RunJoin(init);
      assert line == init + [c];
      assert Run(line) == Step(st, c);
      WithoutAppend(init, [c], '"');
      assert Without([c], '"') == (if c == '"' then "" else [c]);
      if c == '"' {
        assert Without(line, '"') == Without(init, '"');
      } else if c == ',' && !st.inQuotes {
        JoinSnoc(st.fields + [st.current], "", ",");
      } else if |st.fields| == 0 {
        assert st.fields + [st.current + [c]] == [st.current + [c]];
      } else {
        JoinSnoc(st.fields, st.current, ",");
        JoinSnoc(st.fields, st.current + [c], ",");
      }
    }
  }

  /** Joining the fields with `,` gives back the line with every `"` removed. */
  lemma TokenizeJoin(line: string)
    ensures Join(Tokenize(line), ",") == Without(line, '"')
  {
    RunJoin(line);
  }

  /** No field ever contains a double quote. */
  lemma {:induction false} RunNoQuotes(line: string)
    ensures '"' !in Run(line).current
    ensures forall k :: 0 <= k < |Run(line).fields| ==> '"' !in Run(line).fields[k]
    decreases |line|
  {
    if |line| > 0 {
      RunNoQuotes(line[..|line| - 1]);
    }
  }

  lemma TokenizeNoQuotes(line: string)
    ensures forall k :: 0 <= k < |Tokenize(line)| ==> '"' !in Tokenize(line)[k]
  {
    RunNoQuotes(line);
  }

  /** Quotes can only merge fields: there are at most one more field than commas. */
  lemma {:induction false} UnquotedCommasBound(line: string)
    ensures UnquotedCommas(line) <= CountChar(line, ',')
    decreases |line|
  {
    if |line| > 0 {
      var init := line[..|line| - 1];
      UnquotedCommasBound(init);
      assert line == init + [line[|line| - 1]];
      CountCharSnoc(init, line[|line| - 1], ',');
    }
  }

  lemma TokenizeFieldBound(line: string)
    ensures |Tokenize(line)| <= CountChar(line, ',') + 1
  {
    TokenizeFieldCount(line);
    UnquotedCommasBound(line);
  }

  /** Appending text without commas or quotes only extends the current field. */
  lemma {:induction false} RunPlainSuffix(s: string, v: string)
    requires ',' !in v && '"' !in v
    ensures Run(s + v) == Run(s).(current := Run(s).current + v)
    decreases |v|
  {
    if |v| == 0 {
      assert s + v == s;
    } else {
      var w, c := v[..|v| - 1], v[|v| - 1];
      assert v == w + [c];
      assert c in v;
      assert ',' !in w && '"' !in w;
      RunPlainSuffix(s, w);
      var line := s + v;
      assert line[..|line| - 1] == s + w && line[|line| - 1] == c;
      var st := Run(s + w);
      assert Run(line) == Step(st, c);
      assert Step(st, c) == st.(current := st.current + [c]);
      assert st.current + [c] == Run(s).current + v;
    }
  }

  /** A comma-join of plain values runs to: all but the last value finished, the last one open. */
  lemma {:induction false} RunJoinPlain(vs: seq<string>)
    requires |vs| >= 1
    requires forall k :: 0 <= k < |vs| ==> ',' !in vs[k] && '"' !in vs[k]
    ensures Run(Join(vs, ",")) == LexState(vs[..|vs| - 1], vs[|vs| - 1], false)
    decreases |vs|
  {
    if |vs| == 1 {
      RunPlainSuffix("", vs[0]);
      assert "" + vs[0] == vs[0];
    } else {
      var ws := vs[..|vs| - 1];
      var v := vs[|vs| - 1];
      assert vs == ws + [v];
      JoinSnoc(ws, v, ",");
      RunJoinPlain(ws);
      var j := Join(ws, ",");
      assert (j + [','])[..|j|] == j;
      assert Run(j + [',']) == LexState(ws, "", false);
      RunPlainSuffix(j + [','], v);
      assert j + "," + v == (j + [',']) + v;
    }
  }

  /** Values free of `,` and `"` survive a comma-join: the tokenizer recovers them exactly. */
  lemma TokenizeJoinPlain(vs: seq<string>)
    requires |vs| >= 1
    requires forall k :: 0 <= k < |vs| ==> ',' !in vs[k] && '"' !in vs[k]
    ensures Tokenize(Join(vs, ",")) == vs
  {
    RunJoinPlain(vs);
  }

  /** Fields completed within a prefix stay the first fields of the whole line. */
  lemma {:induction false} RunExtends(p: string, rest: string)
    ensures |Run(p).fields| <= |Run(p + rest).fields|
    ensures Run(p + rest).fields[..|Run(p).fields|] == Run(p).fields
    decreases |rest|
  {
    if |rest| == 0 {
      assert p + rest == p;
    } else {
      var r := rest[..|rest| - 1];
      RunExtends(p, r);
      assert (p + rest)[..|p + rest| - 1] == p + r;
    }
  }

  /** The tokenizer as the source writes it: an index loop over the characters. */
  method ParseCsvLine(line: string) returns (result: seq<string>)
    ensures result == Tokenize(line)
    ensures |result| == UnquotedCommas(line) + 1
    ensures Join(result, ",") == Without(line, '"')
  {
    result := [];
    var current := "";
    var inQuotes := false;
    for i := 0 to |line|
      invariant Run(line[..i]) == LexState(result, current, inQuotes)
    {
      var c := line[i];
      assert line[..i + 1][..i] == line[..i];
      if c == '"' {
        inQuotes := !inQuotes;
      } else if c == ',' && !inQuotes {
        result := result + [current];
        current := "";
      } else {
        current := current + [c];
      }
    }
    assert line[..|line|] == line;
    result := result + [current];
    TokenizeFieldCount(line);
    TokenizeJoin(line);
  }
}

=== FILE: types.dfy ===
/** Record shapes of the logbook importer (src/types.ts) and the abstract
    collaborators the pure core is parameterised by. */
module Types {

  /** JavaScript's `undefined`-or-value, as produced by an out-of-range index. */
  datatype Option<T> = None | Some(value: T) {
    function GetOr(default: T): T {
      if Some? then value else default
    }
  }

  /** Success value or the reason a computation gave up. */
  datatype Result<T, E> = Success(value: T) | Failure(error: E)

  datatype Aircraft = Aircraft(
    aircraftId: string,
    typeCode: string,
    year: string,
    make: string,
    model: string,
    gearType: string,
    engineType: string,
    equipType: string,
    aircraftClass: string,
    complexAircraft: string,
    taa: string,
    highPerformance: string,
    pressurized: string)

  /** One logged flight. JavaScript numbers are modelled as reals (float rounding
      is not modelled). `route` and the clock times are `None` when the flights
      header has no such column (the importer leaves them `undefined`). */
  datatype FlightEntry = FlightEntry(
    date: string,
    aircraftId: string,
    from: string,
    to: string,
    route: Option<string>,
    timeOut: Option<string>,
    timeOff: Option<string>,
    timeOn: Option<string>,
    timeIn: Option<string>,
    totalTime: real,
    pic: real,
    sic: real,
    night: real,
    solo: real,
    crossCountry: real,
    ifr: real,
    actualInstrument: real,
    simulatedInstrument: real,
    approaches: seq<string>,
    dayLandings: real,
    nightLandings: real,
    allLandings: real,
    dualReceived: real,
    dualGiven: real,
    pilotComments: string,
    instructorComments: string,
    flightReview: string,
    ipc: string,
    checkride: string)

  datatype LogbookData = LogbookData(aircraft: seq<Aircraft>, flights: seq<FlightEntry>)

  /** Per-key rollup of hours and flight count; `info` is fixed when the key is first seen. */
  datatype Rollup<L> = Rollup(key: string, info: L, hours: real, flights: nat)

  /** Descriptive part of a per-aircraft rollup. */
  datatype AircraftLabel = AircraftLabel(make: string, model: string, typeName: string)

  datatype LogbookSummary = LogbookSummary(
    totalHours: real,
    picHours: real,
    sicHours: real,
    crossCountryHours: real,
    nightHours: real,
    instrumentHours: real,
    actualInstrumentHours: real,
    simulatedInstrumentHours: real,
    totalLandings: real,
    dayLandings: real,
    nightLandings: real,
    uniqueAircraftCount: nat,
    uniqueAirports: seq<string>,
    firstFlightDate: string,
    lastFlightDate: string,
    yearsFlying: int,
    aircraftStats: seq<Rollup<AircraftLabel>>,
    typeStats: seq<Rollup<()>>)

  datatype Certification = Certification(title: string, date: string, description: string)

  datatype Milestone = Milestone(year: string, title: string, description: string)

  datatype CurrencyInfo = CurrencyInfo(
    passengerCurrency: bool,
    nightCurrency: bool,
    instrumentCurrency: bool,
    lastBiennial: string,
    lastIpc: string)

  datatype AirportInfo = AirportInfo(
    ident: string,
    kind: string,
    name: string,
    elevationFt: string,
    continent: string,
    isoCountry: string,
    isoRegion: string,
    municipality: string,
    icaoCode: string,
    iataCode: string,
    gpsCode: string,
    localCode: string,
    coordinates: string)

  /** `parseFloat` / `parseInt`; `None` stands for NaN. */
  datatype NumberParsers = NumberParsers(parseFloat: string -> Option<real>, parseInt: string -> Option<int>)

  /** Date handling: `dateKey` orders date strings (the millisecond timestamp of
      `new Date(s)`, abstracted to an integer day number), `year` renders
      `getFullYear().toString()`. */
  datatype Calendar = Calendar(dateKey: string -> int, year: string -> string)
}
